=== FILE: README.md ===
# getoutthere — a Dafny model of the daily-challenge core

getoutthere hands each user one small "comfort zone" challenge per day. It
tracks how consistently they complete the challenges (the streak), how far
they have come (the comfort score) and which milestones they have reached
(badges). It also keeps a private journal, runs a public wall of small
"wins" with likes, and identifies users by an anonymous UUID until they
register with an email.

This project models that core as pure functions over immutable data:

- days are integers;
- instants are integer milliseconds;
- every table is a `map` keyed by its primary or unique key, or a `seq`
  in insertion order.

Each service call becomes a function from the old state to a `Result` and
the new state. The properties the code promises are proved as `ensures`
clauses and lemmas.

| module | file | models |
|---|---|---|
| `Wrappers`, `Text`, `Http`, `Days`, `Sorting` | wrappers.dfy, text.dfy, http.dfy, days.dfy, sorting.dfy | `Option`/`Result`, `String.prototype.trim`, `.length` in UTF-16 code units, JSON body values and truthiness, the maximum of a day set and "latest `n` days", a stable newest-first sort and `LIMIT n` |
| `Models` | models.dfy | the tables and their validators: users, challenges, assignments keyed by (user, day), stats rows, journal entries, wins and win events |
| `Streak`, `Comfort`, `Badges`, `StatsEngine` | streak.dfy, comfort.dfy, badges.dfy, stats.dfy | `StatsService`: the streak walk, the comfort score, the badge table, and the row updates |
| `ChallengeEngine` | challenges.dfy | `ChallengeService`: the difficulty band, catch-up, the level-1 preference, the category exclusion, the five-tier fallback, get-or-create, and completion |
| `Progress` | progress.dfy | the progress routes: the 24-hour note-edit window and the merged history |
| `Journal` | journal.dfy | the journal routes: create, update, delete and list, each scoped to its owner |
| `Wins` | wins.dfy | `WinsService` and the wins routes: the sliding one-minute rate limit, posting, liking, the feed, and the status mapping |
| `Auth` | auth.dfy | `AuthService`: the email-shape regular expression, registration and linking, and login |
| `Identity` | identity.dfy | the `authenticateAnon` middleware: token first, then the anonymous id's version-4 UUID check and find-or-create |
| `AnonStorage` | anonstorage.dfy | the browser's three-tier anonymous-id storage |
| `DailyAssign` | dailyassign.dfy | the nightly batch that assigns every user a challenge |
| `StreakRing` | streakring.dfy | the streak ring's milestone, fill, colour, message and captions |

Where the code and its description disagree, the model follows the code:

- `completeChallenge` does not look at `skipped_at`, so a skipped
  assignment can still be completed.
- A completion note longer than 2000 characters is not refused by the
  service. The column validator rejects it when the row is saved, and
  `ChallengeEngine.CompleteChallenge` returns that as the `NoteTooLong`
  error.
- The note-edit route accepts an edit at exactly 24 hours after
  completion. The client's `canEditNote` (web/src/pages/Journal.tsx:149-155)
  already hides the button then. `Progress.EditWindowBoundary` states both
  sides of this.
- The email regular expression accepts more than one `.` and any
  characters other than white space and `@`. `Auth.EmailShapeIff` states
  exactly what it accepts.
- The routes' and the service's length checks use JavaScript's
  `.length`, which counts UTF-16 code units. An emoji counts twice. So a
  journal entry is capped at 5000 code units, a win at 280, and a
  password needs 8 code units, not 8 characters (`Text.Utf16Length`).
  The column validators count characters, and the model keeps that
  difference: the note's 2000 and the entry's 1..5000 are character
  counts.

## Model

| member | source | states |
|---|---|---|
| Days.Latest | server/src/services/StatsService.ts:24-40 | the `LIMIT 100` history query: at most `n` of the given days, exactly `n` when there are that many, always including the newest |
| Days.LatestNewest | server/src/services/StatsService.ts:24-40 | a day newer than a day the query returned is returned too |
| Days.LatestAll | server/src/services/StatsService.ts:24-40 | a history of at most `n` days is returned whole |
| Streak.CurrentStreak | server/src/services/StatsService.ts:42-106 | the streak is at most 100 and at most the number of completed days; it is 0 with no completions, and 0 when the latest completion is older than yesterday |
| Streak.StartDay | server/src/services/StatsService.ts:82-86 | the walk starts today exactly when today is completed, and yesterday otherwise |
| Streak.WalkCountsCoveredRun | server/src/services/StatsService.ts:94-106 | the backward walk counts exactly the completed days of the unbroken run of completed-or-skipped days, cut at the step limit |
| Streak.WalkWithinWindow | server/src/services/StatsService.ts:94-106 | the walk counts no more completed days than lie in the window it can reach |
| Streak.StreakIsRunLength | server/src/services/StatsService.ts:68-106 | with a completion today or yesterday, the streak is the number of completed days in the run ending at the start day |
| Streak.SkipPassesThrough | server/src/services/StatsService.ts:94-106 | for every history, a skipped day that is not completed and lies within reach of an unbroken run adds nothing: the walk counts the completed days above it and carries on below it with the steps left |
| Streak.GapEndsTheWalk | server/src/services/StatsService.ts:94-106 | for every history, the days below a day that is neither completed nor skipped never change the walk |
| Streak.SkipExample | server/src/services/StatsService.ts:68-106 | example: completions on days 1 and 3 around a skip on day 2 give a streak of 2 on day 3 |
| Streak.GapExample | server/src/services/StatsService.ts:68-106 | example: completions on days 1 and 3 with a gap on day 2 give a streak of 1 on day 3 |
| StatsEngine.StreakQuery | server/src/services/StatsService.ts:24-40 | the query keeps a subset of the days with the same newest day: exactly 100 of them when there are that many, and all of them otherwise |
| StatsEngine.StreakOf | server/src/services/StatsService.ts:19-106 | `updateStreak`'s current streak from the two limited queries, with the same bounds |
| StatsEngine.ShortHistoryStreak | server/src/services/StatsService.ts:24-40 | with at most 100 completed and at most 100 skipped days, the limit changes nothing |
| StatsEngine.UpdateStreak | server/src/services/StatsService.ts:19-119 | the row gets the new current streak; the longest streak never decreases and ends at least the current one; no other field or row changes |
| StatsEngine.UpdateComfortScore | server/src/services/StatsService.ts:121-196 | given the completion query's stamps (at most 100, newest first), only the comfort score changes, it gets the computed score, and the row stays within the validator's 0..100 |
| StatsEngine.AwardBadges | server/src/services/StatsService.ts:198-239 | the new badges are exactly the qualifying ids not yet earned; all badges are the old list plus them, without duplicates when the stored list had none; the row is written only when something is new |
| StatsEngine.AwardBadgesKeepsDistinct | server/src/services/StatsService.ts:225-236 | when no stored badge list holds a duplicate, none does after the check, and the returned list holds none |
| StatsEngine.AwardBadgesIdempotent | server/src/services/StatsService.ts:225-236 | a second check with unchanged counts awards nothing and changes nothing |
| StatsEngine.UpdateAllStats | server/src/services/StatsService.ts:241-246 | given the completion query's stamps (at most 100, newest first), the score, then the streaks, then the badges against the fresh streaks; only this user's row changes |
| StatsEngine.UpdateAllStatsKeepsDistinct | server/src/services/StatsService.ts:241-246 | the full update keeps every stored badge list free of duplicates |
| Comfort.BaseScore | server/src/services/StatsService.ts:140-149 | the base score lies in 0..100, and is at least 2 from one completion on |
| Comfort.BaseScoreMonotone | server/src/services/StatsService.ts:140-149 | more completions never lower the base score |
| Comfort.ActivityFactor | server/src/services/StatsService.ts:172 | the activity factor lies in 1.0..1.2 |
| Comfort.ActivityFactorMonotone | server/src/services/StatsService.ts:172 | a larger recent count never lowers the factor |
| Comfort.DecayFactor | server/src/services/StatsService.ts:179-186 | the decay factor lies in 0.7..1.0; it is 1 up to 7 idle days and 0.7 from 22 on |
| Comfort.DecayFactorAntitone | server/src/services/StatsService.ts:179-186 | more idle days never raise the decay factor |
| Comfort.Round | server/src/services/StatsService.ts:188 | `Math.round` is the floor of `x + 0.5` |
| Comfort.RoundMonotone | server/src/services/StatsService.ts:188 | rounding is monotone |
| Comfort.ClampedRound | server/src/services/StatsService.ts:188 | the clamped rounding lies in 0..100, and is at least 1 from 0.5 on |
| Comfort.ClampedRoundMonotone | server/src/services/StatsService.ts:188 | the clamped rounding is monotone |
| Comfort.Weighted | server/src/services/StatsService.ts:172-173 | the weighted score lies in 2..120 |
| Comfort.Decayed | server/src/services/StatsService.ts:176-188 | the stored score with completions lies in 1..100 |
| Comfort.DecayedAntitone | server/src/services/StatsService.ts:176-188 | more idle days never raise the decayed score |
| Comfort.Score | server/src/services/StatsService.ts:138-188 | with at least one completion, the score lies in 1..100 |
| Comfort.ScoreAntitoneInIdleDays | server/src/services/StatsService.ts:176-188 | a more recent last completion never lowers the score |
| Comfort.WeightedMonotoneInRecent | server/src/services/StatsService.ts:172-173 | more recent completions never lower the weighted score |
| Comfort.DecayedMonotone | server/src/services/StatsService.ts:176-188 | a larger weighted score never gives a lower stored score |
| Comfort.ScoreMonotoneInRecent | server/src/services/StatsService.ts:168-188 | more completions in the last 7 days never lower the score |
| Comfort.ComfortScore | server/src/services/StatsService.ts:126-191 | for the query's stamps (at most 100, newest first), the score is 0 exactly when there are no completions, and otherwise lies in 1..100 |
| Badges.AwardMembers | server/src/services/StatsService.ts:225-230 | an id is appended exactly when it qualifies and was not already earned |
| Badges.AwardFresh | server/src/services/StatsService.ts:225-230 | appending the awarded ids keeps a duplicate-free list duplicate-free |
| Badges.NothingLeft | server/src/services/StatsService.ts:225-230 | once every qualifying id is earned, the loop appends nothing |
| Badges.AwardIdempotent | server/src/services/StatsService.ts:212-230 | checking again with the ids just awarded appends nothing |
| Badges.AwardLoop | server/src/services/StatsService.ts:225-230 | the `forEach` over any rule list appends, in order, exactly the ids the recursive definition of the loop appends |
| Badges.CheckAndAwardBadges | server/src/services/StatsService.ts:198-239 | the loop over the badge table returns the ids awarded in table order, and the earned list with them appended, without duplicates |
| Models.NewChallenge | server/src/models/Challenge.ts:58-61 | a challenge created without `is_active` is active |
| Models.CompletedDays | server/src/models/UserChallenge.ts:42-45 | a day is completed exactly when the user's assignment for it has a completion time |
| Models.SkippedDays | server/src/services/StatsService.ts:33-40 | a day is skipped exactly when the user's assignment for it has a skip time |
| Models.AssignedDays | server/src/models/UserChallenge.ts:60-65 | the days holding one of the user's assignments |
| Models.ZeroStats | server/src/models/UserStats.ts:22-37 | a new stats row has zero streaks, a zero score within the validator, and no badges |
| Models.GetOrCreateStats | server/src/services/StatsService.ts:5-17 | the user's row is returned and kept, or created zero-valued; no other row changes |
| Models.GetOrCreateStatsIdempotent | server/src/services/StatsService.ts:5-17 | a second call finds the first call's row and changes nothing |
| ChallengeEngine.DifficultyRange | server/src/services/ChallengeService.ts:16-26 | the band is two adjacent levels within 1..5: it starts at 1 exactly for scores up to 20, at 2 exactly for 21..50, at 3 exactly for 51..80, and at 4 exactly above 80 |
| ChallengeEngine.DifficultyRangeMonotone | server/src/services/ChallengeService.ts:16-26 | a higher score never gives an easier band |
| ChallengeEngine.CatchUp | server/src/services/ChallengeService.ts:64-72 | with no recent completion the score drops by exactly 20, and with one by exactly 10, in both cases floored at 0; with two or more it is unchanged |
| ChallengeEngine.CatchUpMonotone | server/src/services/ChallengeService.ts:64-72 | more recent completions never lower the adjusted score |
| ChallengeEngine.RecentCompletions | server/src/services/ChallengeService.ts:56-62 | the count of completed days from three days back, no more than all completed days |
| ChallengeEngine.Preferred | server/src/services/ChallengeService.ts:77 | level 1 is preferred exactly when the adjusted score is 0 |
| ChallengeEngine.AssignedCategory | server/src/services/ChallengeService.ts:85-94 | the category of the user's challenge on a day, when that day has an assignment whose challenge exists |
| ChallengeEngine.ExcludedCategories | server/src/services/ChallengeService.ts:80-97 | the excluded categories are exactly those of the user's challenges one, two and three days before |
| ChallengeEngine.FindAll | server/src/services/ChallengeService.ts:100-160 | a query returns exactly the catalog rows that match it |
| ChallengeEngine.Eligible | server/src/services/ChallengeService.ts:100-165 | every eligible challenge is an active catalog row, and the set is empty exactly when no challenge is active |
| ChallengeEngine.Tiers | server/src/services/ChallengeService.ts:100-160 | the tiers end with the query for any active challenge |
| ChallengeEngine.EligibleIsFirstNonEmptyTier | server/src/services/ChallengeService.ts:100-165 | the eligible set is the first non-empty result of the tier queries, tried in order |
| ChallengeEngine.PickIndex | server/src/services/ChallengeService.ts:167 | `Math.floor(Math.random() * n)` is an index below `n` |
| ChallengeEngine.PickCoversEligible | server/src/services/ChallengeService.ts:167 | every eligible challenge is picked for some random value |
| ChallengeEngine.EligibleFor | server/src/services/ChallengeService.ts:39-165 | the user's eligible set holds only active catalog rows, and is empty exactly when none is active |
| ChallengeEngine.GetTodayChallenge | server/src/services/ChallengeService.ts:28-181 | an existing assignment is returned unchanged; otherwise it fails exactly when no challenge is active, and else stores a new pending assignment of an eligible challenge under (user, date) and nothing else |
| ChallengeEngine.GetTodayChallengeIdempotent | server/src/services/ChallengeService.ts:31-39 | asking again on the same day returns the same assignment and changes nothing, whatever the random value |
| ChallengeEngine.CompleteChallenge | server/src/services/ChallengeService.ts:183-209 | no assignment today, already completed, and an over-long note are the only failures, each exactly when it applies; a pending assignment with an acceptable note is always completed, and then only the completion time and a non-empty note are set |
| ChallengeEngine.CompleteChallengeKeepsStore | server/src/services/ChallengeService.ts:198-207 | completion keeps every note within the validator and touches no other assignment |
| ChallengeEngine.CompleteTwiceFails | server/src/services/ChallengeService.ts:198-200 | a second completion on the same day fails |
| Progress.EditStatus | server/src/routes/progress.ts:100-128 | an unknown date is answered 404, an over-long note 500, and every other refusal 400 |
| Progress.HoursAgainstMs | server/src/routes/progress.ts:122-126 | more than 24 hours is exactly more than one day of milliseconds |
| Progress.StoredNote | server/src/routes/progress.ts:131 | the empty string and null both clear the note |
| Progress.EditNote | server/src/routes/progress.ts:95-139 | a note that is neither a string nor null, an unknown date, a pending assignment, a closed window, and a note over the column limit each fail exactly when they apply; every other edit succeeds, and only the note changes |
| Progress.EditNoteKeepsStore | server/src/routes/progress.ts:130-132 | an edit keeps notes within the validator, keeps the completion and the challenge, and touches no other assignment |
| Progress.EditWindowBoundary | server/src/routes/progress.ts:121-128 | at exactly 24 hours the server still accepts an edit that the client's `canEditNote` refuses, and stores a note within the limit; at every other age the two agree |
| Progress.ShownNote | server/src/routes/progress.ts:54 | an empty note is shown as null |
| Progress.ChallengeHistory | server/src/routes/progress.ts:44-55 | one item per challenge row, completed exactly when the row has a completion time |
| Progress.JournalHistory | server/src/routes/progress.ts:58-71 | one item per journal entry, always completed, with no note |
| Progress.History | server/src/routes/progress.ts:73-76 | the merged history holds exactly the challenge and journal items, newest date first |
| Progress.HistoryStable | server/src/routes/progress.ts:73-76 | on each date the history lists the challenge items first and then the journal items, each in its query's order |
| Progress.ChallengeItemsFirstOnADate | server/src/routes/progress.ts:73-76 | on one date, no challenge item comes after a journal item |
| Progress.JournalItemsCompleted | server/src/routes/progress.ts:61 | a journal item in the history is shown completed |
| Sorting.Insert | server/src/routes/progress.ts:74-76 | insertion adds exactly the one item |
| Sorting.InsertSorted | server/src/routes/progress.ts:74-76 | insertion into a descending list keeps it descending |
| Sorting.SortDesc | server/src/routes/progress.ts:74-76 | the sort is a descending permutation of its input |
| Sorting.InsertKeepsEqualOrder | server/src/routes/progress.ts:74-76 | an inserted item lands ahead of any item with the same key |
| Sorting.WithKeyMembers | server/src/routes/progress.ts:74-76 | the items selected for a key are exactly the items of the list that carry that key |
| Sorting.WithKeyAppend | server/src/routes/progress.ts:74 | the items of one key in a concatenation are those of the first part followed by those of the second |
| Sorting.WithKeyKeepsOrder | server/src/routes/progress.ts:74-76 | two items of the same key keep their relative order among that key's items |
| Sorting.InsertWithKey | server/src/routes/progress.ts:74-76 | insertion puts the item ahead of every item of its own key and leaves the order of each key's items alone |
| Sorting.SortDescStable | server/src/routes/progress.ts:74-76 | the sort is stable: each key's items come out in the order they went in |
| Sorting.Take | server/src/routes/journal.ts:16 | `LIMIT n` keeps the first `n` items, or all of them when there are fewer |
| Sorting.TakeDescending | server/src/routes/journal.ts:15-16 | a prefix of a descending list is descending |
| Sorting.TakeKeepsNewest | server/src/routes/journal.ts:15-16 | `LIMIT n` on a descending list keeps a sub-multiset, and every item it drops is no newer than every item it keeps |
| Text.TrimStart | server/src/routes/journal.ts:41 | leading white space is removed and nothing else |
| Text.TrimEnd | server/src/routes/journal.ts:41 | trailing white space is removed and nothing else |
| Text.Trim | server/src/routes/journal.ts:41 | the trimmed text is a slice of the input with only white space before and after it, empty exactly when the input is all white space, and otherwise with no white space at either end |
| Text.TrimFrame | server/src/routes/journal.ts:41 | trimming the end and then the start removes only white space, from either end |
| Text.TrimEnds | server/src/routes/journal.ts:41 | the two passes leave nothing exactly when the input is all white space, and otherwise a text starting and ending with other characters |
| Text.SpaceFramedUnique | server/src/routes/journal.ts:41 | at most one slice of a string is framed by white space and starts and ends with other characters |
| Text.TrimUnique | server/src/routes/journal.ts:41 | any slice framed by white space, starting and ending with other characters, is the trimmed text |
| Text.FramedIsTrimmed | server/src/routes/journal.ts:41 | the two trimming passes yield exactly that framed slice |
| Text.TrimEmptyOnlyIfAllSpace | server/src/routes/journal.ts:41 | an empty trim means the input was all white space |
| Text.Utf16Length | server/src/routes/journal.ts:45 | JavaScript's `.length` counts UTF-16 code units: at least one and at most two per character |
| Text.Utf16LengthIsCount | server/src/routes/wins.ts:25 | `.length` equals the number of characters exactly when no character lies outside the Basic Multilingual Plane |
| Text.Utf16LengthAppend | server/src/routes/journal.ts:89 | the UTF-16 length of a concatenation is the sum of the two lengths |
| Text.Utf16Examples | server/src/services/AuthService.ts:68 | four emoji are eight code units, and four ASCII letters are four |
| Journal.DateShapeIsSyntaxOnly | server/src/routes/journal.ts:50-53 | the date check accepts a month 13 and a day 00: it checks syntax only, unlike full-date in section 5.6 of RFC 3339 |
| Journal.ErrorStatus | server/src/routes/journal.ts:37-103 | a missing entry is answered 404, an id clash 500, and every validation refusal 400 |
| Journal.Create | server/src/routes/journal.ts:33-59 | a missing field, blank content, content over 5000 UTF-16 code units before trimming, and a bad date each fail exactly when they apply, in that order; otherwise the trimmed content is stored, valid, under the user |
| Journal.CreateAccepts | server/src/routes/journal.ts:33-59 | a fresh id, a date of the right shape, and non-blank content of at most 5000 code units are stored as exactly one new entry with the trimmed content |
| Journal.CreateKeepsTableValid | server/src/models/JournalEntry.ts:32-38 | creating keeps every entry within the content validator, date-shaped, and with a unique id |
| Journal.FindOwned | server/src/routes/journal.ts:94-99 | the lookup finds an entry with both this id and this user, or none exists |
| Journal.CheckContent | server/src/routes/journal.ts:80-92 | a provided content fails when it is not a string, blank, or over 5000 UTF-16 code units, and with no other error; it succeeds exactly otherwise, yielding the trimmed text within the column's 1..5000 characters |
| Journal.Update | server/src/routes/journal.ts:75-108 | the content checks, counting UTF-16 code units, come before the lookup; an entry of another user is not found; the update succeeds exactly when the content is omitted or acceptable and the entry is the user's; omitted content changes nothing; otherwise only that entry's content changes |
| Journal.UpdateKeepsTableValid | server/src/models/JournalEntry.ts:32-38 | updating keeps the table valid |
| Journal.Delete | server/src/routes/journal.ts:124-139 | the delete fails with not-found exactly when no entry has this id and user; otherwise one entry is removed and every entry of another id or user is kept |
| Journal.DeleteRemovesEntry | server/src/routes/journal.ts:128-139 | with unique ids, no entry with the deleted id remains |
| Journal.Owned | server/src/routes/journal.ts:11-14 | the listing query holds exactly the user's entries |
| Journal.List | server/src/routes/journal.ts:9-17 | a sub-multiset of the user's entries, latest date first: exactly 100 of them when there are that many, and all of them otherwise |
| Journal.ListKeepsNewest | server/src/routes/journal.ts:15-16 | an entry of the user left out of the listing is dated no later than any entry in it |
| Journal.SameDayTwice | server/src/models/JournalEntry.ts:47-49 | two entries by one user on one date are both accepted, because the index is not unique |
| Wins.Limit | server/src/services/WinsService.ts:22 | one post or ten likes per window |
| Wins.RecentCount | server/src/services/WinsService.ts:14-20 | the rate query counts no more events than the log holds |
| Wins.NoneInWindow | server/src/services/WinsService.ts:11-24 | with no matching event in the window, the user may act |
| Wins.UserHash | server/src/services/WinsService.ts:27 | a missing or empty user id shares the hash `anonymous`; any other user id is hashed |
| Wins.CreateWin | server/src/services/WinsService.ts:26-52 | a post is refused exactly when the rate check fails, creating nothing; otherwise one win with zero likes and one post event are appended |
| Wins.FindWin | server/src/services/WinsService.ts:55 | the lookup finds a win with this id, or none exists |
| Wins.LikeWin | server/src/services/WinsService.ts:54-76 | an unknown win is refused before the rate check; a like raises that win's likes by one, leaves the others unchanged, and appends one like event |
| Wins.RecentCountAppend | server/src/services/WinsService.ts:14-20 | an appended event adds one to the count exactly when it is in the window |
| Wins.SecondPostRefused | server/src/services/WinsService.ts:30-33 | a second post by the same user within the minute is refused |
| Wins.RecentCountShrinks | server/src/services/WinsService.ts:12-20 | a later window never counts more events |
| Wins.PostAgainAfterMinute | server/src/services/WinsService.ts:11-33 | once no post lies in the window, a post is accepted |
| Wins.CountKind | server/src/services/WinsService.ts:46-49 | an event kind's count is at most the log's length |
| Wins.CountKindAppend | server/src/services/WinsService.ts:46-49 | an appended event adds one to its own kind's count only |
| Wins.TotalLikesBump | server/src/services/WinsService.ts:68-69 | one more like on one win raises the total by one |
| Wins.CreateKeepsLedger | server/src/services/WinsService.ts:39-49 | after a post there is still one post event per win, and one like event per like |
| Wins.LikeKeepsLedger | server/src/services/WinsService.ts:68-75 | after a like there is still one post event per win, and one like event per like |
| Wins.RecentWins | server/src/services/WinsService.ts:78-83 | a sub-multiset of the wins, newest first: exactly `limit` of them when there are that many, and all of them otherwise |
| Wins.RecentWinsKeepNewest | server/src/services/WinsService.ts:78-83 | a win left out of the result was created no later than any win in it |
| Wins.Feed | server/src/routes/wins.ts:7-15 | `GET /wins` answers the 50 most recent wins, newest first, or all of them when there are fewer |
| Wins.FeedKeepsNewest | server/src/routes/wins.ts:9 | a win missing from the feed is no newer than any win shown |
| Wins.PostErrorStatus | server/src/routes/wins.ts:43-48 | a message containing "Rate limit" is answered 403, anything else 500 |
| Wins.LikeErrorStatus | server/src/routes/wins.ts:63-71 | "Rate limit" is answered 403, "Win not found" 404, anything else 500 |
| Wins.MessagesMapToStatus | server/src/routes/wins.ts:44-69 | the service's two messages reach the statuses meant for them |
| Wins.PostWin | server/src/routes/wins.ts:17-50 | a missing or blank text, or one over 280 UTF-16 code units, is answered 400, a rate-limited post 403, and a post otherwise 200; only a 200 changes the state, and it broadcasts the created win exactly when a socket is attached |
| Wins.PostLike | server/src/routes/wins.ts:52-73 | an unknown win is answered 404, a rate-limited like 403, and a like otherwise 200; the like is broadcast only after it happened |
| Auth.EmailShapeMeansChars | server/src/services/AuthService.ts:62-65 | a string the email pattern matches has no white space, exactly one `@`, not first, and a `.` strictly inside the domain |
| Auth.CharsMeanEmailShape | server/src/services/AuthService.ts:62-65 | every string of that description matches the pattern |
| Auth.EmailShapeIff | server/src/services/AuthService.ts:62-65 | the pattern and the plain description agree |
| Auth.EmailShapeNonEmpty | server/src/services/AuthService.ts:62-65 | a matching email has at least five characters |
| Auth.EmailExamples | server/src/services/AuthService.ts:62-65 | "a@b.co" matches and "a@b" does not |
| Auth.OwnerOf | server/src/services/AuthService.ts:73 | the lookup by email finds a user holding that email, or none holds it |
| Auth.Register | server/src/services/AuthService.ts:56-107 | a bad email shape, then a password under 8 UTF-16 code units, then an email held by another user are refused in that order; linking fails exactly for an unknown user or one that has an email, and creating exactly when the fresh id or the email is taken; otherwise it succeeds, linking keeps the user's id, creating uses the fresh id, and only that row changes |
| Auth.FourEmojiPasswordLongEnough | server/src/services/AuthService.ts:68 | a password of four emoji is long enough, because `.length` counts each as two code units |
| Auth.RegisterKeepsUsersValid | server/src/models/User.ts:18-22 | registration keeps every email with one user |
| Auth.Login | server/src/services/AuthService.ts:112-126 | an unknown email, a user without a password, and a wrong password all get the same refusal; success returns the email's user |
| Auth.RegisterThenLogin | server/src/services/AuthService.ts:78-126 | a user just registered logs in with the same password |
| Identity.HexValue | server/src/middleware/auth.ts:41-42 | a hex digit's value is below 16 |
| Identity.PatternAccepted | server/src/middleware/auth.ts:41-45 | every string the UUID pattern spells is accepted |
| Identity.AcceptedMatchesPattern | server/src/middleware/auth.ts:41-45 | every accepted string is the pattern's spelling of its own groups |
| Identity.VersionAndVariant | server/src/middleware/auth.ts:41-42 | the fixed `4` is version 4 (section 4.1.3 of RFC 4122), and `[89ab]` is exactly the variant bits `10` (section 4.1.1 of RFC 4122) |
| Identity.FailureStatus | server/src/middleware/auth.ts:36-45 | both failures are answered 401 |
| Identity.TokenUser | server/src/middleware/auth.ts:19-31 | a bearer token names a user exactly when it verifies and that user exists |
| Identity.AuthenticateAnon | server/src/middleware/auth.ts:13-59 | a token's user is used as is; otherwise a missing anonymous id and a malformed one are refused, and a well-formed one is found or created as an anonymous user |
| Identity.AnonPathKeepsUsers | server/src/middleware/auth.ts:48-57 | the anonymous path resolves to the anonymous id, adds at most that row, and changes no other |
| Identity.AuthenticateIdempotent | server/src/middleware/auth.ts:48-58 | a second request with the same headers resolves to the same user and creates nothing |
| Identity.BadTokenFallsThrough | server/src/middleware/auth.ts:19-34 | a bad or unknown token acts as no token |
| AnonStorage.ReadIndexed | web/src/lib/storage.ts:79-98 | the IndexedDB read yields the stored id, or null when the database does not open |
| AnonStorage.WriteIndexed | web/src/lib/storage.ts:100-115 | the IndexedDB write stores the id, or does nothing when the database does not open |
| AnonStorage.GetAnonId | web/src/lib/storage.ts:17-44 | local storage, then IndexedDB, then session storage, each copied to the tiers before it; null and nothing written when all are empty |
| AnonStorage.GetAnonIdIdempotent | web/src/lib/storage.ts:17-44 | reading again returns the same id and changes nothing |
| AnonStorage.SetAnonId | web/src/lib/storage.ts:49-54 | every tier gets the id |
| AnonStorage.GetAfterSet | web/src/lib/storage.ts:17-54 | a set id is read back; an empty one reads back as null |
| AnonStorage.ImportAnonId | web/src/lib/storage.ts:128-137 | a string that is not a version-4 UUID is refused and nothing is written; otherwise the id is set and read back |
| DailyAssign.Visit | server/src/cron/dailyAssign.ts:33-38 | a visit assigns the user exactly when some challenge is active, and keeps every existing assignment |
| DailyAssign.AlreadyAssigned | server/src/cron/dailyAssign.ts:21-31 | the number of listed users who already hold an assignment is at most the number of users |
| DailyAssign.AssignedBeforeTheBatch | server/src/cron/dailyAssign.ts:19-31 | a user listed once can hold only an assignment from before the batch |
| DailyAssign.SkipStep | server/src/cron/dailyAssign.ts:21-31 | counting a user who already holds an assignment as skipped keeps the loop's progress: the skipped count still equals the number of visited users assigned before the batch |
| DailyAssign.VisitStep | server/src/cron/dailyAssign.ts:33-38 | visiting an unassigned user keeps the loop's progress, counting the user as assigned exactly when the visit succeeds |
| DailyAssign.AssignDaily | server/src/cron/dailyAssign.ts:19-39 | assigned plus skipped is at most the number of users; skipped counts the users already assigned; with an active challenge every user ends up assigned; existing assignments are kept, and the only new ones are the listed users' for the day |
| DailyAssign.AssignDailyChallenges | server/src/cron/dailyAssign.ts:6-47 | exit status 1 when listing the users fails, with nothing changed, or when the lookup for some user throws, after the users before it were processed; exit 0 otherwise; existing assignments are kept, the new ones belong to the reached users, every reached user is assigned when a challenge is active, and nothing changes when none is |
| DailyAssign.Reached | server/src/cron/dailyAssign.ts:19-26 | the users the loop reaches are a prefix of the list, shorter exactly when a lookup throws, and then ending before that user |
| StreakRing.FindAbove | web/src/components/StreakRing.tsx:11 | the first element above the streak, which in an ascending list is the smallest above it |
| StreakRing.NextMilestone | web/src/components/StreakRing.tsx:10-11 | the smallest of 7, 14, 30, 60, 100 above the streak, or 100 |
| StreakRing.Progress | web/src/components/StreakRing.tsx:12 | the fill lies in 0..100, is below 100 before the last milestone, and is 100 from it on |
| StreakRing.RatioBounds | web/src/components/StreakRing.tsx:12 | the streak over the milestone is below one when the streak is below it |
| StreakRing.StreakColour | web/src/components/StreakRing.tsx:19-24 | the colour bands are 30 and up, 14..29, 7..13, and below 7 |
| StreakRing.ColourMonotone | web/src/components/StreakRing.tsx:19-24 | a longer streak never shows a lesser colour |
| StreakRing.StreakMessage | web/src/components/StreakRing.tsx:26-33 | the message bands are 0, 1, below 7, 7..13, 14..29, and 30 and up |
| StreakRing.MessageRefinesColour | web/src/components/StreakRing.tsx:19-33 | two streaks with the same message have the same colour |
| StreakRing.MoreCaption | web/src/components/StreakRing.tsx:83-87 | "N more to M days" is shown exactly for a streak of 1..99, with N positive |
| StreakRing.MoreCaptionCountsDown | web/src/components/StreakRing.tsx:83-87 | below the same milestone, one more day lowers N by one |
| StreakRing.BestCaption | web/src/components/StreakRing.tsx:88-92 | "Best" is shown exactly when the longest streak exceeds the current one |

## Left out

- Calendar, time zone and date-string conversion. Days are integers and
  instants are integer milliseconds. The mix of local-time and UTC date
  keys in the services, the cron job and the routes is not modelled.
- Floating point. The comfort score and the ring's fill use `real`, and
  `Math.round` is the floor of `x + 0.5`. Bit-exact IEEE results are not
  claimed.
- The per-completion `recentWeight` (server/src/services/StatsService.ts:153-169)
  is computed but never used. Only `recentCount` is modelled.
- The branch without a last completion (server/src/services/StatsService.ts:189-191)
  cannot be reached once there is at least one completion, so
  `Comfort.ComfortScore` has no case for it.
- Query results are parameters. The days of completed and skipped
  assignments, the completion stamps, the completion count, the catch-up
  count and the user list are passed in as the store would return them.
  The comfort score requires its stamps to be what the completion query
  returns: at most 100, newest first (`Comfort.QueriedStamps`). The
  history route's two queries, the user's assignments and journal
  entries from the last 365 days (server/src/routes/progress.ts:22-41),
  are the rows and entries `Progress.History` takes; the 365-day cut is
  not modelled.
  `StatsEngine` takes the day sets rather than reading them from the
  assignment table, and `Models.CompletedDays` relates the two.
- Database failures are parameters only in the nightly job. There, the
  user listing is an `Option` and the index of a throwing per-user
  lookup is `lookupFailsAt`. A failing query elsewhere is not modelled.
- Concurrency. Check-then-act races in `completeChallenge`, in the nightly
  batch, and on unique-index inserts are out of scope. (user, day)
  uniqueness holds by construction of the assignment map.
- Foreign calls are parameters:
  - bcrypt hashing and checking;
  - JWT verification (`verifyToken`);
  - the SHA-256 user hash;
  - UUID generation (`newId`);
  - `Math.random` (`rand` in 0..1);
  - the profanity filter.
- Token signing (`generateToken`) and the token returned with a user are
  left out. Only the user row is modelled.
- Socket.IO emits are a `Broadcast` value in the route's answer. Delivery
  is not modelled.
- The React UI is left out, except the StreakRing helpers and, for
  contrast, the client's `canEditNote` test.
- Journal.Create: an `entry_date` that is not a string is refused as a bad
  date. The source's regular-expression test would first convert such a
  value to a string.
- IndexedDB failures after the database opens (a failing `get` or `put`)
  propagate in the source. The model covers only the database failing to
  open.
- `exportAnonId` only reads local storage, and is not modelled.
- The MySQL collation (case-insensitive email and id comparison) is left
  out. Strings compare exactly.
- Schema assumptions: the assignment table declares no `skipped_at`
  column, yet the streak query filters on it; the stats table declares no
  `badges` column, yet the badge check writes it. The model assumes both
  columns exist.
- The width of the win text column, and the user and win-event column
  declarations, add no validator and are not modelled.
- Transport glue (Express, CORS, the global request limiter), the
  challenge, today, completion and auth routes that only map service
  errors to statuses, and the database connection, sync and seed scripts
  are not part of this model.

=== FILE: anonstorage.dfy ===
/** The browser's keeping of the anonymous id in three places, read in the
    order local storage, IndexedDB, session storage, with the place found
    copied back into the higher ones. */
module AnonStorage {
  import opened Wrappers
  import opened Identity

  /** The three stores' `anonId` entries. IndexedDB may fail to open (as in
      private browsing); a read then yields nothing and a write does
      nothing. */
  datatype Browser = Browser(local: Option<string>, session: Option<string>, idbOpens: bool, indexed: Option<string>)

  /** A stored string counts when it is truthy: present and not empty. */
  predicate Held(v: Option<string>)
  {
    v.Some? && |v.value| > 0
  }

  /** `getAnonIdFromIndexedDB`: the entry, or null if it is falsy or the
      database does not open. */
  function ReadIndexed(b: Browser): (r: Option<string>)
    ensures r.Some? <==> b.idbOpens && Held(b.indexed)
    ensures r.Some? ==> r == b.indexed
  {
    if b.idbOpens && Held(b.indexed) then b.indexed else None
  }

  /** `setAnonIdInIndexedDB`: a no-op when the database does not open. */
  function WriteIndexed(b: Browser, id: string): (r: Browser)
    ensures r.local == b.local && r.session == b.session && r.idbOpens == b.idbOpens
    ensures b.idbOpens ==> r.indexed == Some(id)
    ensures !b.idbOpens ==> r == b
  {
    if b.idbOpens then b.(indexed := Some(id)) else b
  }

  /** `getAnonId`: the first of local storage, IndexedDB and session storage
      that holds an id, after copying it into the places above it (and into
      IndexedDB when it came from local storage). */
  function GetAnonId(b: Browser): (r: (Browser, Option<string>))
    ensures Held(b.local) ==> r.1 == b.local
    ensures !Held(b.local) && ReadIndexed(b).Some? ==> r.1 == ReadIndexed(b)
    ensures !Held(b.local) && ReadIndexed(b).None? && Held(b.session) ==> r.1 == b.session
    ensures r.1.None? <==> !Held(b.local) && ReadIndexed(b).None? && !Held(b.session)
    ensures r.1.None? ==> r.0 == b
    ensures r.1.Some? ==>
      && Held(r.1) && r.0.local == r.1 && r.0.session == b.session
      && (b.idbOpens ==> r.0.indexed == r.1)
      && (!b.idbOpens ==> r.0.indexed == b.indexed)
  {
    if Held(b.local) then
      (WriteIndexed(b, b.local.value), b.local)
    else
      var fromIndexed := ReadIndexed(b);
      if fromIndexed.Some? then
        (b.(local := fromIndexed), fromIndexed)
      else if Held(b.session) then
        (WriteIndexed(b.(local := b.session), b.session.value), b.session)
      else (b, None)
  }

  /** Reading again finds the same id and changes nothing more. */
  lemma GetAnonIdIdempotent(b: Browser)
    ensures var (b1, id) := GetAnonId(b);
            GetAnonId(b1) == (b1, id)
  {
  }

  /** `setAnonId`: every place gets the id. */
  function SetAnonId(b: Browser, id: string): (r: Browser)
    ensures r.local == Some(id) && r.session == Some(id)
    ensures r.idbOpens == b.idbOpens
    ensures b.idbOpens ==> r.indexed == Some(id)
  {
    WriteIndexed(b.(local := Some(id), session := Some(id)), id)
  }

  /** A stored id is read back; the empty string, being falsy in every
      place, reads back as nothing. */
  lemma GetAfterSet(b: Browser, id: string)
    ensures |id| > 0 ==> GetAnonId(SetAnonId(b, id)).1 == Some(id)
    ensures |id| == 0 ==> GetAnonId(SetAnonId(b, id)).1.None?
  {
  }

  /** `importAnonId`: a string that is not a version-4 UUID is refused and
      nothing is written; any other is stored everywhere. */
  function ImportAnonId(b: Browser, id: string): (r: Result<Browser, string>)
    ensures r.Err? <==> !UuidV4(id)
    ensures r.Err? ==> r.error == "Invalid UUID format"
    ensures r.Ok? ==> r.value == SetAnonId(b, id) && GetAnonId(r.value).1 == Some(id)
  {
    if !UuidV4(id) then Err("Invalid UUID format")
    else
      GetAfterSet(b, id);
      Ok(SetAnonId(b, id))
  }
}

=== FILE: auth.dfy ===
/** The account service: registration, either as a new user or by linking an
    email and password to an existing anonymous user, and login. Password
    hashing and checking are parameters; token signing is left out. */
module Auth {
  import opened Wrappers
  import opened Models
  import opened Text

  // ----------------------------------------------------------- email shape

  /** `[^\s@]+` without the length: no white space and no `@`. */
  predicate Plain(t: string)
  {
    forall i :: 0 <= i < |t| ==> !IsSpace(t[i]) && t[i] != '@'
  }

  /** `^[^\s@]+@[^\s@]+\.[^\s@]+$`: a local part, `@`, and a domain split
      by some `.` into two non-empty parts. */
  predicate EmailShape(s: string)
  {
    exists k, j | 0 < k && k + 1 < j < |s| - 1 ::
      s[k] == '@' && s[j] == '.' && Plain(s[..k]) && Plain(s[k + 1..j]) && Plain(s[j + 1..])
  }

  /** The shape in plain words: no white space, exactly one `@`, not first,
      and a `.` strictly inside the part after it. */
  predicate EmailChars(s: string)
  {
    && (forall i :: 0 <= i < |s| ==> !IsSpace(s[i]))
    && exists k :: 0 < k < |s| && s[k] == '@'
         && (forall i :: 0 <= i < |s| && i != k ==> s[i] != '@')
         && exists j :: k + 1 < j < |s| - 1 && s[j] == '.'
  }

  lemma EmailShapeMeansChars(s: string)
    ensures EmailShape(s) ==> EmailChars(s)
  {
    if EmailShape(s) {
      var k, j :| 0 < k && k + 1 < j < |s| - 1
        && s[k] == '@' && s[j] == '.' && Plain(s[..k]) && Plain(s[k + 1..j]) && Plain(s[j + 1..]);
      forall i | 0 <= i < |s| && i != k
        ensures !IsSpace(s[i]) && s[i] != '@'
      {
        if i < k { assert s[..k][i] == s[i]; }
        else if i < j { assert s[k + 1..j][i - k - 1] == s[i]; }
        else if i > j { assert s[j + 1..][i - j - 1] == s[i]; }
      }
      assert !IsSpace(s[k]);
    }
  }

  lemma CharsMeanEmailShape(s: string)
    ensures EmailChars(s) ==> EmailShape(s)
  {
    if EmailChars(s) {
      var k :| 0 < k < |s| && s[k] == '@'
         && (forall i :: 0 <= i < |s| && i != k ==> s[i] != '@')
         && exists j :: k + 1 < j < |s| - 1 && s[j] == '.';
      var j :| k + 1 < j < |s| - 1 && s[j] == '.';
      assert Plain(s[..k]) by {
        forall i | 0 <= i < k ensures !IsSpace(s[..k][i]) && s[..k][i] != '@' {
          assert s[..k][i] == s[i];
        }
      }
      var domain, top := s[k + 1..j], s[j + 1..];
      assert Plain(domain) by {
        forall i | 0 <= i < |domain| ensures !IsSpace(domain[i]) && domain[i] != '@' {
          assert domain[i] == s[k + 1 + i];
        }
      }
      assert Plain(top) by {
        forall i | 0 <= i < |top| ensures !IsSpace(top[i]) && top[i] != '@' {
          assert top[i] == s[j + 1 + i];
        }
      }
    }
  }

  /** The regular expression and the plain-words reading agree. */
  lemma EmailShapeIff(s: string)
    ensures EmailShape(s) <==> EmailChars(s)
  {
    EmailShapeMeansChars(s);
    CharsMeanEmailShape(s);
  }

  lemma EmailShapeNonEmpty(s: string)
    requires EmailShape(s)
    ensures |s| >= 5
  {
  }

  lemma EmailExamples()
    ensures EmailShape("a@b.co")
    ensures !EmailShape("a@b")
  {
    var s := "a@b.co";
    assert 0 < 1 && 1 + 1 < 3 < |s| - 1
      && s[1] == '@' && s[3] == '.' && Plain(s[..1]) && Plain(s[1 + 1..3]) && Plain(s[3 + 1..]);
    var t := "a@b";
    assert |t| == 3;
  }

  // -------------------------------------------------------------- register

  const MinPasswordLength: int := 8

  datatype AuthError =
    | InvalidEmail          // `Invalid email format`
    | WeakPassword          // `Password must be at least 8 characters long`
    | EmailTaken            // `Email already registered`
    | UserNotFound          // `User not found`
    | AlreadyRegistered     // `User already has an email registered`
    | InsertRejected        // the insert breaks the primary key or the unique email
    | InvalidCredentials    // `Invalid email or password`

  /** The user holding this email, if any: `findOne({ where: { email } })`.
      With the unique index there is at most one. */
  ghost function OwnerOf(users: UserStore, email: string): (r: Option<UserId>)
    ensures r.Some? <==> exists id :: id in users && users[id].email == Some(email)
    ensures r.Some? ==> r.value in users && users[r.value].email == Some(email)
  {
    if exists id :: id in users && users[id].email == Some(email) then
      var id :| id in users && users[id].email == Some(email);
      Some(id)
    else None
  }

  /** A string is set when it is truthy: present and not empty. */
  predicate Given(s: Option<string>)
  {
    s.Some? && |s.value| > 0
  }

  /** The three checks `register` makes before it writes: the email's
      shape, the password's length, and no other user holding the email. */
  ghost predicate RegisterChecksPass(users: UserStore, email: string, password: string, existingUserId: Option<UserId>)
  {
    && EmailShape(email) && Utf16Length(password) >= MinPasswordLength
    && !(OwnerOf(users, email).Some? && Some(OwnerOf(users, email).value) != existingUserId)
  }

  /** `register`: the email shape, then the password length, then whether
      another user holds the email; then either the given user gets the
      email and password, or a user is created under `newId`. */
  ghost function Register(users: UserStore, email: string, password: string, existingUserId: Option<UserId>,
                          newId: UserId, hashPassword: string -> string): (r: Result<(UserStore, User), AuthError>)
    ensures r == Err(InvalidEmail) <==> !EmailShape(email)
    ensures r == Err(WeakPassword) <==> EmailShape(email) && Utf16Length(password) < MinPasswordLength
    ensures r == Err(EmailTaken) <==>
      && EmailShape(email) && Utf16Length(password) >= MinPasswordLength
      && OwnerOf(users, email).Some? && Some(OwnerOf(users, email).value) != existingUserId
    ensures r.Ok? ==>
      && r.value.1.email == Some(email)
      && r.value.1.passwordHash == Some(hashPassword(password))
      && r.value.1.id in r.value.0 && r.value.0[r.value.1.id] == r.value.1
      && r.value.0.Keys == users.Keys + {r.value.1.id}
      && (forall id :: id in users && id != r.value.1.id ==> r.value.0[id] == users[id])
    ensures r.Ok? && Given(existingUserId) ==>
      && existingUserId.value in users && !Given(users[existingUserId.value].email)
      && r.value.1.id == existingUserId.value && r.value.0.Keys == users.Keys
    ensures r.Ok? && !Given(existingUserId) ==> r.value.1.id == newId && newId !in users
    ensures Given(existingUserId) && r.Err? && r.error !in {InvalidEmail, WeakPassword, EmailTaken} ==>
      r.error == (if existingUserId.value !in users then UserNotFound else AlreadyRegistered)
    ensures r == Err(UserNotFound) <==>
      RegisterChecksPass(users, email, password, existingUserId) && Given(existingUserId)
      && existingUserId.value !in users
    ensures r == Err(AlreadyRegistered) <==>
      RegisterChecksPass(users, email, password, existingUserId) && Given(existingUserId)
      && existingUserId.value in users && Given(users[existingUserId.value].email)
    ensures r == Err(InsertRejected) <==>
      RegisterChecksPass(users, email, password, existingUserId) && !Given(existingUserId)
      && (newId in users || OwnerOf(users, email).Some?)
    ensures r.Ok? <==>
      && RegisterChecksPass(users, email, password, existingUserId)
      && (if Given(existingUserId)
          then existingUserId.value in users && !Given(users[existingUserId.value].email)
          else newId !in users && OwnerOf(users, email).None?)
  {
    if !EmailShape(email) then Err(InvalidEmail)
    else if Utf16Length(password) < MinPasswordLength then Err(WeakPassword)
    else if OwnerOf(users, email).Some? && Some(OwnerOf(users, email).value) != existingUserId then Err(EmailTaken)
    else
      var hash := hashPassword(password);
      if Given(existingUserId) then
        var id := existingUserId.value;
        if id !in users then Err(UserNotFound)
        else if Given(users[id].email) then Err(AlreadyRegistered)
        else
          var u := User(id, Some(email), Some(hash));
          Ok((users[id := u], u))
      else if newId in users || OwnerOf(users, email).Some? then Err(InsertRejected)
      else
        var u := User(newId, Some(email), Some(hash));
        Ok((users[newId := u], u))
  }

  /** Registration keeps every email with one user. */
  lemma RegisterKeepsUsersValid(users: UserStore, email: string, password: string, existingUserId: Option<UserId>,
                                newId: UserId, hashPassword: string -> string)
    requires UsersValid(users)
    ensures var r := Register(users, email, password, existingUserId, newId, hashPassword);
            r.Ok? ==> UsersValid(r.value.0)
  {
    var r := Register(users, email, password, existingUserId, newId, hashPassword);
    if r.Ok? {
      var id := r.value.1.id;
      assert OwnerOf(users, email).None? by {
        EmailShapeNonEmpty(email);
      }
    }
  }

  // ----------------------------------------------------------------- login

  /** `login`: the same refusal for an unknown email, a user without a
      password, and a wrong password. */
  ghost function Login(users: UserStore, email: string, password: string,
                       checkPassword: (string, string) -> bool): (r: Result<User, AuthError>)
    ensures r.Err? ==> r.error == InvalidCredentials
    ensures r.Ok? <==>
      && OwnerOf(users, email).Some?
      && Given(users[OwnerOf(users, email).value].passwordHash)
      && checkPassword(password, users[OwnerOf(users, email).value].passwordHash.value)
    ensures r.Ok? ==> r.value.email == Some(email) && r.value == users[OwnerOf(users, email).value]
  {
    match OwnerOf(users, email)
    case None => Err(InvalidCredentials)
    case Some(id) =>
      var u := users[id];
      if !Given(u.passwordHash) then Err(InvalidCredentials)
      else if !checkPassword(password, u.passwordHash.value) then Err(InvalidCredentials)
      else Ok(u)
  }

  /** A password of four emoji is eight UTF-16 code units long, so the
      length check lets it through. */
  lemma FourEmojiPasswordLongEnough(users: UserStore, email: string, existingUserId: Option<UserId>,
                                    newId: UserId, hashPassword: string -> string)
    requires EmailShape(email)
    ensures Register(users, email, "\U{1F600}\U{1F600}\U{1F600}\U{1F600}", existingUserId, newId, hashPassword)
            != Err(WeakPassword)
  {
    Utf16Examples();
  }

  /** A user registered with a password logs in with it, when the checker
      accepts the password against its own hash. */
  lemma RegisterThenLogin(users: UserStore, email: string, password: string, existingUserId: Option<UserId>,
                          newId: UserId, hashPassword: string -> string, checkPassword: (string, string) -> bool)
    requires UsersValid(users)
    requires forall p :: |hashPassword(p)| > 0 && checkPassword(p, hashPassword(p))
    requires Register(users, email, password, existingUserId, newId, hashPassword).Ok?
    ensures var r := Register(users, email, password, existingUserId, newId, hashPassword).value;
            Login(r.0, email, password, checkPassword) == Ok(r.1)
  {
    var r := Register(users, email, password, existingUserId, newId, hashPassword).value;
    RegisterKeepsUsersValid(users, email, password, existingUserId, newId, hashPassword);
    var o := OwnerOf(r.0, email);
    assert r.0[r.1.id].email == Some(email);
    assert o.value == r.1.id;
  }
}

=== FILE: badges.dfy ===
/** The badge table and the badge check: each rule compares one of the
    user's counts with a threshold, and a badge is awarded once, the first
    time its rule holds. */
module Badges {

  /** The quantity a badge threshold is checked against. */
  datatype Metric = TotalCompleted | CurrentStreakDays | LongestStreakDays

  datatype BadgeRule = BadgeRule(id: string, metric: Metric, threshold: nat)

  /** The badge table, in the order badges are awarded. */
  const BadgeTable: seq<BadgeRule> := [
    BadgeRule("first_completion", TotalCompleted, 1),
    BadgeRule("first_week", TotalCompleted, 7),
    BadgeRule("ten_completions", TotalCompleted, 10),
    BadgeRule("thirty_completions", TotalCompleted, 30),
    BadgeRule("fifty_completions", TotalCompleted, 50),
    BadgeRule("hundred_completions", TotalCompleted, 100),
    BadgeRule("seven_day_streak", CurrentStreakDays, 7),
    BadgeRule("thirty_day_streak", CurrentStreakDays, 30),
    BadgeRule("longest_streak_10", LongestStreakDays, 10),
    BadgeRule("longest_streak_30", LongestStreakDays, 30)
  ]

  /** The user's counts the rules are checked against. */
  datatype Counts = Counts(total: nat, current: int, longest: int)

  predicate Holds(rule: BadgeRule, counts: Counts)
  {
    match rule.metric
    case TotalCompleted => counts.total >= rule.threshold
    case CurrentStreakDays => counts.current >= rule.threshold
    case LongestStreakDays => counts.longest >= rule.threshold
  }

  predicate NoDuplicates(s: seq<string>)
  {
    forall i, j :: 0 <= i < j < |s| ==> s[i] != s[j]
  }

  /** Some rule of `rules` with id `x` holds. */
  predicate Qualifies(rules: seq<BadgeRule>, counts: Counts, x: string)
  {
    exists i :: 0 <= i < |rules| && rules[i].id == x && Holds(rules[i], counts)
  }

  /** The badge loop over `rules` in order: an id is appended when its rule
      holds and it is not yet among the `earned` ids, which grow as the loop
      appends. The result is the list of ids appended. */
  function Award(rules: seq<BadgeRule>, earned: seq<string>, counts: Counts): (r: seq<string>)
    ensures |r| <= |rules|
  {
    if |rules| == 0 then []
    else if Holds(rules[0], counts) && rules[0].id !in earned then
      [rules[0].id] + Award(rules[1..], earned + [rules[0].id], counts)
    else Award(rules[1..], earned, counts)
  }

  /** The appended ids are exactly those that qualify and were not earned
      before. */
  lemma {:induction false} AwardMembers(rules: seq<BadgeRule>, earned: seq<string>, counts: Counts, x: string)
    ensures x in Award(rules, earned, counts) <==> x !in earned && Qualifies(rules, counts, x)
    decreases |rules|
  {
    if |rules| > 0 {
      var rest := rules[1..];
      var head := rules[0];
      assert Qualifies(rules, counts, x) <==>
             (head.id == x && Holds(head, counts)) || Qualifies(rest, counts, x) by {
        if Qualifies(rules, counts, x) && !(head.id == x && Holds(head, counts)) {
          var i :| 0 <= i < |rules| && rules[i].id == x && Holds(rules[i], counts);
          assert rest[i - 1] == rules[i];
        }
        if Qualifies(rest, counts, x) {
          var i :| 0 <= i < |rest| && rest[i].id == x && Holds(rest[i], counts);
          assert rules[i + 1] == rest[i];
        }
      }
      if Holds(head, counts) && head.id !in earned {
        AwardMembers(rest, earned + [head.id], counts, x);
      } else {
        AwardMembers(rest, earned, counts, x);
      }
    }
  }

  lemma AwardMembersAll(rules: seq<BadgeRule>, earned: seq<string>, counts: Counts)
    ensures forall x :: x in Award(rules, earned, counts) <==> x !in earned && Qualifies(rules, counts, x)
  {
    forall x
      ensures x in Award(rules, earned, counts) <==> x !in earned && Qualifies(rules, counts, x)
    {
      AwardMembers(rules, earned, counts, x);
    }
  }

  /** Appending the awarded ids to a duplicate-free list keeps it
      duplicate-free. */
  lemma {:induction false} AwardFresh(rules: seq<BadgeRule>, earned: seq<string>, counts: Counts)
    ensures NoDuplicates(earned) ==> NoDuplicates(earned + Award(rules, earned, counts))
    decreases |rules|
  {
    if |rules| > 0 && NoDuplicates(earned) {
      var id := rules[0].id;
      if Holds(rules[0], counts) && id !in earned {
        assert NoDuplicates(earned + [id]);
        AwardFresh(rules[1..], earned + [id], counts);
        assert earned + Award(rules, earned, counts)
            == (earned + [id]) + Award(rules[1..], earned + [id], counts);
      } else {
        AwardFresh(rules[1..], earned, counts);
      }
    }
  }

  /** Once every qualifying id is earned, the loop appends nothing. */
  lemma {:induction false} NothingLeft(rules: seq<BadgeRule>, earned: seq<string>, counts: Counts)
    requires forall x :: Qualifies(rules, counts, x) ==> x in earned
    ensures Award(rules, earned, counts) == []
    decreases |rules|
  {
    if |rules| > 0 {
      assert Qualifies(rules, counts, rules[0].id) ==> rules[0].id in earned;
      forall x | Qualifies(rules[1..], counts, x)
        ensures x in earned
      {
        var i :| 0 <= i < |rules[1..]| && rules[1..][i].id == x && Holds(rules[1..][i], counts);
        assert rules[i + 1] == rules[1..][i];
        assert Qualifies(rules, counts, x);
      }
      NothingLeft(rules[1..], earned, counts);
    }
  }

  /** Checking again with the badges just awarded and unchanged counts
      awards nothing. */
  lemma AwardIdempotent(rules: seq<BadgeRule>, earned: seq<string>, counts: Counts)
    ensures Award(rules, earned + Award(rules, earned, counts), counts) == []
  {
    var all := earned + Award(rules, earned, counts);
    forall x | Qualifies(rules, counts, x)
      ensures x in all
    {
      AwardMembers(rules, earned, counts, x);
    }
    NothingLeft(rules, all, counts);
  }

  /** One turn of the badge loop: the first rule's id is appended when the
      rule holds and the id is not yet earned, and the rest of the loop
      runs on the grown list. */
  lemma AwardFirst(rules: seq<BadgeRule>, earned: seq<string>, counts: Counts)
    requires |rules| > 0
    ensures Holds(rules[0], counts) && rules[0].id !in earned ==>
      Award(rules, earned, counts) == [rules[0].id] + Award(rules[1..], earned + [rules[0].id], counts)
    ensures !(Holds(rules[0], counts) && rules[0].id !in earned) ==>
      Award(rules, earned, counts) == Award(rules[1..], earned, counts)
  {
  }

  /** The badge loop over `rules`: the ids awarded now, and the earned list
      with them appended. */
  method AwardLoop(rules: seq<BadgeRule>, earned: seq<string>, counts: Counts) returns (newBadges: seq<string>, allBadges: seq<string>)
    ensures newBadges == Award(rules, earned, counts)
    ensures allBadges == earned + newBadges
  {
    allBadges := earned;
    newBadges := [];
    var i := 0;
    while i < |rules|
      invariant 0 <= i <= |rules|
      invariant allBadges == earned + newBadges
      invariant newBadges + Award(rules[i..], allBadges, counts) == Award(rules, earned, counts)
    {
      var rule := rules[i];
      var rest := rules[i..];
      assert rest[0] == rule && rest[1..] == rules[i + 1..];
      AwardFirst(rest, allBadges, counts);
      if Holds(rule, counts) && rule.id !in allBadges {
        assert newBadges + [rule.id] + Award(rules[i + 1..], allBadges + [rule.id], counts)
            == newBadges + Award(rest, allBadges, counts);
        allBadges := allBadges + [rule.id];
        newBadges := newBadges + [rule.id];
      }
      i := i + 1;
    }
  }

  /** `checkAndAwardBadges` over the badge table: the ids awarded now are
      exactly the qualifying ones not earned before, appended to the earned
      list without creating a duplicate. */
  method CheckAndAwardBadges(earned: seq<string>, counts: Counts) returns (newBadges: seq<string>, allBadges: seq<string>)
    ensures newBadges == Award(BadgeTable, earned, counts)
    ensures allBadges == earned + newBadges
    ensures forall x :: x in newBadges <==> x !in earned && Qualifies(BadgeTable, counts, x)
    ensures NoDuplicates(earned) ==> NoDuplicates(allBadges)
  {
    newBadges, allBadges := AwardLoop(BadgeTable, earned, counts);
    AwardMembersAll(BadgeTable, earned, counts);
    AwardFresh(BadgeTable, earned, counts);
  }
}

=== FILE: challenges.dfy ===
/** The assignment engine: which challenge a user gets for a day, and the
    completion of the day's challenge. The difficulty band follows the
    comfort score, lowered when the user has been missing days; categories
    seen in the last three days are avoided while anything else is left;
    the fallback tiers end in a single error. */
module ChallengeEngine {
  import opened Wrappers
  import opened Days
  import opened Models
  import opened Comfort

  // ------------------------------------------------------ difficulty band

  /** An inclusive difficulty range. */
  datatype Band = Band(lo: int, hi: int)

  /** `getDifficultyRange`: two adjacent levels, higher for higher scores. */
  function DifficultyRange(score: int): (b: Band)
    ensures b.hi == b.lo + 1
    ensures MinDifficulty <= b.lo && b.hi <= MaxDifficulty
    ensures b.lo == 1 <==> score <= 20
    ensures b.lo == 2 <==> 20 < score <= 50
    ensures b.lo == 3 <==> 50 < score <= 80
    ensures b.lo == 4 <==> score > 80
  {
    if score <= 20 then Band(1, 2)
    else if score <= 50 then Band(2, 3)
    else if score <= 80 then Band(3, 4)
    else Band(4, 5)
  }

  /** A higher score never gives an easier band. */
  lemma DifficultyRangeMonotone(a: int, b: int)
    requires a <= b
    ensures DifficultyRange(a).lo <= DifficultyRange(b).lo
  {
  }

  /** The comfort score lowered for catch-up: by 20 with no completion in the
      window, by 10 with one, never below 0; with two or more it stays. */
  function CatchUp(score: int, recentCompletions: nat): (adjusted: int)
    ensures score >= 0 ==> 0 <= adjusted <= score
    ensures recentCompletions == 0 ==>
      adjusted >= 0 && adjusted >= score - 20 && (adjusted == 0 || adjusted == score - 20)
    ensures recentCompletions == 1 ==>
      adjusted >= 0 && adjusted >= score - 10 && (adjusted == 0 || adjusted == score - 10)
    ensures recentCompletions >= 2 ==> adjusted == score
  {
    if recentCompletions == 0 then (if score - 20 > 0 then score - 20 else 0)
    else if recentCompletions == 1 then (if score - 10 > 0 then score - 10 else 0)
    else score
  }

  /** More recent completions never lower the adjusted score. */
  lemma CatchUpMonotone(score: int, r1: nat, r2: nat)
    requires 0 <= score && r1 <= r2
    ensures CatchUp(score, r1) <= CatchUp(score, r2)
  {
  }

  /** The completed days the catch-up count looks at: the assigned day is
      three days before `date` or later. */
  function RecentCompletions(completed: set<Day>, date: Day): (n: nat)
    ensures n <= |completed|
  {
    var recent := set d | d in completed && d >= date - 3;
    SubsetCard(recent, completed);
    |recent|
  }

  /** Level 1 is preferred exactly for an adjusted score of 0. */
  function Preferred(adjusted: int): (r: Option<int>)
    ensures r.Some? <==> adjusted == 0
    ensures r.Some? ==> r.value == MinDifficulty
  {
    if adjusted == 0 then Some(1) else None
  }

  // --------------------------------------------------- category exclusion

  /** The category of the challenge assigned to `u` on day `d`, when there is
      an assignment and its challenge exists. */
  function AssignedCategory(store: AssignmentStore, catalog: seq<Challenge>, u: UserId, d: Day): (r: Option<Category>)
    ensures r.Some? <==> (u, d) in store && ChallengeById(catalog, store[(u, d)].challengeId).Some?
    ensures r.Some? ==> r.value == ChallengeById(catalog, store[(u, d)].challengeId).value.category
  {
    if (u, d) in store then
      match ChallengeById(catalog, store[(u, d)].challengeId)
      case Some(c) => Some(c.category)
      case None => None
    else None
  }

  /** The categories to avoid: those of the user's assignments one, two and
      three days before `date`. */
  function ExcludedCategories(store: AssignmentStore, catalog: seq<Challenge>, u: UserId, date: Day): (r: set<Category>)
    ensures forall c :: c in r <==>
      || AssignedCategory(store, catalog, u, date - 1) == Some(c)
      || AssignedCategory(store, catalog, u, date - 2) == Some(c)
      || AssignedCategory(store, catalog, u, date - 3) == Some(c)
  {
    var one := AssignedCategory(store, catalog, u, date - 1);
    var two := AssignedCategory(store, catalog, u, date - 2);
    var three := AssignedCategory(store, catalog, u, date - 3);
    var r := (if one.Some? then {one.value} else {})
           + (if two.Some? then {two.value} else {})
           + (if three.Some? then {three.value} else {});
    r
  }

  // ------------------------------------------------------------- queries

  /** A `findAll` over active challenges: an optional difficulty range and a
      set of categories to leave out. */
  datatype Query = Query(band: Option<Band>, excluded: set<Category>)

  predicate Matches(c: Challenge, q: Query)
  {
    && c.isActive
    && (q.band.Some? ==> q.band.value.lo <= c.difficulty <= q.band.value.hi)
    && c.category !in q.excluded
  }

  /** The matching challenges in catalog order. */
  function FindAll(catalog: seq<Challenge>, q: Query): (r: seq<Challenge>)
    ensures |r| <= |catalog|
    ensures forall c :: c in r <==> c in catalog && Matches(c, q)
  {
    if |catalog| == 0 then []
    else if Matches(catalog[0], q) then [catalog[0]] + FindAll(catalog[1..], q)
    else FindAll(catalog[1..], q)
  }

  function Level(d: int): Band { Band(d, d) }

  /** The eligible challenges, as `getTodayChallenge` narrows them down:
      preferred level without recent categories, then the band without
      recent categories, then the preferred level, then the band, then any
      active challenge. */
  function Eligible(catalog: seq<Challenge>, preferred: Option<int>, band: Band, excluded: set<Category>): (r: seq<Challenge>)
    ensures forall c :: c in r ==> c in catalog && c.isActive
    ensures |r| == 0 <==> forall c :: c in catalog ==> !c.isActive
  {
    var first := if preferred.Some? then FindAll(catalog, Query(Some(Level(preferred.value)), excluded)) else [];
    var second := if |first| == 0 then FindAll(catalog, Query(Some(band), excluded)) else first;
    if |second| > 0 then
      assert second[0] in catalog && second[0].isActive;
      second
    else
      var level1 := if preferred.Some? then FindAll(catalog, Query(Some(Level(preferred.value)), {})) else [];
      var third := if |level1| > 0 then level1 else [];
      var fourth := if |third| == 0 then FindAll(catalog, Query(Some(band), {})) else third;
      var fifth := if |fourth| == 0 then FindAll(catalog, Query(None, {})) else fourth;
      assert |fifth| == 0 ==> forall c :: c in catalog ==> !Matches(c, Query(None, {}));
      assert |fifth| > 0 ==> fifth[0] in catalog && fifth[0].isActive;
      fifth
  }

  /** The tiers in the order they are tried. */
  function Tiers(preferred: Option<int>, band: Band, excluded: set<Category>): (qs: seq<Query>)
    ensures |qs| >= 3 && qs[|qs| - 1] == Query(None, {})
  {
    (if preferred.Some? then [Query(Some(Level(preferred.value)), excluded)] else [])
    + [Query(Some(band), excluded)]
    + (if preferred.Some? then [Query(Some(Level(preferred.value)), {})] else [])
    + [Query(Some(band), {}), Query(None, {})]
  }

  /** The result of the first query with a non-empty result, or nothing. */
  function FirstNonEmpty(catalog: seq<Challenge>, qs: seq<Query>): seq<Challenge>
  {
    if |qs| == 0 then []
    else if |FindAll(catalog, qs[0])| > 0 then FindAll(catalog, qs[0])
    else FirstNonEmpty(catalog, qs[1..])
  }

  /** The eligible set is exactly the first non-empty tier. */
  lemma EligibleIsFirstNonEmptyTier(catalog: seq<Challenge>, preferred: Option<int>, band: Band, excluded: set<Category>)
    ensures Eligible(catalog, preferred, band, excluded) == FirstNonEmpty(catalog, Tiers(preferred, band, excluded))
  {
    var qs := Tiers(preferred, band, excluded);
    var last := [Query(None, {})];
    assert FirstNonEmpty(catalog, last[1..]) == [];
    assert FirstNonEmpty(catalog, last) == FindAll(catalog, Query(None, {}));
    var tail := [Query(Some(band), {})] + last;
    assert tail[1..] == last;
    var b := FindAll(catalog, Query(Some(band), {}));
    assert FirstNonEmpty(catalog, tail) == if |b| > 0 then b else FindAll(catalog, Query(None, {}));
    if preferred.Some? {
      var tail2 := [Query(Some(Level(preferred.value)), {})] + tail;
      assert tail2[1..] == tail;
      var l := FindAll(catalog, Query(Some(Level(preferred.value)), {}));
      assert FirstNonEmpty(catalog, tail2) == if |l| > 0 then l else FirstNonEmpty(catalog, tail);
      var tail3 := [Query(Some(band), excluded)] + tail2;
      assert tail3[1..] == tail2;
      var be := FindAll(catalog, Query(Some(band), excluded));
      assert FirstNonEmpty(catalog, tail3) == if |be| > 0 then be else FirstNonEmpty(catalog, tail2);
      assert qs == [Query(Some(Level(preferred.value)), excluded)] + tail3;
      assert qs[1..] == tail3;
    } else {
      assert qs == [Query(Some(band), excluded)] + tail;
      assert qs[1..] == tail;
    }
  }

  // -------------------------------------------------------------- the pick

  lemma MulBelow(rand: real, n: real)
    requires 0.0 <= rand < 1.0 && 0.0 < n
    ensures 0.0 <= rand * n < n
  {
    MulNonneg(rand, n);
    MulNonneg(1.0 - rand, n);
    assert n - rand * n == (1.0 - rand) * n;
    assert (1.0 - rand) * n != 0.0;
  }

  /** `Math.floor(Math.random() * n)` for a `Math.random()` value `rand`. */
  function PickIndex(rand: real, n: nat): (i: nat)
    requires 0.0 <= rand < 1.0 && 0 < n
    ensures i < n
    ensures IsFloor(i, rand * n as real)
  {
    var y := rand * n as real;
    MulBelow(rand, n as real);
    FloorBelow(y, n);
    y.Floor
  }

  /** The floor of a value in `[0, n)` is an index below `n`. */
  lemma FloorBelow(y: real, n: nat)
    requires 0.0 <= y < n as real
    ensures 0 <= y.Floor < n && IsFloor(y.Floor, y)
  {
  }

  /** Every `rand` picks an eligible challenge, and every eligible challenge
      is picked by some `rand`: the pick is a choice from the eligible set. */
  lemma PickCoversEligible(eligible: seq<Challenge>, k: nat)
    requires k < |eligible|
    ensures var rand := k as real / |eligible| as real;
            0.0 <= rand < 1.0 && eligible[PickIndex(rand, |eligible|)] == eligible[k]
  {
    var n := |eligible| as real;
    var rand := k as real / n;
    assert rand * n == k as real;
    assert rand < 1.0 by {
      assert k as real < n;
    }
    assert (k as real).Floor == k;
    assert PickIndex(rand, |eligible|) == k;
  }

  // ------------------------------------------------------- today's challenge

  datatype ChallengeError = NoChallengesAvailable | NoActiveChallenge | AlreadyCompleted | NoteTooLong

  /** The state `getTodayChallenge` reads and writes. */
  datatype World = World(stats: StatsStore, store: AssignmentStore)

  datatype TodayOutcome = TodayOutcome(world: World, result: Result<Assignment, ChallengeError>)

  /** The eligible challenges for a user without an assignment on `date`. */
  function EligibleFor(w: World, catalog: seq<Challenge>, u: UserId, date: Day): (r: seq<Challenge>)
    ensures forall c :: c in r ==> c in catalog && c.isActive
    ensures |r| == 0 <==> forall c :: c in catalog ==> !c.isActive
  {
    var row := GetOrCreateStats(w.stats, u).1;
    var adjusted := CatchUp(row.comfortScore, RecentCompletions(CompletedDays(w.store, u), date));
    Eligible(catalog, Preferred(adjusted), DifficultyRange(adjusted), ExcludedCategories(w.store, catalog, u, date))
  }

  /** `getTodayChallenge`: an existing assignment for (user, date) is
      returned as it is; otherwise the stats row is created if missing and a
      challenge is chosen from the eligible set with the random value
      `rand`. */
  function GetTodayChallenge(w: World, catalog: seq<Challenge>, u: UserId, date: Day, rand: real): (r: TodayOutcome)
    requires 0.0 <= rand < 1.0
    ensures (u, date) in w.store ==> r == TodayOutcome(w, Ok(w.store[(u, date)]))
    ensures (u, date) !in w.store ==> r.world.stats == GetOrCreateStats(w.stats, u).0
    ensures r.result.Err? <==> (u, date) !in w.store && forall c :: c in catalog ==> !c.isActive
    ensures r.result.Err? ==> r.result.error == NoChallengesAvailable && r.world.store == w.store
    ensures (u, date) !in w.store && r.result.Ok? ==>
      && r.world.store == w.store[(u, date) := r.result.value]
      && r.result.value.Pending() && r.result.value.skippedAt.None? && r.result.value.note.None?
      && exists c :: c in EligibleFor(w, catalog, u, date) && c.id == r.result.value.challengeId
  {
    if (u, date) in w.store then TodayOutcome(w, Ok(w.store[(u, date)]))
    else
      var stats' := GetOrCreateStats(w.stats, u).0;
      var eligible := EligibleFor(w, catalog, u, date);
      if |eligible| == 0 then TodayOutcome(World(stats', w.store), Err(NoChallengesAvailable))
      else
        var selected := eligible[PickIndex(rand, |eligible|)];
        var a := Assignment(selected.id, None, None, None);
        TodayOutcome(World(stats', w.store[(u, date) := a]), Ok(a))
  }

  /** Asking again on the same day returns the same assignment and changes
      nothing, whatever the random value. */
  lemma GetTodayChallengeIdempotent(w: World, catalog: seq<Challenge>, u: UserId, date: Day, rand1: real, rand2: real)
    requires 0.0 <= rand1 < 1.0 && 0.0 <= rand2 < 1.0
    ensures var first := GetTodayChallenge(w, catalog, u, date, rand1);
            first.result.Ok? ==>
              GetTodayChallenge(first.world, catalog, u, date, rand2) == first
  {
  }

  // ----------------------------------------------------------- completion

  /** A `note` argument the service writes: present and non-empty. */
  predicate NoteGiven(note: Option<string>)
  {
    note.Some? && |note.value| > 0
  }

  /** `completeChallenge` on `today` at instant `now`; a new note longer
      than the column allows fails the save's validation. */
  function CompleteChallenge(store: AssignmentStore, u: UserId, today: Day, now: Instant, note: Option<string>)
    : (r: Result<(AssignmentStore, Assignment), ChallengeError>)
    ensures (u, today) !in store <==> r == Err(NoActiveChallenge)
    ensures r == Err(AlreadyCompleted) <==> (u, today) in store && store[(u, today)].completedAt.Some?
    ensures r == Err(NoteTooLong) <==>
      (u, today) in store && store[(u, today)].Pending() && NoteGiven(note) && |note.value| > MaxNoteLength
    ensures r.Err? ==> r.error in {NoActiveChallenge, AlreadyCompleted, NoteTooLong}
    ensures r.Ok? <==>
      (u, today) in store && store[(u, today)].Pending() && !(NoteGiven(note) && |note.value| > MaxNoteLength)
    ensures r.Ok? ==>
      var before := store[(u, today)];
      && r.value.0 == store[(u, today) := r.value.1]
      && r.value.1.completedAt == Some(now)
      && r.value.1.challengeId == before.challengeId
      && r.value.1.skippedAt == before.skippedAt
      && r.value.1.note == (if NoteGiven(note) then note else before.note)
  {
    if (u, today) !in store then Err(NoActiveChallenge)
    else
      var a := store[(u, today)];
      if a.completedAt.Some? then Err(AlreadyCompleted)
      else
        if NoteGiven(note) && |note.value| > MaxNoteLength then Err(NoteTooLong)
        else
          var a' := a.(completedAt := Some(now), note := if NoteGiven(note) then note else a.note);
          Ok((store[(u, today) := a'], a'))
  }

  /** Completion keeps every stored note within the column limit, and only
      the day's assignment changes. */
  lemma CompleteChallengeKeepsStore(store: AssignmentStore, u: UserId, today: Day, now: Instant, note: Option<string>)
    requires StoreValid(store)
    ensures var r := CompleteChallenge(store, u, today, now, note);
            r.Ok? ==> StoreValid(r.value.0)
                      && forall k :: k in store && k != (u, today) ==> k in r.value.0 && r.value.0[k] == store[k]
  {
  }

  /** Completing twice on the same day fails the second time. */
  lemma CompleteTwiceFails(store: AssignmentStore, u: UserId, today: Day, now1: Instant, now2: Instant, note1: Option<string>, note2: Option<string>)
    ensures var first := CompleteChallenge(store, u, today, now1, note1);
            first.Ok? ==> CompleteChallenge(first.value.0, u, today, now2, note2) == Err(AlreadyCompleted)
  {
  }
}

=== FILE: comfort.dfy ===
/** The comfort score: a 0..100 summary of how far a user has been leaving
    their comfort zone, from the number of completions, the share of them
    made in the last week, and how long ago the last one was. */
module Comfort {
  import opened Models

  function MinReal(a: real, b: real): real { if a <= b then a else b }
  function MaxReal(a: real, b: real): real { if a >= b then a else b }

  // ------------------------------------------------------------ the factors

  /** The base score from the number of completions, piecewise linear with
      breaks at 10, 30 and 60 completions. */
  function BaseScore(total: nat): (b: real)
    ensures 0.0 <= b <= 100.0
    ensures total >= 1 ==> b >= 2.0
  {
    if total <= 10 then MinReal(20.0, total as real * 2.0)
    else if total <= 30 then MinReal(50.0, 20.0 + (total - 10) as real * 1.5)
    else if total <= 60 then MinReal(80.0, 50.0 + (total - 30) as real * 1.0)
    else MinReal(100.0, 80.0 + (total - 60) as real * 0.5)
  }

  /** More completions never lower the base score. */
  lemma BaseScoreMonotone(a: nat, b: nat)
    requires a <= b
    ensures BaseScore(a) <= BaseScore(b)
  {
  }

  /** Up to 20% more for the share of completions made in the last 7 days. */
  function ActivityFactor(recentCount: nat, total: nat): (f: real)
    requires 0 < total
    ensures 1.0 <= f <= 1.2
  {
    var share := recentCount as real / total as real;
    assert share >= 0.0;
    MinReal(1.2, 1.0 + share * 0.2)
  }

  /** A larger recent share never lowers the activity factor. */
  lemma ActivityFactorMonotone(r1: nat, r2: nat, total: nat)
    requires 0 < total && r1 <= r2
    ensures ActivityFactor(r1, total) <= ActivityFactor(r2, total)
  {
    DivMonotone(r1 as real, r2 as real, total as real);
  }

  lemma DivMonotone(a: real, b: real, t: real)
    requires a <= b && 0.0 < t
    ensures a / t <= b / t
  {
    assert b / t - a / t == (b - a) / t;
  }

  /** After 7 idle days the score loses 2% per further day, at most 30%. */
  function DecayFactor(daysSinceLast: int): (f: real)
    ensures 0.7 <= f <= 1.0
    ensures daysSinceLast <= 7 ==> f == 1.0
    ensures daysSinceLast >= 22 ==> f == 0.7
  {
    if daysSinceLast > 7 then MaxReal(0.7, 1.0 - (daysSinceLast - 7) as real * 0.02) else 1.0
  }

  /** More idle days never raise the decay factor. */
  lemma DecayFactorAntitone(d1: int, d2: int)
    requires d1 <= d2
    ensures DecayFactor(d2) <= DecayFactor(d1)
  {
  }

  // -------------------------------------------------------------- rounding

  /** `n` is the largest integer not above `y`. */
  predicate IsFloor(n: int, y: real)
  {
    n as real <= y < n as real + 1.0
  }

  /** `Math.round`: the nearest integer, halves rounded up. */
  function Round(x: real): (n: int)
    ensures IsFloor(n, x + 0.5)
  {
    (x + 0.5).Floor
  }

  lemma RoundMonotone(x: real, y: real)
    requires x <= y
    ensures Round(x) <= Round(y)
  {
  }

  /** `Math.round`, then clamped to 0..100. */
  function ClampedRound(x: real): (n: int)
    ensures 0 <= n <= MaxComfortScore
    ensures x >= 0.5 ==> n >= 1
  {
    var rounded := Round(x);
    if rounded > MaxComfortScore then MaxComfortScore else if rounded < 0 then 0 else rounded
  }

  lemma ClampedRoundMonotone(x: real, y: real)
    requires x <= y
    ensures ClampedRound(x) <= ClampedRound(y)
  {
    RoundMonotone(x, y);
  }

  // ------------------------------------------------------------ products

  lemma MulNonneg(x: real, y: real)
    requires 0.0 <= x && 0.0 <= y
    ensures 0.0 <= x * y
  {
  }

  lemma MulLeft(w: real, a: real, b: real)
    requires 0.0 <= w && a <= b
    ensures w * a <= w * b
  {
    MulNonneg(w, b - a);
    assert w * (b - a) == w * b - w * a;
  }

  lemma MulBetween(x: real, y: real, xlo: real, xhi: real, ylo: real, yhi: real)
    requires 0.0 <= xlo <= x <= xhi && 0.0 <= ylo <= y <= yhi
    ensures xlo * ylo <= x * y <= xhi * yhi
  {
    MulLeft(xlo, ylo, y);
    MulLeft(y, xlo, x);
    MulLeft(x, y, yhi);
    MulLeft(yhi, x, xhi);
    assert y * xlo == xlo * y && y * x == x * y;
    assert yhi * x == x * yhi && yhi * xhi == xhi * yhi;
  }

  // ---------------------------------------------------------- the score

  /** The base score weighted by the activity factor. */
  function Weighted(total: nat, recentCount: nat): (w: real)
    requires 0 < total
    ensures 2.0 <= w <= 120.0
  {
    var b := BaseScore(total);
    var f := ActivityFactor(recentCount, total);
    MulBetween(b, f, 2.0, 100.0, 1.0, 1.2);
    b * f
  }

  /** The weighted score after decay, rounded and clamped. */
  function Decayed(weighted: real, daysSinceLast: int): (score: int)
    requires 2.0 <= weighted
    ensures 1 <= score <= MaxComfortScore
  {
    var d := DecayFactor(daysSinceLast);
    MulBetween(weighted, d, 2.0, weighted, 0.7, 1.0);
    ClampedRound(weighted * d)
  }

  lemma DecayedParts(weighted: real, daysSinceLast: int, product: real)
    requires 2.0 <= weighted && product == weighted * DecayFactor(daysSinceLast)
    ensures Decayed(weighted, daysSinceLast) == ClampedRound(product)
  {
  }

  /** More idle days never raise the decayed score. */
  lemma DecayedAntitone(w: real, d1: int, d2: int)
    requires 2.0 <= w && d1 <= d2
    ensures Decayed(w, d2) <= Decayed(w, d1)
  {
    DecayFactorAntitone(d1, d2);
    MulLeft(w, DecayFactor(d2), DecayFactor(d1));
    ClampedRoundMonotone(w * DecayFactor(d2), w * DecayFactor(d1));
    DecayedParts(w, d1, w * DecayFactor(d1));
    DecayedParts(w, d2, w * DecayFactor(d2));
  }

  /** The clamped, rounded score for `total` completions of which
      `recentCount` are recent, the last one `daysSinceLast` days ago. */
  function Score(total: nat, recentCount: nat, daysSinceLast: int): (score: int)
    requires 0 < total
    ensures 1 <= score <= MaxComfortScore
  {
    Decayed(Weighted(total, recentCount), daysSinceLast)
  }

  /** A more recent last completion never lowers the score. */
  lemma ScoreAntitoneInIdleDays(total: nat, recentCount: nat, d1: int, d2: int)
    requires 0 < total && d1 <= d2
    ensures Score(total, recentCount, d2) <= Score(total, recentCount, d1)
  {
    DecayedAntitone(Weighted(total, recentCount), d1, d2);
  }

  lemma WeightedParts(total: nat, recentCount: nat)
    requires 0 < total
    ensures Weighted(total, recentCount) == BaseScore(total) * ActivityFactor(recentCount, total)
  {
  }

  /** A larger recent count never lowers the weighted score. */
  lemma WeightedMonotoneInRecent(total: nat, r1: nat, r2: nat)
    requires 0 < total && r1 <= r2
    ensures Weighted(total, r1) <= Weighted(total, r2)
  {
    var b := BaseScore(total);
    calc {
      Weighted(total, r1);
    == { WeightedParts(total, r1); }
      b * ActivityFactor(r1, total);
    <= { ScaledFactorMonotone(b, total, r1, r2); }
      b * ActivityFactor(r2, total);
    == { WeightedParts(total, r2); }
      Weighted(total, r2);
    }
  }

  /** Scaling by the same non-negative amount keeps the activity factors
      in order. */
  lemma ScaledFactorMonotone(b: real, total: nat, r1: nat, r2: nat)
    requires 0.0 <= b && 0 < total && r1 <= r2
    ensures b * ActivityFactor(r1, total) <= b * ActivityFactor(r2, total)
  {
    ActivityFactorMonotone(r1, r2, total);
    MulLeft(b, ActivityFactor(r1, total), ActivityFactor(r2, total));
  }

  /** Scaling by the same non-negative factor keeps the order of two
      weighted scores through the rounding. */
  lemma ScaledRoundMonotone(w1: real, w2: real, f: real, p1: real, p2: real)
    requires 0.0 <= f && w1 <= w2 && p1 == w1 * f && p2 == w2 * f
    ensures ClampedRound(p1) <= ClampedRound(p2)
  {
    MulLeft(f, w1, w2);
    assert f * w1 == p1 && f * w2 == p2;
    ClampedRoundMonotone(p1, p2);
  }

  /** A larger weighted score never gives a lower decayed score. */
  lemma DecayedMonotone(w1: real, w2: real, d: int)
    requires 2.0 <= w1 <= w2
    ensures Decayed(w1, d) <= Decayed(w2, d)
  {
    var f := DecayFactor(d);
    var p1, p2 := w1 * f, w2 * f;
    DecayedParts(w1, d, p1);
    DecayedParts(w2, d, p2);
    ScaledRoundMonotone(w1, w2, f, p1, p2);
  }

  /** More completions in the last 7 days never lower the score. */
  lemma ScoreMonotoneInRecent(total: nat, r1: nat, r2: nat, daysSinceLast: int)
    requires 0 < total && r1 <= r2
    ensures Score(total, r1, daysSinceLast) <= Score(total, r2, daysSinceLast)
  {
    WeightedMonotoneInRecent(total, r1, r2);
    DecayedMonotone(Weighted(total, r1), Weighted(total, r2), daysSinceLast);
  }

  // ------------------------------------------------------ from the history

  /** Whole days from `at` to `now`, rounded down (`Math.floor`); Dafny's
      division by a positive divisor already rounds down. */
  function DaysAgo(now: Instant, at: Instant): int
  {
    (now - at) / MsPerDay
  }

  /** How many of the completion stamps are at most 7 days old. */
  function RecentCount(now: Instant, stamps: seq<Instant>): (n: nat)
    ensures n <= |stamps|
  {
    if |stamps| == 0 then 0
    else (if DaysAgo(now, stamps[0]) <= 7 then 1 else 0) + RecentCount(now, stamps[1..])
  }

  /** Completions the score's query fetches: `LIMIT 100`. */
  const ComfortWindow: nat := 100

  /** What the query returns: at most 100 completion stamps, newest first. */
  predicate QueriedStamps(stamps: seq<Instant>)
  {
    && |stamps| <= ComfortWindow
    && forall i, j :: 0 <= i < j < |stamps| ==> stamps[i] >= stamps[j]
  }

  /** `updateComfortScore`'s value from the completion stamps of the latest
      completions, newest first: 0 without completions, otherwise the
      weighted and decayed base score, rounded and clamped to 0..100. */
  function ComfortScore(now: Instant, stamps: seq<Instant>): (score: int)
    requires QueriedStamps(stamps)
    ensures 0 <= score <= MaxComfortScore
    ensures score == 0 <==> |stamps| == 0
  {
    if |stamps| == 0 then 0
    else Score(|stamps|, RecentCount(now, stamps), DaysAgo(now, stamps[0]))
  }
}

=== FILE: dailyassign.dfy ===
/** The nightly batch: every user without an assignment for the day gets
    one through `getTodayChallenge`; users already assigned are counted as
    skipped, and a failure for one user is logged and passed over. */
module DailyAssign {
  import opened Wrappers
  import opened Days
  import opened Models
  import opened ChallengeEngine

  /** Each random value is a `Math.random()` result. */
  predicate RandomsOk(rands: seq<real>)
  {
    forall i :: 0 <= i < |rands| ==> 0.0 <= rands[i] < 1.0
  }

  predicate HasActive(catalog: seq<Challenge>)
  {
    exists c :: c in catalog && c.isActive
  }

  /** One visit to a user without an assignment: `getTodayChallenge`, and
      whether it succeeded. Only that user's assignment for the day can be
      added, and it is added exactly when the catalog has an active
      challenge. */
  method Visit(w: World, catalog: seq<Challenge>, u: UserId, date: Day, rand: real) returns (w': World, ok: bool)
    requires (u, date) !in w.store && 0.0 <= rand < 1.0
    ensures ok <==> HasActive(catalog)
    ensures w'.store.Keys == if ok then w.store.Keys + {(u, date)} else w.store.Keys
    ensures forall k :: k in w.store ==> w'.store[k] == w.store[k]
  {
    var out := GetTodayChallenge(w, catalog, u, date, rand);
    w', ok := out.world, out.result.Ok?;
    if ok {
      assert w'.store == w.store[(u, date) := out.result.value];
    } else {
      assert w'.store == w.store;
    }
  }

  /** The number of listed users who already hold an assignment for the
      day. */
  function AlreadyAssigned(store: AssignmentStore, users: seq<UserId>, date: Day): (n: nat)
    ensures n <= |users|
  {
    if |users| == 0 then 0
    else
      AlreadyAssigned(store, users[..|users| - 1], date)
      + (if (users[|users| - 1], date) in store then 1 else 0)
  }

  predicate Distinct(users: seq<UserId>)
  {
    forall i, j :: 0 <= i < j < |users| ==> users[i] != users[j]
  }

  /** A later user, listed once, can only hold an assignment the batch did
      not add. */
  lemma AssignedBeforeTheBatch(store: AssignmentStore, store': AssignmentStore, users: seq<UserId>, i: nat, date: Day)
    requires i < |users| && Distinct(users)
    requires forall k :: k in store' && k !in store ==> k.1 == date && k.0 in users[..i]
    requires (users[i], date) in store'
    ensures (users[i], date) in store
  {
    forall j | 0 <= j < i
      ensures users[..i][j] != users[i]
    {
      assert users[..i][j] == users[j];
    }
  }

  /** What holds after the batch has visited `users[..i]`, leaving `world`
      and the two counters. */
  predicate Progressed(w: World, catalog: seq<Challenge>, users: seq<UserId>, date: Day,
                       i: nat, world: World, assignedCount: nat, skippedCount: nat)
  {
    && i <= |users|
    && assignedCount + skippedCount <= i
    && (forall k :: k in w.store ==> k in world.store && world.store[k] == w.store[k])
    && (forall k :: k in world.store && k !in w.store ==> k.1 == date && k.0 in users[..i])
    && (Distinct(users) ==> skippedCount == AlreadyAssigned(w.store, users[..i], date))
    && (HasActive(catalog) ==>
          assignedCount + skippedCount == i && forall j :: 0 <= j < i ==> (users[j], date) in world.store)
    && (!HasActive(catalog) ==> assignedCount == 0 && world.store == w.store)
  }

  /** Extending the visited prefix by one user adds one to the count when
      that user already held an assignment. */
  lemma AlreadyAssignedNext(store: AssignmentStore, users: seq<UserId>, i: nat, date: Day)
    requires i < |users|
    ensures AlreadyAssigned(store, users[..i + 1], date)
            == AlreadyAssigned(store, users[..i], date) + (if (users[i], date) in store then 1 else 0)
  {
    assert users[..i + 1][..i] == users[..i];
  }

  /** Counting a user who already holds an assignment as skipped keeps the
      batch's progress. */
  lemma SkipStep(w: World, catalog: seq<Challenge>, users: seq<UserId>, date: Day,
                 i: nat, world: World, assignedCount: nat, skippedCount: nat)
    requires i < |users| && Progressed(w, catalog, users, date, i, world, assignedCount, skippedCount)
    requires (users[i], date) in world.store
    ensures Progressed(w, catalog, users, date, i + 1, world, assignedCount, skippedCount + 1)
  {
    assert users[..i + 1] == users[..i] + [users[i]];
    if Distinct(users) {
      AssignedBeforeTheBatch(w.store, world.store, users, i, date);
      AlreadyAssignedNext(w.store, users, i, date);
    }
  }

  /** A visit that adds at most the key of `users[i]` keeps the old
      assignments and adds only keys of visited users on `date`. */
  lemma VisitKeepsStore(w: World, users: seq<UserId>, date: Day, i: nat, world: World, world': World, ok: bool)
    requires i < |users|
    requires forall k :: k in w.store ==> k in world.store && world.store[k] == w.store[k]
    requires forall k :: k in world.store && k !in w.store ==> k.1 == date && k.0 in users[..i]
    requires world'.store.Keys == if ok then world.store.Keys + {(users[i], date)} else world.store.Keys
    requires forall k :: k in world.store ==> world'.store[k] == world.store[k]
    ensures forall k :: k in w.store ==> k in world'.store && world'.store[k] == w.store[k]
    ensures forall k :: k in world'.store && k !in w.store ==> k.1 == date && k.0 in users[..i + 1]
  {
    assert users[..i + 1] == users[..i] + [users[i]];
    forall k | k in world'.store && k !in w.store
      ensures k.1 == date && k.0 in users[..i + 1]
    {
      if k in world.store {
        assert k.0 in users[..i];
      }
    }
  }

  /** Visiting a user without an assignment keeps the batch's progress,
      counting the user as assigned when the visit succeeds. */
  lemma VisitStep(w: World, catalog: seq<Challenge>, users: seq<UserId>, date: Day,
                  i: nat, world: World, assignedCount: nat, skippedCount: nat, world': World, ok: bool)
    requires i < |users| && Progressed(w, catalog, users, date, i, world, assignedCount, skippedCount)
    requires (users[i], date) !in world.store
    requires ok <==> HasActive(catalog)
    requires world'.store.Keys == if ok then world.store.Keys + {(users[i], date)} else world.store.Keys
    requires forall k :: k in world.store ==> world'.store[k] == world.store[k]
    ensures Progressed(w, catalog, users, date, i + 1, world',
                       if ok then assignedCount + 1 else assignedCount, skippedCount)
  {
    VisitKeepsStore(w, users, date, i, world, world', ok);
    assert (users[i], date) !in w.store;
    AlreadyAssignedNext(w.store, users, i, date);
    if ok {
      assert forall j :: 0 <= j < i + 1 ==> (users[j], date) in world'.store;
    } else {
      assert world'.store == world.store;
    }
  }

  /** `assignDailyChallenges`' loop, with `rands[i]` the random value the
      visit to `users[i]` draws. Every user is visited once; the users
      already assigned are the skipped ones; an active challenge in the
      catalog means every visit succeeds, and none otherwise; existing
      assignments are left as they are. */
  method AssignDaily(w: World, catalog: seq<Challenge>, users: seq<UserId>, date: Day, rands: seq<real>)
    returns (world: World, assignedCount: nat, skippedCount: nat)
    requires |rands| == |users| && RandomsOk(rands)
    ensures assignedCount + skippedCount <= |users|
    ensures Distinct(users) ==> skippedCount == AlreadyAssigned(w.store, users, date)
    ensures HasActive(catalog) ==>
      && assignedCount + skippedCount == |users|
      && forall u :: u in users ==> (u, date) in world.store
    ensures !HasActive(catalog) ==> assignedCount == 0 && world.store == w.store
    ensures forall k :: k in w.store ==> k in world.store && world.store[k] == w.store[k]
    ensures forall k :: k in world.store && k !in w.store ==> k.1 == date && k.0 in users
  {
    world, assignedCount, skippedCount := w, 0, 0;
    var i := 0;
    while i < |users|
      invariant Progressed(w, catalog, users, date, i, world, assignedCount, skippedCount)
    {
      var u := users[i];
      if (u, date) in world.store {
        SkipStep(w, catalog, users, date, i, world, assignedCount, skippedCount);
        skippedCount := skippedCount + 1;
      } else {
        var world', ok := Visit(world, catalog, u, date, rands[i]);
        VisitStep(w, catalog, users, date, i, world, assignedCount, skippedCount, world', ok);
        world := world';
        if ok {
          assignedCount := assignedCount + 1;
        }
      }
      i := i + 1;
    }
    assert users[..|users|] == users;
  }

  /** The lookup of an existing assignment for `users[k]` throws, when
      `lookupFailsAt` is `Some(k)` with `k` inside the list. */
  predicate LookupFails(users: seq<UserId>, lookupFailsAt: Option<nat>)
  {
    lookupFailsAt.Some? && lookupFailsAt.value < |users|
  }

  /** The users the loop reaches: those before the failing lookup, or all
      of them. */
  function Reached(users: seq<UserId>, lookupFailsAt: Option<nat>): (r: seq<UserId>)
    ensures |r| <= |users| && r == users[..|r|]
    ensures LookupFails(users, lookupFailsAt) <==> |r| < |users|
    ensures LookupFails(users, lookupFailsAt) ==> |r| == lookupFailsAt.value
  {
    if LookupFails(users, lookupFailsAt) then users[..lookupFailsAt.value] else users
  }

  /** `assignDailyChallenges`: list the users, then run the loop. A failure
      to list them, or a failing lookup of an existing assignment (which
      sits outside the per-user error handling), ends the job with status
      1; the assignments made for the users before it stay. Otherwise the
      job ends with status 0. */
  method AssignDailyChallenges(w: World, catalog: seq<Challenge>, users: Option<seq<UserId>>,
                               lookupFailsAt: Option<nat>, date: Day, rands: seq<real>)
    returns (world: World, exitCode: int)
    requires users.Some? ==> |rands| == |users.value| && RandomsOk(rands)
    ensures exitCode == 0 <==> users.Some? && !LookupFails(users.value, lookupFailsAt)
    ensures exitCode == 1 <==> users.None? || LookupFails(users.value, lookupFailsAt)
    ensures users.None? ==> world == w
    ensures forall k :: k in w.store ==> k in world.store && world.store[k] == w.store[k]
    ensures users.Some? ==>
      forall k :: k in world.store && k !in w.store ==> k.1 == date && k.0 in Reached(users.value, lookupFailsAt)
    ensures users.Some? && HasActive(catalog) ==>
      forall u :: u in Reached(users.value, lookupFailsAt) ==> (u, date) in world.store
    ensures !HasActive(catalog) ==> world.store == w.store
  {
    if users.None? {
      return w, 1;
    }
    var reached := Reached(users.value, lookupFailsAt);
    var rs := rands[..|reached|];
    assert RandomsOk(rs) by {
      forall i | 0 <= i < |rs|
        ensures 0.0 <= rs[i] < 1.0
      {
        assert rs[i] == rands[i];
      }
    }
    var assignedCount, skippedCount;
    world, assignedCount, skippedCount := AssignDaily(w, catalog, reached, date, rs);
    exitCode := if |reached| < |users.value| then 1 else 0;
  }
}

=== FILE: days.dfy ===
/** Calendar days as consecutive integers, and the "most recent first"
    views of a set of days that the store's `ORDER BY assigned_date DESC
    LIMIT n` queries produce. */
module Days {

  /** A calendar day number; day `d - 1` is the day before `d`. */
  type Day = int

  /** `m` is the largest element of `s`. */
  predicate IsMax(m: int, s: set<int>)
  {
    m in s && forall x :: x in s ==> x <= m
  }

  /** Adding `y` back to a set whose maximum is `m` gives the larger of the two. */
  lemma ExtendMax(s: set<int>, y: int, m: int)
    requires y in s && IsMax(m, s - {y})
    ensures IsMax(if y <= m then m else y, s)
  {
    forall x | x in s
      ensures x <= (if y <= m then m else y)
    {
      if x != y {
        assert x in s - {y};
      }
    }
  }

  /** Some element of a non-empty set. */
  lemma Witness<T>(s: set<T>) returns (y: T)
    requires s != {}
    ensures y in s
  {
    y :| y in s;
  }

  lemma {:induction false} MaxExists(s: set<int>)
    requires s != {}
    ensures exists m :: IsMax(m, s)
    decreases |s|
  {
    var y := Witness(s);
    if s == {y} {
      assert IsMax(y, s);
    } else {
      MaxExists(s - {y});
      var m :| IsMax(m, s - {y});
      ExtendMax(s, y, m);
    }
  }

  /** The latest day of a non-empty set of days. */
  function Max(s: set<int>): (m: int)
    requires s != {}
    ensures IsMax(m, s)
  {
    MaxExists(s);
    var m :| IsMax(m, s); m
  }

  /** Strictly decreasing: newest first, no day twice. */
  predicate StrictlyDescending(r: seq<int>)
  {
    forall i, j :: 0 <= i < j < |r| ==> r[i] > r[j]
  }

  /** The days of `s` listed newest first, as an `ORDER BY ... DESC` query
      over rows that are unique per day returns them. */
  function SortedDesc(s: set<int>): (r: seq<int>)
    ensures StrictlyDescending(r)
    ensures forall x :: x in r <==> x in s
    ensures |r| == |s|
    decreases |s|
  {
    if s == {} then []
    else
      var m := Max(s);
      var rest := SortedDesc(s - {m});
      assert forall x :: x in rest ==> x < m;
      [m] + rest
  }

  /** The `n` latest days of `s`: what a `LIMIT n` query newest first
      returns. */
  function Latest(s: set<int>, n: nat): (r: set<int>)
    ensures r <= s
    ensures |r| <= n && |r| <= |s|
    ensures n <= |s| ==> |r| == n
    ensures n > 0 && s != {} ==> Max(s) in r
    decreases n
  {
    if n == 0 || s == {} then {}
    else
      var m := Max(s);
      var rest := Latest(s - {m}, n - 1);
      assert m !in rest;
      {m} + rest
  }

  /** The kept days are the newest ones: no dropped day is later than a
      kept one. */
  lemma {:induction false} LatestNewest(s: set<int>, n: nat, x: int, y: int)
    requires x in Latest(s, n) && y in s && x <= y
    ensures y in Latest(s, n)
    decreases n
  {
    var m := Max(s);
    if y != m {
      assert x != m;
      LatestNewest(s - {m}, n - 1, x, y);
    }
  }

  /** A query whose limit is not reached returns every day. */
  lemma {:induction false} LatestAll(s: set<int>, n: nat)
    requires |s| <= n
    ensures Latest(s, n) == s
    decreases n
  {
    if n > 0 && s != {} {
      var m := Max(s);
      LatestAll(s - {m}, n - 1);
    }
  }

  /** The newest of the latest `n` days is the newest day overall. */
  lemma LatestKeepsMax(s: set<int>, n: nat)
    requires n > 0
    ensures s != {} ==> Latest(s, n) != {} && Max(Latest(s, n)) == Max(s)
  {
  }

  /** A subset is no larger than its superset. */
  lemma {:induction false} SubsetCard<T>(a: set<T>, b: set<T>)
    requires a <= b
    ensures |a| <= |b|
    decreases |b|
  {
    if b != {} {
      var x :| x in b;
      SubsetCard(a - {x}, b - {x});
    }
  }
}

=== FILE: http.dfy ===
/** The shape of a value read from a parsed JSON request body, with
    JavaScript's truthiness, so that route validators can be stated over
    every input a client can send. */
module Http {

  /** One field of `req.body`: `Undefined` when the field is absent. */
  datatype JsonValue =
    | Undefined
    | Null
    | Bool(b: bool)
    | Num(n: real)
    | Str(s: string)
    | Array(items: seq<JsonValue>)
    | Object

  /** JavaScript truthiness of a body field (`if (x)`, `!x`). */
  predicate Truthy(v: JsonValue)
  {
    match v
    case Undefined => false
    case Null => false
    case Bool(b) => b
    case Num(n) => n != 0.0
    case Str(s) => |s| > 0
    case Array(_) => true
    case Object => true
  }
}

=== FILE: identity.dfy ===
/** Request identity: a bearer token for a registered user, or else the
    anonymous id the client sends, which must be a version-4 UUID and is
    turned into a user on first sight. Token verification is a parameter. */
module Identity {
  import opened Wrappers
  import opened Models
  import opened Text

  // ------------------------------------------------------------ UUID shape

  /** `[0-9a-f]` under the case-insensitive flag. */
  predicate IsHex(c: char)
  {
    '0' <= c <= '9' || 'a' <= c <= 'f' || 'A' <= c <= 'F'
  }

  function HexValue(c: char): (v: int)
    requires IsHex(c)
    ensures 0 <= v < 16
  {
    if '0' <= c <= '9' then c as int - '0' as int
    else if 'a' <= c <= 'f' then c as int - 'a' as int + 10
    else c as int - 'A' as int + 10
  }

  predicate AllHex(s: string)
  {
    forall i :: 0 <= i < |s| ==> IsHex(s[i])
  }

  /** The accepted anonymous id, by position: 36 characters, hyphens at
      8, 13, 18 and 23, hex digits elsewhere, `4` at 14 and one of
      `8 9 a b` (either case) at 19. */
  predicate UuidV4(s: string)
  {
    && |s| == 36
    && s[8] == '-' && s[13] == '-' && s[18] == '-' && s[23] == '-'
    && (forall i :: 0 <= i < 36 && i !in {8, 13, 18, 23} ==> IsHex(s[i]))
    && s[14] == '4'
    && s[19] in {'8', '9', 'a', 'b', 'A', 'B'}
  }

  /** The string the pattern
      `^[0-9a-f]{8}-[0-9a-f]{4}-4[0-9a-f]{3}-[89ab][0-9a-f]{3}-[0-9a-f]{12}$`
      spells out of its five hex groups and its variant digit. */
  function Spell(a: string, b: string, c: string, v: char, d: string, e: string): string
  {
    a + "-" + b + "-4" + c + "-" + [v] + d + "-" + e
  }

  predicate PatternParts(a: string, b: string, c: string, v: char, d: string, e: string)
  {
    && |a| == 8 && |b| == 4 && |c| == 3 && |d| == 3 && |e| == 12
    && AllHex(a) && AllHex(b) && AllHex(c) && AllHex(d) && AllHex(e)
    && v in {'8', '9', 'a', 'b', 'A', 'B'}
  }

  /** Every string the pattern matches is accepted. */
  lemma PatternAccepted(a: string, b: string, c: string, v: char, d: string, e: string)
    requires PatternParts(a, b, c, v, d, e)
    ensures UuidV4(Spell(a, b, c, v, d, e))
  {
    var s := Spell(a, b, c, v, d, e);
    forall i | 0 <= i < 36 && i !in {8, 13, 18, 23}
      ensures IsHex(s[i])
    {
      if i < 8 { assert s[i] == a[i]; }
      else if i < 13 { assert s[i] == b[i - 9]; }
      else if i == 14 { }
      else if i < 18 { assert s[i] == c[i - 15]; }
      else if i == 19 { }
      else if i < 23 { assert s[i] == d[i - 20]; }
      else { assert s[i] == e[i - 24]; }
    }
  }

  /** Every accepted string is the pattern's spelling of its own groups. */
  lemma AcceptedMatchesPattern(s: string)
    requires UuidV4(s)
    ensures PatternParts(s[..8], s[9..13], s[15..18], s[19], s[20..23], s[24..])
    ensures s == Spell(s[..8], s[9..13], s[15..18], s[19], s[20..23], s[24..])
  {
    var a, b, c, d, e := s[..8], s[9..13], s[15..18], s[20..23], s[24..];
    assert AllHex(a) by { forall i | 0 <= i < 8 ensures IsHex(a[i]) { assert a[i] == s[i]; } }
    assert AllHex(b) by { forall i | 0 <= i < 4 ensures IsHex(b[i]) { assert b[i] == s[i + 9]; } }
    assert AllHex(c) by { forall i | 0 <= i < 3 ensures IsHex(c[i]) { assert c[i] == s[i + 15]; } }
    assert AllHex(d) by { forall i | 0 <= i < 3 ensures IsHex(d[i]) { assert d[i] == s[i + 20]; } }
    assert AllHex(e) by { forall i | 0 <= i < 12 ensures IsHex(e[i]) { assert e[i] == s[i + 24]; } }
    var t := Spell(a, b, c, s[19], d, e);
    assert |t| == 36;
    forall i | 0 <= i < 36 ensures t[i] == s[i] {
      if i < 8 { assert t[i] == a[i]; }
      else if i == 8 { }
      else if i < 13 { assert t[i] == b[i - 9]; }
      else if i < 15 { }
      else if i < 18 { assert t[i] == c[i - 15]; }
      else if i < 20 { }
      else if i < 23 { assert t[i] == d[i - 20]; }
      else if i == 23 { }
      else { assert t[i] == e[i - 24]; }
    }
  }

  /** The fixed `4` is the version number of section 4.1.3 of RFC 4122,
      and the variant digit is exactly a hex digit whose top two bits are
      `10`, the variant of section 4.1.1 of RFC 4122. */
  lemma VersionAndVariant(s: string)
    requires |s| == 36 && IsHex(s[14]) && IsHex(s[19])
    ensures s[14] == '4' ==> HexValue(s[14]) == 4
    ensures s[19] in {'8', '9', 'a', 'b', 'A', 'B'} <==> HexValue(s[19]) / 4 == 2
  {
  }

  // ------------------------------------------------------------ the request

  datatype AuthFailure =
    | MissingAuth   // `Missing or invalid authentication`
    | InvalidUuid   // `Invalid UUID format`

  /** Both failures answer 401. */
  function FailureStatus(f: AuthFailure): (status: int)
    ensures status == 401
  {
    match f
    case MissingAuth => 401
    case InvalidUuid => 401
  }

  const BearerPrefix: string := "Bearer "

  /** A string header is present when it is truthy: set and not empty. */
  predicate Present(h: Option<string>)
  {
    h.Some? && |h.value| > 0
  }

  /** The user a bearer token names, when the header carries one, the token
      verifies, and the user exists; a token that fails to verify is
      `null`, not an error. */
  function TokenUser(users: UserStore, authorization: Option<string>,
                     verifyToken: string -> Option<UserId>): (r: Option<UserId>)
    ensures r.Some? ==> r.value in users
    ensures r.Some? <==>
      && Present(authorization) && StartsWith(authorization.value, BearerPrefix)
      && verifyToken(authorization.value[|BearerPrefix|..]).Some?
      && verifyToken(authorization.value[|BearerPrefix|..]).value in users
  {
    if Present(authorization) && StartsWith(authorization.value, BearerPrefix) then
      match verifyToken(authorization.value[|BearerPrefix|..])
      case Some(id) => if id in users then Some(id) else None
      case None => None
    else None
  }

  /** `authenticateAnon`: the token's user if there is one; otherwise the
      anonymous id, which must be present and UUID-shaped, and whose user
      is created, without email or password, when it does not exist. */
  function AuthenticateAnon(users: UserStore, authorization: Option<string>, anonId: Option<string>,
                            verifyToken: string -> Option<UserId>): (r: Result<(UserStore, UserId), AuthFailure>)
    ensures TokenUser(users, authorization, verifyToken).Some? ==>
      r == Ok((users, users[TokenUser(users, authorization, verifyToken).value].id))
    ensures TokenUser(users, authorization, verifyToken).None? ==>
      && (r == Err(MissingAuth) <==> !Present(anonId))
      && (r == Err(InvalidUuid) <==> Present(anonId) && !UuidV4(anonId.value))
      && (r.Ok? ==>
            && r.value.0 == (if anonId.value in users then users else users[anonId.value := User(anonId.value, None, None)])
            && r.value.1 == r.value.0[anonId.value].id)
  {
    match TokenUser(users, authorization, verifyToken)
    case Some(id) => Ok((users, users[id].id))
    case None =>
      if !Present(anonId) then Err(MissingAuth)
      else if !UuidV4(anonId.value) then Err(InvalidUuid)
      else
        var id := anonId.value;
        var users' := if id in users then users else users[id := User(id, None, None)];
        Ok((users', users'[id].id))
  }

  /** With every row under its own id, the anonymous path resolves to the
      anonymous id itself, and the only user it adds is that id's, without
      an email, so the table stays valid. */
  lemma AnonPathKeepsUsers(users: UserStore, authorization: Option<string>, anonId: Option<string>,
                           verifyToken: string -> Option<UserId>)
    requires UsersValid(users)
    ensures var r := AuthenticateAnon(users, authorization, anonId, verifyToken);
            r.Ok? ==>
              && UsersValid(r.value.0)
              && r.value.1 in r.value.0
              && users.Keys <= r.value.0.Keys
              && (forall id :: id in users ==> r.value.0[id] == users[id])
              && (TokenUser(users, authorization, verifyToken).None? ==> r.value.1 == anonId.value)
  {
  }

  /** A second request with the same headers resolves to the same user and
      creates nothing. */
  lemma AuthenticateIdempotent(users: UserStore, authorization: Option<string>, anonId: Option<string>,
                               verifyToken: string -> Option<UserId>)
    requires AuthenticateAnon(users, authorization, anonId, verifyToken).Ok?
    ensures var (users1, id1) := AuthenticateAnon(users, authorization, anonId, verifyToken).value;
            AuthenticateAnon(users1, authorization, anonId, verifyToken) == Ok((users1, id1))
  {
    var (users1, id1) := AuthenticateAnon(users, authorization, anonId, verifyToken).value;
    if TokenUser(users, authorization, verifyToken).None? {
      var t := TokenUser(users1, authorization, verifyToken);
      if t.Some? {
        assert t.value == anonId.value;
      }
    }
  }

  /** A bad or unknown token is no worse than none: the anonymous id
      decides. */
  lemma BadTokenFallsThrough(users: UserStore, authorization: Option<string>, anonId: Option<string>,
                             verifyToken: string -> Option<UserId>)
    requires TokenUser(users, authorization, verifyToken).None?
    ensures AuthenticateAnon(users, authorization, anonId, verifyToken) == AuthenticateAnon(users, None, anonId, verifyToken)
  {
  }
}

=== FILE: journal.dfy ===
/** The journal routes: creating, updating, deleting and listing a user's
    journal entries. The table is a sequence of rows in storage order;
    every lookup is scoped to the requesting user. */
module Journal {
  import opened Wrappers
  import opened Models
  import opened Http
  import opened Text
  import opened Sorting

  type JournalTable = seq<JournalEntry>

  /** `\d`: an ASCII digit. */
  predicate IsDigit(c: char)
  {
    '0' <= c <= '9'
  }

  /** `^\d{4}-\d{2}-\d{2}$`: the shape of a date, with no check that the
      month or the day is in range. */
  predicate DateShape(s: string)
  {
    && |s| == 10
    && IsDigit(s[0]) && IsDigit(s[1]) && IsDigit(s[2]) && IsDigit(s[3])
    && s[4] == '-' && IsDigit(s[5]) && IsDigit(s[6])
    && s[7] == '-' && IsDigit(s[8]) && IsDigit(s[9])
  }

  /** The shape check accepts a 13th month and a day 00, which a full date
      of section 5.6 of RFC 3339 does not. */
  lemma DateShapeIsSyntaxOnly()
    ensures DateShape("2024-13-00")
  {
  }

  function DigitValue(c: char): int
  {
    if IsDigit(c) then c as int - '0' as int else 0
  }

  /** The calendar order of a date-shaped string as a number `yyyymmdd`. */
  function DateKey(s: string): int
  {
    if |s| < 10 then 0
    else
      DigitValue(s[0]) * 10_000_000 + DigitValue(s[1]) * 1_000_000 + DigitValue(s[2]) * 100_000
      + DigitValue(s[3]) * 10_000 + DigitValue(s[5]) * 1_000 + DigitValue(s[6]) * 100
      + DigitValue(s[8]) * 10 + DigitValue(s[9])
  }

  function EntryDateKey(e: JournalEntry): int { DateKey(e.entryDate) }

  /** The table as the column validators and the primary key keep it. */
  predicate TableValid(t: JournalTable)
  {
    && (forall i :: 0 <= i < |t| ==> JournalEntryValid(t[i]) && DateShape(t[i].entryDate))
    && (forall i, j :: 0 <= i < j < |t| ==> t[i].id != t[j].id)
  }

  datatype JournalError =
    | MissingField      // `entry_date and content are required`
    | NotNonEmptyText   // `content must be a non-empty string`
    | NotText           // `content must be a string`
    | Blank             // `content cannot be empty`
    | TooLong           // `content must be 5000 characters or less`
    | BadDate           // `entry_date must be in YYYY-MM-DD format`
    | NotFound          // `Journal entry not found`
    | IdTaken           // the insert fails on the primary key

  function ErrorStatus(e: JournalError): (status: int)
    ensures status == 404 <==> e == NotFound
    ensures status == 500 <==> e == IdTaken
    ensures status == 400 <==> e != NotFound && e != IdTaken
  {
    match e
    case NotFound => 404
    case IdTaken => 500
    case _ => 400
  }

  // --------------------------------------------------------------- create

  /** POST `/`: both fields present, content a string with something besides
      white space, at most 5000 UTF-16 code units before trimming, a date-shaped
      `entry_date`; the trimmed content is stored under the new id. */
  function Create(t: JournalTable, u: UserId, newId: string, entryDate: JsonValue, content: JsonValue)
    : (r: Result<(JournalTable, JournalEntry), JournalError>)
    ensures r == Err(MissingField) <==> !Truthy(entryDate) || !Truthy(content)
    ensures r == Err(NotNonEmptyText) <==>
      Truthy(entryDate) && Truthy(content) && (!content.Str? || AllSpace(content.s))
    ensures r == Err(TooLong) <==>
      Truthy(entryDate) && content.Str? && !AllSpace(content.s) && Utf16Length(content.s) > MaxJournalLength
    ensures r == Err(BadDate) <==>
      && Truthy(entryDate) && content.Str? && !AllSpace(content.s) && Utf16Length(content.s) <= MaxJournalLength
      && !(entryDate.Str? && DateShape(entryDate.s))
    ensures r == Err(IdTaken) <==>
      && Truthy(entryDate) && content.Str? && !AllSpace(content.s) && Utf16Length(content.s) <= MaxJournalLength
      && entryDate.Str? && DateShape(entryDate.s)
      && exists i :: 0 <= i < |t| && t[i].id == newId
    ensures r.Err? ==> r.error in {MissingField, NotNonEmptyText, TooLong, BadDate, IdTaken}
    ensures r.Ok? ==>
      && entryDate.Str? && content.Str?
      && r.value.1 == JournalEntry(newId, u, entryDate.s, Trim(content.s))
      && r.value.0 == t + [r.value.1]
      && JournalEntryValid(r.value.1) && DateShape(r.value.1.entryDate)
  {
    if !Truthy(entryDate) || !Truthy(content) then Err(MissingField)
    else if !content.Str? || |Trim(content.s)| == 0 then Err(NotNonEmptyText)
    else if Utf16Length(content.s) > MaxJournalLength then Err(TooLong)
    else if !(entryDate.Str? && DateShape(entryDate.s)) then Err(BadDate)
    else if exists i :: 0 <= i < |t| && t[i].id == newId then Err(IdTaken)
    else
      var e := JournalEntry(newId, u, entryDate.s, Trim(content.s));
      Ok((t + [e], e))
  }

  /** Creating keeps the table valid. */
  lemma CreateKeepsTableValid(t: JournalTable, u: UserId, newId: string, entryDate: JsonValue, content: JsonValue)
    requires TableValid(t)
    ensures var r := Create(t, u, newId, entryDate, content);
            r.Ok? ==> TableValid(r.value.0)
  {
    var r := Create(t, u, newId, entryDate, content);
    if r.Ok? {
      var t' := r.value.0;
      assert |t'| == |t| + 1 && t'[|t|] == r.value.1;
      forall a, b | 0 <= a < b < |t'| ensures t'[a].id != t'[b].id {
        assert t'[a] == t[a];
        if b < |t| { assert t'[b] == t[b]; }
      }
    }
  }

  // ---------------------------------------------------------------- lookup

  /** The position of the entry with this id owned by `u`, if any. */
  function FindOwned(t: JournalTable, id: string, u: UserId): (r: Option<nat>)
    ensures r.Some? ==> r.value < |t| && t[r.value].id == id && t[r.value].userId == u
    ensures r.None? ==> forall i :: 0 <= i < |t| ==> !(t[i].id == id && t[i].userId == u)
  {
    if |t| == 0 then None
    else if t[0].id == id && t[0].userId == u then Some(0)
    else
      match FindOwned(t[1..], id, u)
      case Some(i) => Some(i + 1)
      case None => None
  }

  // --------------------------------------------------------------- update

  /** The checks on a provided `content`, giving the text to store. */
  function CheckContent(content: JsonValue): (r: Result<string, JournalError>)
    ensures r == Err(NotText) <==> !content.Str?
    ensures r == Err(Blank) <==> content.Str? && AllSpace(content.s)
    ensures r == Err(TooLong) <==> content.Str? && !AllSpace(content.s) && Utf16Length(content.s) > MaxJournalLength
    ensures r.Err? ==> r.error in {NotText, Blank, TooLong}
    ensures r.Ok? <==> content.Str? && !AllSpace(content.s) && Utf16Length(content.s) <= MaxJournalLength
    ensures r.Ok? ==> content.Str? && r.value == Trim(content.s) && 1 <= |r.value| <= MaxJournalLength
  {
    if !content.Str? then Err(NotText)
    else if |Trim(content.s)| == 0 then Err(Blank)
    else if Utf16Length(content.s) > MaxJournalLength then Err(TooLong)
    else Ok(Trim(content.s))
  }

  /** PATCH `/:id`: a provided `content` is checked first, then the entry
      must belong to `u`; without `content` the entry is returned as it
      is. */
  function Update(t: JournalTable, u: UserId, id: string, content: JsonValue)
    : (r: Result<(JournalTable, JournalEntry), JournalError>)
    ensures !content.Undefined? && CheckContent(content).Err? ==> r == Err(CheckContent(content).error)
    ensures r == Err(NotFound) <==>
      (content.Undefined? || CheckContent(content).Ok?) && FindOwned(t, id, u).None?
    ensures r.Ok? <==> (content.Undefined? || CheckContent(content).Ok?) && FindOwned(t, id, u).Some?
    ensures r.Ok? ==>
      var i := FindOwned(t, id, u).value;
      && |r.value.0| == |t|
      && (forall j :: 0 <= j < |t| && j != i ==> r.value.0[j] == t[j])
      && r.value.1 == r.value.0[i]
      && r.value.1.id == id && r.value.1.userId == u
      && r.value.1.entryDate == t[i].entryDate
      && (content.Undefined? ==> r.value.0 == t)
      && (!content.Undefined? ==> r.value.1.content == CheckContent(content).value)
  {
    if !content.Undefined? && CheckContent(content).Err? then Err(CheckContent(content).error)
    else
      match FindOwned(t, id, u)
      case None => Err(NotFound)
      case Some(i) =>
        if content.Undefined? then Ok((t, t[i]))
        else
          var e := t[i].(content := CheckContent(content).value);
          Ok((t[i := e], e))
  }

  /** Updating keeps the table valid. */
  lemma UpdateKeepsTableValid(t: JournalTable, u: UserId, id: string, content: JsonValue)
    requires TableValid(t)
    ensures var r := Update(t, u, id, content);
            r.Ok? ==> TableValid(r.value.0)
  {
    var r := Update(t, u, id, content);
    if r.Ok? {
      var i := FindOwned(t, id, u).value;
      var t' := r.value.0;
      forall j | 0 <= j < |t'| ensures t'[j].id == t[j].id {
        if j == i { assert t'[i] == r.value.1; }
      }
      forall j | 0 <= j < |t'| ensures JournalEntryValid(t'[j]) && DateShape(t'[j].entryDate) {
        if j == i { assert t'[i] == r.value.1; }
      }
    }
  }

  // --------------------------------------------------------------- delete

  /** DELETE `/:id`: removes the entry with this id owned by `u`. */
  function Delete(t: JournalTable, u: UserId, id: string): (r: Result<JournalTable, JournalError>)
    ensures r.Err? <==> FindOwned(t, id, u).None?
    ensures r.Err? ==> r.error == NotFound
    ensures r.Ok? ==>
      && |r.value| == |t| - 1
      && (forall e :: e in r.value ==> e in t)
      && (forall e :: e in t && e.id != id ==> e in r.value)
      && (forall e :: e in t && e.userId != u ==> e in r.value)
  {
    match FindOwned(t, id, u)
    case None => Err(NotFound)
    case Some(i) =>
      var r := t[..i] + t[i + 1..];
      assert forall j :: 0 <= j < |t| && j != i ==> t[j] in r by {
        forall j | 0 <= j < |t| && j != i ensures t[j] in r {
          if j < i { assert r[j] == t[j]; } else { assert r[j - 1] == t[j]; }
        }
      }
      Ok(r)
  }

  /** With unique ids, cutting out the entry with `id` leaves no entry with
      that id. */
  lemma CutRemovesId(t: JournalTable, i: nat, id: string)
    requires i < |t| && t[i].id == id
    requires forall a, b :: 0 <= a < b < |t| ==> t[a].id != t[b].id
    ensures forall e :: e in t[..i] + t[i + 1..] ==> e.id != id
  {
    var r := t[..i] + t[i + 1..];
    forall e | e in r
      ensures e.id != id
    {
      var k :| 0 <= k < |r| && r[k] == e;
      if k < i { assert e == t[k]; } else { assert e == t[k + 1]; }
    }
  }

  /** With unique ids, the deleted entry is gone from the table. */
  lemma DeleteRemovesEntry(t: JournalTable, u: UserId, id: string)
    requires TableValid(t)
    ensures var r := Delete(t, u, id);
            r.Ok? ==> forall e :: e in r.value ==> e.id != id
  {
    if Delete(t, u, id).Ok? {
      var i := FindOwned(t, id, u).value;
      CutRemovesId(t, i, id);
    }
  }

  // ------------------------------------------------------------------ list

  /** The entries owned by `u`, in storage order. */
  function Owned(t: JournalTable, u: UserId): (r: JournalTable)
    ensures forall e :: e in r <==> e in t && e.userId == u
    ensures |r| <= |t|
  {
    if |t| == 0 then []
    else if t[0].userId == u then [t[0]] + Owned(t[1..], u)
    else Owned(t[1..], u)
  }

  const ListLimit: nat := 100

  /** GET `/`: the user's entries, latest date first, at most 100; all of
      them while there are no more than 100, and exactly 100 otherwise. */
  function List(t: JournalTable, u: UserId): (r: JournalTable)
    ensures |r| <= ListLimit
    ensures forall e :: e in r ==> e in t && e.userId == u
    ensures Descending(r, EntryDateKey)
    ensures multiset(r) <= multiset(Owned(t, u))
    ensures |Owned(t, u)| <= ListLimit ==> multiset(r) == multiset(Owned(t, u))
    ensures ListLimit <= |Owned(t, u)| ==> |r| == ListLimit
  {
    var sorted := SortDesc(Owned(t, u), EntryDateKey);
    TakeDescending(sorted, ListLimit, EntryDateKey);
    TakeKeepsNewest(sorted, ListLimit, EntryDateKey);
    var r := Take(sorted, ListLimit);
    assert forall e :: e in r ==> e in sorted;
    assert forall e :: e in sorted ==> e in multiset(Owned(t, u));
    r
  }

  /** The list keeps the newest entries: an entry of the user's that is
      left out has no later date than any listed one. */
  lemma ListKeepsNewest(t: JournalTable, u: UserId, x: JournalEntry, y: JournalEntry)
    requires x in Owned(t, u) && x !in List(t, u) && y in List(t, u)
    ensures EntryDateKey(x) <= EntryDateKey(y)
  {
    var sorted := SortDesc(Owned(t, u), EntryDateKey);
    TakeKeepsNewest(sorted, ListLimit, EntryDateKey);
    assert x in multiset(sorted) - multiset(List(t, u));
  }

  /** A create with a fresh id, a date-shaped date and a non-blank content
      within the limit is accepted. */
  lemma CreateAccepts(t: JournalTable, u: UserId, newId: string, date: string, content: string)
    requires forall i :: 0 <= i < |t| ==> t[i].id != newId
    requires DateShape(date) && Utf16Length(content) <= MaxJournalLength && !AllSpace(content)
    ensures var e := JournalEntry(newId, u, date, Trim(content));
            Create(t, u, newId, Str(date), Str(content)) == Ok((t + [e], e))
  {
    var r := Create(t, u, newId, Str(date), Str(content));
    assert Truthy(Str(date)) && Truthy(Str(content));
    assert r != Err(MissingField) && r != Err(NotNonEmptyText);
    assert r != Err(TooLong) && r != Err(BadDate);
    assert !(exists i :: 0 <= i < |t| && t[i].id == newId);
    assert r != Err(IdTaken);
  }

  /** An id absent from a table and from an appended entry is absent from
      the longer table. */
  lemma FreshAfterAppend(t: JournalTable, e: JournalEntry, id: string)
    requires e.id != id && forall i :: 0 <= i < |t| ==> t[i].id != id
    ensures forall i :: 0 <= i < |t + [e]| ==> (t + [e])[i].id != id
  {
    forall i | 0 <= i < |t + [e]|
      ensures (t + [e])[i].id != id
    {
      if i < |t| { assert (t + [e])[i] == t[i]; }
    }
  }

  /** Several entries may share a user and a date: the (user, date) index is
      not unique, so a second entry for the same day is accepted. */
  lemma SameDayTwice(t: JournalTable, u: UserId, id1: string, id2: string, content: string)
    requires id1 != id2 && forall i :: 0 <= i < |t| ==> t[i].id != id1 && t[i].id != id2
    requires Utf16Length(content) <= MaxJournalLength && !AllSpace(content)
    ensures var first := Create(t, u, id1, Str("2024-05-01"), Str(content));
            && first.Ok?
            && Create(first.value.0, u, id2, Str("2024-05-01"), Str(content)).Ok?
  {
    var date := "2024-05-01";
    assert DateShape(date);
    var e := JournalEntry(id1, u, date, Trim(content));
    FreshAfterAppend(t, e, id2);
    CreateAccepts(t, u, id1, date, content);
    CreateAccepts(t + [e], u, id2, date, content);
  }
}

=== FILE: models.dfy ===
/** The persisted entities and the constraints their table declarations
    impose: users, challenges, daily assignments, per-user stats, journal
    entries, wins and win events. Tables become maps keyed by their
    primary or unique key, so a key is stored at most once by construction. */
module Models {
  import opened Wrappers
  import opened Days

  type UserId = string
  type ChallengeId = string

  /** A point in time, in milliseconds since the epoch. */
  type Instant = int

  const MsPerHour: int := 3_600_000
  const MsPerDay: int := 86_400_000

  // ---------------------------------------------------------------- users

  /** An identity: anonymous while `email` and `passwordHash` are null. */
  datatype User = User(id: UserId, email: Option<string>, passwordHash: Option<string>)

  /** The users table, keyed by primary key. */
  type UserStore = map<UserId, User>

  /** Each row sits under its own id, and no email belongs to two users
      (the unique index on `email`). */
  predicate UsersValid(users: UserStore)
  {
    && (forall id :: id in users ==> users[id].id == id)
    && (forall a, b :: a in users && b in users && a != b && users[a].email.Some? ==>
          users[a].email != users[b].email)
  }

  // ----------------------------------------------------------- challenges

  /** The six challenge categories of the `category` enum column. */
  datatype Category = Awareness | Private | Visual | Interaction | Share | Reflect

  datatype Challenge = Challenge(
    id: ChallengeId,
    slug: string,
    category: Category,
    difficulty: int,
    text: string,
    isActive: bool)

  const MinDifficulty: int := 1
  const MaxDifficulty: int := 5

  /** The column validators: difficulty is within 1..5 and the slug and
      text fit their column widths. */
  predicate ChallengeValid(c: Challenge)
  {
    MinDifficulty <= c.difficulty <= MaxDifficulty && |c.slug| <= 120 && |c.text| <= 500
  }

  /** The challenges table as the store returns it: every row valid, ids and
      slugs unique. */
  predicate CatalogValid(catalog: seq<Challenge>)
  {
    && (forall i :: 0 <= i < |catalog| ==> ChallengeValid(catalog[i]))
    && (forall i, j :: 0 <= i < j < |catalog| ==> catalog[i].id != catalog[j].id)
    && (forall i, j :: 0 <= i < j < |catalog| ==> catalog[i].slug != catalog[j].slug)
  }

  /** A challenge row created without an explicit `is_active`. */
  function NewChallenge(id: ChallengeId, slug: string, category: Category, difficulty: int, text: string): (c: Challenge)
    ensures c.isActive
    ensures c.id == id && c.slug == slug && c.category == category
    ensures c.difficulty == difficulty && c.text == text
  {
    Challenge(id, slug, category, difficulty, text, true)
  }

  /** The first challenge with the given id, as `findByPk` returns it. */
  function ChallengeById(catalog: seq<Challenge>, id: ChallengeId): (r: Option<Challenge>)
    ensures r.Some? ==> r.value in catalog && r.value.id == id
    ensures r.None? ==> forall c :: c in catalog ==> c.id != id
  {
    if |catalog| == 0 then None
    else if catalog[0].id == id then Some(catalog[0])
    else ChallengeById(catalog[1..], id)
  }

  // ---------------------------------------------------------- assignments

  /** One user's challenge for one day. The owning user and the day are the
      key of the store; `completedAt` null means the assignment is pending.
      `skippedAt` is read by the streak computation although the table
      declaration has no such column; the model assumes it exists. */
  datatype Assignment = Assignment(
    challengeId: ChallengeId,
    completedAt: Option<Instant>,
    skippedAt: Option<Instant>,
    note: Option<string>)
  {
    predicate Pending() { completedAt.None? }
  }

  const MaxNoteLength: int := 2000

  /** The `note` validator: null or at most 2000 characters. */
  predicate AssignmentValid(a: Assignment)
  {
    a.note.None? || |a.note.value| <= MaxNoteLength
  }

  /** The assignments table, keyed by its unique index (user, day): at most
      one assignment per user per day. */
  type AssignmentStore = map<(UserId, Day), Assignment>

  predicate StoreValid(store: AssignmentStore)
  {
    forall k :: k in store ==> AssignmentValid(store[k])
  }

  /** The days on which `u` completed the assigned challenge. */
  function CompletedDays(store: AssignmentStore, u: UserId): (days: set<Day>)
    ensures forall d :: d in days <==> (u, d) in store && store[(u, d)].completedAt.Some?
  {
    set k | k in store && k.0 == u && store[k].completedAt.Some? :: k.1
  }

  /** The days on which `u` skipped the assigned challenge. */
  function SkippedDays(store: AssignmentStore, u: UserId): (days: set<Day>)
    ensures forall d :: d in days <==> (u, d) in store && store[(u, d)].skippedAt.Some?
  {
    set k | k in store && k.0 == u && store[k].skippedAt.Some? :: k.1
  }

  /** The days on which `u` has an assignment at all. */
  function AssignedDays(store: AssignmentStore, u: UserId): (days: set<Day>)
    ensures forall d :: d in days <==> (u, d) in store
  {
    set k | k in store && k.0 == u :: k.1
  }

  // ---------------------------------------------------------------- stats

  /** The per-user stats row. `badges` is written by the badge check
      although the table declaration has no such column; the model assumes
      it exists. */
  datatype Stats = Stats(currentStreak: int, longestStreak: int, comfortScore: int, badges: seq<string>)

  const MaxComfortScore: int := 100

  /** The `comfort_score` validator: within 0..100. */
  predicate StatsValid(s: Stats)
  {
    0 <= s.comfortScore <= MaxComfortScore
  }

  /** The stats table, keyed by `user_id`: exactly one row per user once
      created. */
  type StatsStore = map<UserId, Stats>

  /** The row `getOrCreateStats` creates: zero streaks, zero score, no
      badges. */
  function ZeroStats(): (s: Stats)
    ensures StatsValid(s)
    ensures s.currentStreak == 0 && s.longestStreak == 0 && s.comfortScore == 0 && s.badges == []
  {
    Stats(0, 0, 0, [])
  }

  /** `getOrCreateStats`: the user's row, created zero-valued if missing. */
  function GetOrCreateStats(stats: StatsStore, u: UserId): (r: (StatsStore, Stats))
    ensures u in r.0 && r.0[u] == r.1
    ensures u in stats ==> r.0 == stats
    ensures u !in stats ==> r.0 == stats[u := ZeroStats()]
    ensures r.0.Keys == stats.Keys + {u}
  {
    if u in stats then (stats, stats[u]) else (stats[u := ZeroStats()], ZeroStats())
  }

  /** A second `getOrCreateStats` finds the row the first one made and
      changes nothing. */
  lemma GetOrCreateStatsIdempotent(stats: StatsStore, u: UserId)
    ensures var (s1, row) := GetOrCreateStats(stats, u);
            GetOrCreateStats(s1, u) == (s1, row)
  {
  }

  // -------------------------------------------------------------- journal

  datatype JournalEntry = JournalEntry(id: string, userId: UserId, entryDate: string, content: string)

  const MaxJournalLength: int := 5000

  /** The `content` validator: 1..5000 characters. */
  predicate JournalEntryValid(e: JournalEntry)
  {
    1 <= |e.content| <= MaxJournalLength
  }

  // ----------------------------------------------------------------- wins

  datatype Win = Win(id: string, userId: Option<UserId>, text: string, likes: int, createdAt: Instant)

  datatype WinEventType = WinPosted | Like

  /** A rate-limit record: who acted (hashed), how, and when. */
  datatype WinEvent = WinEvent(userHash: string, kind: WinEventType, createdAt: Instant)
}

=== FILE: progress.dfy ===
/** The progress routes: editing the note of a completed challenge within a
    day of its completion, and the history that merges the user's
    challenge rows with their journal entries, newest date first. */
module Progress {
  import opened Wrappers
  import opened Days
  import opened Models
  import opened Http
  import opened Sorting

  // ------------------------------------------------------------ note edit

  datatype NoteEditError = NoteNotText | NoChallengeForDate | NotCompleted | EditWindowClosed | NoteTooLong

  /** The HTTP status each refusal is answered with; a note over the column
      limit fails the save's validation and reaches the generic handler. */
  function EditStatus(e: NoteEditError): (status: int)
    ensures status == 404 <==> e == NoChallengeForDate
    ensures status == 500 <==> e == NoteTooLong
    ensures status == 400 <==> e in {NoteNotText, NotCompleted, EditWindowClosed}
  {
    match e
    case NoteNotText => 400
    case NoChallengeForDate => 404
    case NotCompleted => 400
    case EditWindowClosed => 400
    case NoteTooLong => 500
  }

  /** Hours from `at` to `now`, as a fraction. */
  function HoursSince(now: Instant, at: Instant): real
  {
    (now - at) as real / MsPerHour as real
  }

  /** More than 24 hours is exactly more than one day of milliseconds. */
  lemma HoursAgainstMs(now: Instant, at: Instant)
    ensures HoursSince(now, at) > 24.0 <==> now - at > MsPerDay
    ensures HoursSince(now, at) < 24.0 <==> now - at < MsPerDay
  {
  }

  /** The note the route stores for a body field that passed the type
      check: the empty string and null both clear it. */
  function StoredNote(note: JsonValue): (r: Option<string>)
    requires note.Str? || note.Null?
    ensures r.Some? <==> note.Str? && |note.s| > 0
    ensures r.Some? ==> r.value == note.s
  {
    if note.Str? && |note.s| > 0 then Some(note.s) else None
  }

  /** PATCH `/:date/note`: the body's `note` must be a string or null; the
      assignment must exist and be completed, and at most 24 hours may have
      passed since its completion. Only the note changes. */
  function EditNote(store: AssignmentStore, u: UserId, date: Day, note: JsonValue, now: Instant)
    : (r: Result<(AssignmentStore, Option<string>), NoteEditError>)
    ensures r == Err(NoteNotText) <==> !note.Str? && !note.Null?
    ensures r == Err(NoChallengeForDate) <==> (note.Str? || note.Null?) && (u, date) !in store
    ensures r == Err(NotCompleted) <==>
      (note.Str? || note.Null?) && (u, date) in store && store[(u, date)].Pending()
    ensures r == Err(EditWindowClosed) <==>
      && (note.Str? || note.Null?) && (u, date) in store && store[(u, date)].completedAt.Some?
      && now - store[(u, date)].completedAt.value > MsPerDay
    ensures r == Err(NoteTooLong) <==>
      && note.Str? && (u, date) in store && store[(u, date)].completedAt.Some?
      && now - store[(u, date)].completedAt.value <= MsPerDay && |note.s| > MaxNoteLength
    ensures r.Ok? <==>
      && (note.Str? || note.Null?) && (u, date) in store && store[(u, date)].completedAt.Some?
      && now - store[(u, date)].completedAt.value <= MsPerDay && (note.Str? ==> |note.s| <= MaxNoteLength)
    ensures r.Ok? ==>
      && (u, date) in store
      && r.value.0 == store[(u, date) := store[(u, date)].(note := r.value.1)]
      && r.value.1 == StoredNote(note)
      && (r.value.1.Some? ==> |r.value.1.value| <= MaxNoteLength)
  {
    if !note.Str? && !note.Null? then Err(NoteNotText)
    else if (u, date) !in store then Err(NoChallengeForDate)
    else
      var a := store[(u, date)];
      if a.completedAt.None? then Err(NotCompleted)
      else if HoursSince(now, a.completedAt.value) > 24.0 then
        HoursAgainstMs(now, a.completedAt.value);
        Err(EditWindowClosed)
      else
        HoursAgainstMs(now, a.completedAt.value);
        var stored := StoredNote(note);
        if stored.Some? && |stored.value| > MaxNoteLength then Err(NoteTooLong)
        else Ok((store[(u, date) := a.(note := stored)], stored))
  }

  /** A note edit keeps every stored note within the column limit, touches
      no other assignment, and leaves the completion as it was. */
  lemma EditNoteKeepsStore(store: AssignmentStore, u: UserId, date: Day, note: JsonValue, now: Instant)
    requires StoreValid(store)
    ensures var r := EditNote(store, u, date, note, now);
            r.Ok? ==>
              && StoreValid(r.value.0)
              && r.value.0.Keys == store.Keys
              && r.value.0[(u, date)].completedAt == store[(u, date)].completedAt
              && r.value.0[(u, date)].challengeId == store[(u, date)].challengeId
              && forall k :: k in store && k != (u, date) ==> r.value.0[k] == store[k]
  {
  }

  /** The client's `canEditNote`: fewer than 24 hours since completion. */
  predicate ClientCanEditNote(completedAt: Option<Instant>, now: Instant)
  {
    completedAt.Some? && HoursSince(now, completedAt.value) < 24.0
  }

  /** At exactly 24 hours the server still accepts an edit that the client
      no longer offers, and a note within the column limit is stored; at
      every other age the two agree. */
  lemma EditWindowBoundary(store: AssignmentStore, u: UserId, date: Day, note: JsonValue, now: Instant)
    requires (note.Str? || note.Null?) && (u, date) in store && store[(u, date)].completedAt.Some?
    ensures var at := store[(u, date)].completedAt.value;
            var serverOpen := EditNote(store, u, date, note, now) != Err(EditWindowClosed);
            && (now - at == MsPerDay ==> serverOpen && !ClientCanEditNote(Some(at), now))
            && (now - at != MsPerDay ==> (serverOpen <==> ClientCanEditNote(Some(at), now)))
            && (now - at == MsPerDay && (note.Str? ==> |note.s| <= MaxNoteLength) ==>
                  EditNote(store, u, date, note, now).Ok?)
  {
    HoursAgainstMs(now, store[(u, date)].completedAt.value);
  }

  // -------------------------------------------------------------- history

  datatype ItemKind = ChallengeItem | JournalItem

  /** One entry of the history list. */
  datatype HistoryItem = HistoryItem(date: Day, kind: ItemKind, completed: bool, note: Option<string>)

  /** The note a challenge row shows: an empty note shows as null. */
  function ShownNote(note: Option<string>): (r: Option<string>)
    ensures r.Some? <==> note.Some? && |note.value| > 0
    ensures r.Some? ==> r == note
  {
    if note.Some? && |note.value| > 0 then note else None
  }

  /** The challenge rows as history items: completed exactly when the row
      has a completion time. */
  function ChallengeHistory(rows: seq<(Day, Assignment)>): (items: seq<HistoryItem>)
    ensures |items| == |rows|
    ensures forall i :: 0 <= i < |rows| ==>
      && items[i].date == rows[i].0
      && items[i].kind == ChallengeItem
      && (items[i].completed <==> rows[i].1.completedAt.Some?)
      && items[i].note == ShownNote(rows[i].1.note)
  {
    if |rows| == 0 then []
    else [HistoryItem(rows[0].0, ChallengeItem, rows[0].1.completedAt.Some?, ShownNote(rows[0].1.note))]
         + ChallengeHistory(rows[1..])
  }

  /** The journal entries as history items, always completed. */
  function JournalHistory(entries: seq<(Day, JournalEntry)>): (items: seq<HistoryItem>)
    ensures |items| == |entries|
    ensures forall i :: 0 <= i < |entries| ==>
      && items[i].date == entries[i].0 && items[i].kind == JournalItem
      && items[i].completed && items[i].note.None?
  {
    if |entries| == 0 then []
    else [HistoryItem(entries[0].0, JournalItem, true, None)] + JournalHistory(entries[1..])
  }

  function DateOf(item: HistoryItem): Day { item.date }

  /** The history list: challenge rows and journal entries together, newest
      date first, nothing lost and nothing added. */
  function History(rows: seq<(Day, Assignment)>, entries: seq<(Day, JournalEntry)>): (r: seq<HistoryItem>)
    ensures |r| == |rows| + |entries|
    ensures Descending(r, DateOf)
    ensures multiset(r) == multiset(ChallengeHistory(rows)) + multiset(JournalHistory(entries))
  {
    SortDesc(ChallengeHistory(rows) + JournalHistory(entries), DateOf)
  }

  /** On each date the history shows the challenge items first and then the
      journal items, each kind in its query's order: the merge puts the
      challenge rows first and the sort is stable. */
  lemma HistoryStable(rows: seq<(Day, Assignment)>, entries: seq<(Day, JournalEntry)>, d: Day)
    ensures WithKey(History(rows, entries), DateOf, d)
            == WithKey(ChallengeHistory(rows), DateOf, d) + WithKey(JournalHistory(entries), DateOf, d)
  {
    SortDescStable(ChallengeHistory(rows) + JournalHistory(entries), DateOf, d);
    WithKeyAppend(ChallengeHistory(rows), JournalHistory(entries), DateOf, d);
  }

  /** On one date, no challenge item comes after a journal item. */
  lemma ChallengeItemsFirstOnADate(rows: seq<(Day, Assignment)>, entries: seq<(Day, JournalEntry)>, p: nat, q: nat)
    requires p < q < |History(rows, entries)|
    requires History(rows, entries)[p].date == History(rows, entries)[q].date
    requires History(rows, entries)[p].kind == JournalItem
    ensures History(rows, entries)[q].kind == JournalItem
  {
    var r := History(rows, entries);
    var d := r[p].date;
    var chAll, jhAll := ChallengeHistory(rows), JournalHistory(entries);
    var ch, jh := WithKey(chAll, DateOf, d), WithKey(jhAll, DateOf, d);
    HistoryStable(rows, entries, d);
    WithKeyKeepsOrder(r, DateOf, p, q);
    var w := WithKey(r, DateOf, d);
    var i, j :| 0 <= i < j < |w| && w[i] == r[p] && w[j] == r[q];
    assert w == ch + jh;
    WithKeyMembers(chAll, DateOf, d);
    WithKeyMembers(jhAll, DateOf, d);
    if i < |ch| {
      ItemKinds(rows, entries, w[i]);
      assert false;
    }
    ItemKinds(rows, entries, w[j]);
  }

  /** Challenge rows become challenge items and entries journal items. */
  lemma ItemKinds(rows: seq<(Day, Assignment)>, entries: seq<(Day, JournalEntry)>, x: HistoryItem)
    ensures x in ChallengeHistory(rows) ==> x.kind == ChallengeItem
    ensures x in JournalHistory(entries) ==> x.kind == JournalItem
  {
  }

  /** A journal item in the history is always shown as completed. */
  lemma JournalItemsCompleted(rows: seq<(Day, Assignment)>, entries: seq<(Day, JournalEntry)>, item: HistoryItem)
    requires item in History(rows, entries) && item.kind == JournalItem
    ensures item.completed
  {
    var r := History(rows, entries);
    assert item in multiset(r);
    var ch := ChallengeHistory(rows);
    var jh := JournalHistory(entries);
    assert item in multiset(ch) || item in multiset(jh);
    assert item !in ch;
    assert item in jh;
  }
}

=== FILE: sorting.dfy ===
/** Newest-first ordering as the store's `ORDER BY ... DESC` queries and
    the history merge produce it: a stable insertion sort on an integer
    key, and the `LIMIT n` prefix. */
module Sorting {

  /** Non-increasing in `key`. */
  predicate Descending<T>(s: seq<T>, key: T -> int)
  {
    forall i, j :: 0 <= i < j < |s| ==> key(s[i]) >= key(s[j])
  }

  /** Inserts `x` ahead of the first item whose key is not larger than its
      own; into a descending list, that is ahead of every item with the
      same key. */
  function Insert<T(==)>(x: T, s: seq<T>, key: T -> int): (r: seq<T>)
    ensures multiset(r) == multiset(s) + multiset{x}
    ensures |r| == |s| + 1
    ensures r[0] == x || (|s| > 0 && r[0] == s[0])
  {
    if |s| == 0 || key(x) >= key(s[0]) then [x] + s
    else
      assert s == [s[0]] + s[1..];
      [s[0]] + Insert(x, s[1..], key)
  }

  lemma {:induction false} InsertSorted<T>(x: T, s: seq<T>, key: T -> int)
    requires Descending(s, key)
    ensures Descending(Insert(x, s, key), key)
    decreases |s|
  {
    if |s| > 0 && key(x) < key(s[0]) {
      var rest := Insert(x, s[1..], key);
      InsertSorted(x, s[1..], key);
      assert key(rest[0]) <= key(s[0]);
      assert Insert(x, s, key) == [s[0]] + rest;
    }
  }

  /** The items of `s` ordered by descending key, items with equal keys in
      their original order. */
  function SortDesc<T(==)>(s: seq<T>, key: T -> int): (r: seq<T>)
    ensures Descending(r, key)
    ensures multiset(r) == multiset(s)
    ensures |r| == |s|
  {
    if |s| == 0 then []
    else
      assert s == [s[0]] + s[1..];
      var sorted := SortDesc(s[1..], key);
      InsertSorted(s[0], sorted, key);
      Insert(s[0], sorted, key)
  }

  /** An inserted item lands ahead of an item with the same key;
      `SortDescStable` below states the stability of the whole sort. */
  lemma {:induction false} InsertKeepsEqualOrder<T>(x: T, s: seq<T>, key: T -> int, j: nat)
    requires j < |s| && key(s[j]) == key(x) && Descending(s, key)
    ensures exists i, k :: 0 <= i < k < |Insert(x, s, key)| && Insert(x, s, key)[i] == x && Insert(x, s, key)[k] == s[j]
    decreases |s|
  {
    var r := Insert(x, s, key);
    if key(x) >= key(s[0]) {
      assert r[0] == x && r[j + 1] == s[j];
    } else {
      assert key(s[0]) >= key(s[j]);
      assert j > 0;
      InsertKeepsEqualOrder(x, s[1..], key, j - 1);
      var rest := Insert(x, s[1..], key);
      var i, k :| 0 <= i < k < |rest| && rest[i] == x && rest[k] == s[1..][j - 1];
      assert r[i + 1] == x && r[k + 1] == s[j];
    }
  }

  /** The items of `s` whose key is `k`, in their order in `s`. */
  function WithKey<T>(s: seq<T>, key: T -> int, k: int): (r: seq<T>)
    ensures |r| <= |s|
    ensures forall i :: 0 <= i < |r| ==> key(r[i]) == k
  {
    if |s| == 0 then []
    else (if key(s[0]) == k then [s[0]] else []) + WithKey(s[1..], key, k)
  }

  /** Every selected item comes from `s` and carries key `k`, and every
      item of `s` with key `k` is selected. */
  lemma {:induction false} WithKeyMembers<T>(s: seq<T>, key: T -> int, k: int)
    ensures forall y :: y in WithKey(s, key, k) <==> y in s && key(y) == k
    decreases |s|
  {
    if |s| > 0 {
      WithKeyMembers(s[1..], key, k);
      assert s == [s[0]] + s[1..];
    }
  }

  /** Selecting by key from a sequence with a known first item. */
  lemma WithKeyCons<T>(y: T, t: seq<T>, key: T -> int, k: int)
    ensures WithKey([y] + t, key, k) == (if key(y) == k then [y] else []) + WithKey(t, key, k)
  {
    assert ([y] + t)[0] == y && ([y] + t)[1..] == t;
  }

  /** Selecting by key distributes over concatenation. */
  lemma {:induction false} WithKeyAppend<T>(a: seq<T>, b: seq<T>, key: T -> int, k: int)
    ensures WithKey(a + b, key, k) == WithKey(a, key, k) + WithKey(b, key, k)
    decreases |a|
  {
    if |a| == 0 {
      assert a + b == b;
    } else {
      assert (a + b)[0] == a[0] && (a + b)[1..] == a[1..] + b;
      WithKeyAppend(a[1..], b, key, k);
    }
  }

  /** Two items with the same key keep their relative order among the
      items of that key. */
  lemma {:induction false} WithKeyKeepsOrder<T>(s: seq<T>, key: T -> int, p: nat, q: nat)
    requires p < q < |s| && key(s[p]) == key(s[q])
    ensures var w := WithKey(s, key, key(s[p]));
            exists i, j :: 0 <= i < j < |w| && w[i] == s[p] && w[j] == s[q]
    decreases |s|
  {
    var k := key(s[p]);
    var head := if key(s[0]) == k then [s[0]] else [];
    var tail := WithKey(s[1..], key, k);
    assert s == [s[0]] + s[1..];
    WithKeyCons(s[0], s[1..], key, k);
    if p == 0 {
      WithKeyHolds(s[1..], key, q - 1);
      var j :| 0 <= j < |tail| && tail[j] == s[q];
      assert (head + tail)[0] == s[0] && (head + tail)[j + 1] == s[q];
    } else {
      WithKeyKeepsOrder(s[1..], key, p - 1, q - 1);
      var i, j :| 0 <= i < j < |tail| && tail[i] == s[p] && tail[j] == s[q];
      assert (head + tail)[|head| + i] == s[p] && (head + tail)[|head| + j] == s[q];
    }
  }

  /** An item is among the items of its own key. */
  lemma {:induction false} WithKeyHolds<T>(s: seq<T>, key: T -> int, m: nat)
    requires m < |s|
    ensures s[m] in WithKey(s, key, key(s[m]))
    decreases |s|
  {
    var k := key(s[m]);
    var head := if key(s[0]) == k then [s[0]] else [];
    assert WithKey(s, key, k) == head + WithKey(s[1..], key, k);
    if m > 0 {
      WithKeyHolds(s[1..], key, m - 1);
    }
  }

  /** Inserting `x` puts it ahead of every item of its own key and leaves
      the order of the other keys' items alone. */
  lemma {:induction false} InsertWithKey<T>(x: T, s: seq<T>, key: T -> int, k: int)
    ensures WithKey(Insert(x, s, key), key, k) == (if key(x) == k then [x] else []) + WithKey(s, key, k)
    decreases |s|
  {
    if |s| == 0 || key(x) >= key(s[0]) {
      assert Insert(x, s, key) == [x] + s;
      WithKeyCons(x, s, key, k);
    } else {
      var rest := Insert(x, s[1..], key);
      assert Insert(x, s, key) == [s[0]] + rest;
      WithKeyCons(s[0], rest, key, k);
      WithKeyCons(s[0], s[1..], key, k);
      assert [s[0]] + s[1..] == s;
      InsertWithKey(x, s[1..], key, k);
    }
  }

  /** The sort is stable: the items of each key come out in the order they
      went in. */
  lemma {:induction false} SortDescStable<T>(s: seq<T>, key: T -> int, k: int)
    ensures WithKey(SortDesc(s, key), key, k) == WithKey(s, key, k)
    decreases |s|
  {
    if |s| > 0 {
      SortDescStable(s[1..], key, k);
      InsertWithKey(s[0], SortDesc(s[1..], key), key, k);
    }
  }

  /** The first `n` items, or all of them when there are fewer: `LIMIT n`. */
  function Take<T>(s: seq<T>, n: nat): (r: seq<T>)
    ensures |r| <= n && |r| <= |s|
    ensures |s| <= n ==> r == s
    ensures n <= |s| ==> |r| == n
    ensures forall i :: 0 <= i < |r| ==> r[i] == s[i]
  {
    if |s| <= n then s else s[..n]
  }

  /** What `LIMIT n` leaves out of a descending list is never newer than
      what it keeps. */
  lemma TakeKeepsNewest<T>(s: seq<T>, n: nat, key: T -> int)
    requires Descending(s, key)
    ensures multiset(Take(s, n)) <= multiset(s)
    ensures forall x, y :: x in multiset(s) - multiset(Take(s, n)) && y in Take(s, n) ==> key(x) <= key(y)
  {
    if n < |s| {
      var kept, dropped := s[..n], s[n..];
      assert s == kept + dropped;
      assert multiset(s) - multiset(kept) == multiset(dropped);
      forall x, y | x in multiset(s) - multiset(kept) && y in kept
        ensures key(x) <= key(y)
      {
        var j :| 0 <= j < |dropped| && dropped[j] == x;
        var i :| 0 <= i < |kept| && kept[i] == y;
        assert s[n + j] == x && s[i] == y;
      }
    }
  }

  /** A prefix of a descending list is descending. */
  lemma TakeDescending<T>(s: seq<T>, n: nat, key: T -> int)
    requires Descending(s, key)
    ensures Descending(Take(s, n), key)
  {
  }
}

=== FILE: stats.dfy ===
/** The stats service: the per-user stats row, recomputed from the
    assignment history. The streak walk, the comfort score and the badge
    table are defined in their own modules; this one reads the history the
    way the service's queries do and writes the row back to the table. */
module StatsEngine {
  import opened Days
  import opened Models
  import opened Comfort
  import opened Streak
  import opened Badges

  /** A streak history query: the latest 100 days of the given kind. */
  function StreakQuery(days: set<Day>): (r: set<Day>)
    ensures r <= days
    ensures |r| <= StreakWindow
    ensures StreakWindow <= |days| ==> |r| == StreakWindow
    ensures days != {} ==> r != {} && Max(r) == Max(days)
  {
    LatestKeepsMax(days, StreakWindow);
    Latest(days, StreakWindow)
  }

  /** The current streak `updateStreak` computes on `today` from the days
      of the user's completed and skipped assignments. */
  function StreakOf(completed: set<Day>, skipped: set<Day>, today: Day): (n: nat)
    ensures n <= StreakWindow
    ensures n <= |completed|
    ensures completed == {} ==> n == 0
    ensures completed != {} && today - Max(completed) > 1 ==> n == 0
  {
    var recent := StreakQuery(completed);
    SubsetCard(recent, completed);
    CurrentStreak(recent, StreakQuery(skipped), today)
  }

  /** While the user has at most 100 completed and at most 100 skipped
      assignments, the queries see the whole history. */
  lemma ShortHistoryStreak(completed: set<Day>, skipped: set<Day>, today: Day)
    requires |completed| <= StreakWindow && |skipped| <= StreakWindow
    ensures StreakOf(completed, skipped, today) == CurrentStreak(completed, skipped, today)
  {
    LatestAll(completed, StreakWindow);
    LatestAll(skipped, StreakWindow);
  }

  /** `updateStreak`, given the days of the user's completed and skipped
      assignments: the row gets the recomputed current streak, and the
      longest streak is raised to it when it is longer. */
  function UpdateStreak(stats: StatsStore, u: UserId, completed: set<Day>, skipped: set<Day>, today: Day): (r: (StatsStore, Stats))
    ensures u in r.0 && r.0[u] == r.1
    ensures r.0.Keys == stats.Keys + {u}
    ensures forall v :: v in stats && v != u ==> r.0[v] == stats[v]
    ensures var before := GetOrCreateStats(stats, u).1;
            && r.1.currentStreak == StreakOf(completed, skipped, today)
            && r.1.longestStreak >= before.longestStreak
            && r.1.longestStreak >= r.1.currentStreak
            && (r.1.longestStreak == before.longestStreak || r.1.longestStreak == r.1.currentStreak)
            && r.1.comfortScore == before.comfortScore
            && r.1.badges == before.badges
  {
    var (s1, row) := GetOrCreateStats(stats, u);
    var current := StreakOf(completed, skipped, today);
    var longest := if current > row.longestStreak then current else row.longestStreak;
    var row' := row.(currentStreak := current, longestStreak := longest);
    (s1[u := row'], row')
  }

  /** `updateComfortScore`, given the completion stamps of the user's latest
      completions newest first: only the score changes. */
  function UpdateComfortScore(stats: StatsStore, u: UserId, now: Instant, stamps: seq<Instant>): (r: (StatsStore, Stats))
    requires QueriedStamps(stamps)
    ensures u in r.0 && r.0[u] == r.1
    ensures r.0.Keys == stats.Keys + {u}
    ensures forall v :: v in stats && v != u ==> r.0[v] == stats[v]
    ensures StatsValid(r.1)
    ensures var before := GetOrCreateStats(stats, u).1;
            && r.1.comfortScore == ComfortScore(now, stamps)
            && r.1.currentStreak == before.currentStreak
            && r.1.longestStreak == before.longestStreak
            && r.1.badges == before.badges
  {
    var (s1, row) := GetOrCreateStats(stats, u);
    var row' := row.(comfortScore := ComfortScore(now, stamps));
    (s1[u := row'], row')
  }

  /** What the badge check returns, and the table after it. */
  datatype BadgeOutcome = BadgeOutcome(stats: StatsStore, newBadges: seq<string>, allBadges: seq<string>)

  /** The counts the badge rules look at: the number of the user's
      completed assignments, and the streaks on the row. */
  function CountsOf(row: Stats, total: nat): Counts
  {
    Counts(total, row.currentStreak, row.longestStreak)
  }

  /** `checkAndAwardBadges`, given the number of the user's completed
      assignments: the newly earned ids are appended to the row's badges,
      and the row is written back only when there is at least one. */
  function AwardBadges(stats: StatsStore, u: UserId, total: nat): (r: BadgeOutcome)
    ensures var (s1, row) := GetOrCreateStats(stats, u);
            && r.allBadges == row.badges + r.newBadges
            && (forall x :: x in r.newBadges <==>
                  x !in row.badges && Qualifies(BadgeTable, CountsOf(row, total), x))
            && (NoDuplicates(row.badges) ==> NoDuplicates(r.allBadges))
            && (r.newBadges == [] ==> r.stats == s1)
            && (r.newBadges != [] ==> r.stats == s1[u := row.(badges := r.allBadges)])
  {
    var (s1, row) := GetOrCreateStats(stats, u);
    var counts := CountsOf(row, total);
    var awarded := Award(BadgeTable, row.badges, counts);
    AwardMembersAll(BadgeTable, row.badges, counts);
    AwardFresh(BadgeTable, row.badges, counts);
    var all := row.badges + awarded;
    if |awarded| > 0 then BadgeOutcome(s1[u := row.(badges := all)], awarded, all)
    else BadgeOutcome(s1, awarded, all)
  }

  /** A second badge check with nothing else changed awards nothing and
      leaves the table as the first one left it. */
  lemma AwardBadgesIdempotent(stats: StatsStore, u: UserId, total: nat)
    ensures var first := AwardBadges(stats, u, total);
            var second := AwardBadges(first.stats, u, total);
            second.newBadges == [] && second.stats == first.stats && second.allBadges == first.allBadges
  {
    var (s1, row) := GetOrCreateStats(stats, u);
    AwardIdempotent(BadgeTable, row.badges, CountsOf(row, total));
  }

  /** Every row's badge list is free of duplicates. */
  predicate BadgesDistinct(stats: StatsStore)
  {
    forall v :: v in stats ==> NoDuplicates(stats[v].badges)
  }

  /** The badge check keeps every badge list free of duplicates, and the
      list it returns has none. */
  lemma AwardBadgesKeepsDistinct(stats: StatsStore, u: UserId, total: nat)
    requires BadgesDistinct(stats)
    ensures BadgesDistinct(AwardBadges(stats, u, total).stats)
    ensures NoDuplicates(AwardBadges(stats, u, total).allBadges)
  {
    var (s1, row) := GetOrCreateStats(stats, u);
    assert NoDuplicates(row.badges);
    assert BadgesDistinct(s1);
  }

  /** `updateAllStats`, given the days of the user's completed and skipped
      assignments and the stamps of the latest completions: the comfort
      score, then the streaks, then the badge check against the fresh
      streaks. Returns the table and the row as the streak update left it. */
  function UpdateAllStats(stats: StatsStore, u: UserId, completed: set<Day>, skipped: set<Day>,
                          today: Day, now: Instant, stamps: seq<Instant>): (r: (StatsStore, Stats))
    requires QueriedStamps(stamps)
    ensures u in r.0 && r.0.Keys == stats.Keys + {u}
    ensures forall v :: v in stats && v != u ==> r.0[v] == stats[v]
    ensures StatsValid(r.0[u])
    ensures r.1.comfortScore == ComfortScore(now, stamps)
    ensures r.1.currentStreak == StreakOf(completed, skipped, today)
    ensures r.1.longestStreak >= GetOrCreateStats(stats, u).1.longestStreak
    ensures r.1.longestStreak >= r.1.currentStreak
    ensures r.0[u] == r.1.(badges := r.1.badges + Award(BadgeTable, r.1.badges, CountsOf(r.1, |completed|)))
  {
    var (s1, _) := UpdateComfortScore(stats, u, now, stamps);
    var (s2, row) := UpdateStreak(s1, u, completed, skipped, today);
    var outcome := AwardBadges(s2, u, |completed|);
    (outcome.stats, row)
  }

  /** Recomputing a user's stats keeps every badge list free of
      duplicates. */
  lemma UpdateAllStatsKeepsDistinct(stats: StatsStore, u: UserId, completed: set<Day>, skipped: set<Day>,
                                    today: Day, now: Instant, stamps: seq<Instant>)
    requires BadgesDistinct(stats) && QueriedStamps(stamps)
    ensures BadgesDistinct(UpdateAllStats(stats, u, completed, skipped, today, now, stamps).0)
  {
    var (s1, _) := UpdateComfortScore(stats, u, now, stamps);
    assert BadgesDistinct(s1);
    var (s2, _) := UpdateStreak(s1, u, completed, skipped, today);
    assert BadgesDistinct(s2);
    AwardBadgesKeepsDistinct(s2, u, |completed|);
  }
}

=== FILE: streak.dfy ===
/** The current streak: a backward walk over calendar days in which a
    completed day counts one, a skipped day is passed over without counting,
    and any other day ends the walk. */
module Streak {
  import opened Days

  /** Rows fetched by each history query, and steps of the backward walk. */
  const StreakWindow: nat := 100

  /** Day `x` is completed or skipped. */
  predicate Marked(completed: set<Day>, skipped: set<Day>, x: Day)
  {
    x in completed || x in skipped
  }

  /** Each of the `k` days `d, d - 1, ..., d - k + 1` is completed or skipped. */
  predicate Covered(completed: set<Day>, skipped: set<Day>, d: Day, k: nat)
  {
    forall x :: d - k < x <= d ==> Marked(completed, skipped, x)
  }

  /** The completed days within `lo..hi`. */
  function CompletedBetween(completed: set<Day>, lo: Day, hi: Day): set<Day>
  {
    set x | x in completed && lo <= x <= hi
  }

  /** The backward walk from day `d` for at most `steps` days. */
  function Walk(completed: set<Day>, skipped: set<Day>, d: Day, steps: nat): (n: nat)
    ensures n <= steps
    decreases steps
  {
    if steps == 0 then 0
    else if d in completed then 1 + Walk(completed, skipped, d - 1, steps - 1)
    else if d in skipped then Walk(completed, skipped, d - 1, steps - 1)
    else 0
  }

  /** Raising the top of a range by one day adds that day when it is
      completed. */
  lemma CompletedBetweenTop(c: set<Day>, lo: Day, d: Day)
    requires lo <= d
    ensures d in c ==> CompletedBetween(c, lo, d) == CompletedBetween(c, lo, d - 1) + {d}
    ensures d !in c ==> CompletedBetween(c, lo, d) == CompletedBetween(c, lo, d - 1)
    ensures d !in CompletedBetween(c, lo, d - 1)
  {
  }

  /** The walk counts exactly the completed days of the unbroken run of
      completed-or-skipped days that ends at `d`, the run cut at `n` days. */
  lemma {:induction false} WalkCountsCoveredRun(c: set<Day>, s: set<Day>, d: Day, n: nat, k: nat)
    requires k <= n && Covered(c, s, d, k)
    requires k < n ==> !Marked(c, s, d - k)
    ensures Walk(c, s, d, n) == |CompletedBetween(c, d - k + 1, d)|
    decreases k
  {
    if k == 0 {
      assert CompletedBetween(c, d + 1, d) == {};
    } else {
      assert Marked(c, s, d);
      assert (d - 1) - (k - 1) == d - k;
      assert Covered(c, s, d - 1, k - 1);
      WalkCountsCoveredRun(c, s, d - 1, n - 1, k - 1);
      CompletedBetweenTop(c, d - k + 1, d);
    }
  }

  /** The walk never counts more completed days than lie in the window it
      can reach. */
  lemma {:induction false} WalkWithinWindow(c: set<Day>, s: set<Day>, d: Day, n: nat)
    ensures Walk(c, s, d, n) <= |CompletedBetween(c, d - n + 1, d)|
    ensures Walk(c, s, d, n) <= |c|
    decreases n
  {
    SubsetCard(CompletedBetween(c, d - n + 1, d), c);
    if n > 0 && Marked(c, s, d) {
      WalkWithinWindow(c, s, d - 1, n - 1);
      CompletedBetweenTop(c, d - n + 1, d);
    }
  }

  /** Where the walk starts: today if today is among the completed days,
      otherwise yesterday. */
  function StartDay(completed: set<Day>, today: Day): (d: Day)
    ensures d == today || d == today - 1
    ensures d == today <==> today in completed
  {
    if today in completed then today else today - 1
  }

  /** `updateStreak`'s value for `current_streak`, from the days of the
      completed and the skipped assignments the two history queries return
      (each at most the latest 100 of its kind). */
  function CurrentStreak(completed: set<Day>, skipped: set<Day>, today: Day): (n: nat)
    ensures n <= StreakWindow
    ensures n <= |completed|
    ensures completed == {} ==> n == 0
    ensures completed != {} && today - Max(completed) > 1 ==> n == 0
  {
    if completed == {} then 0
    else if today - Max(completed) > 1 then 0
    else
      var start := StartDay(completed, today);
      WalkWithinWindow(completed, skipped, start, StreakWindow);
      Walk(completed, skipped, start, StreakWindow)
  }

  /** With a completion today or yesterday, the streak is the number of
      completed days in the unbroken completed-or-skipped run ending at the
      start day; `k` is the length of that run, cut at 100 days. */
  lemma {:induction false} StreakIsRunLength(completed: set<Day>, skipped: set<Day>, today: Day, k: nat)
    requires completed != {} && today - Max(completed) <= 1
    requires k <= StreakWindow && Covered(completed, skipped, StartDay(completed, today), k)
    requires k < StreakWindow ==> !Marked(completed, skipped, StartDay(completed, today) - k)
    ensures var start := StartDay(completed, today);
            CurrentStreak(completed, skipped, today) == |CompletedBetween(completed, start - k + 1, start)|
  {
    WalkCountsCoveredRun(completed, skipped, StartDay(completed, today), StreakWindow, k);
  }

  /** A skipped day keeps the walk going without adding to it: when every
      day from `d` down to `x + 1` is completed or skipped, and day `x` is
      skipped but not completed and within reach, the walk counts the
      completed days above `x` and carries on below `x` with the steps left. */
  lemma {:induction false} SkipPassesThrough(c: set<Day>, s: set<Day>, d: Day, n: nat, x: Day)
    requires x <= d && d - x < n
    requires Covered(c, s, d, d - x) && x in s && x !in c
    ensures Walk(c, s, d, n) == |CompletedBetween(c, x + 1, d)| + Walk(c, s, x - 1, n - (d - x) - 1)
    decreases d - x
  {
    if x == d {
      assert CompletedBetween(c, x + 1, d) == {};
    } else {
      assert Marked(c, s, d);
      assert Covered(c, s, d - 1, d - 1 - x);
      SkipPassesThrough(c, s, d - 1, n - 1, x);
      CompletedBetweenTop(c, x + 1, d);
    }
  }

  /** A day `g` that is neither completed nor skipped ends the walk: the
      days below `g` never change what it counts. */
  lemma {:induction false} GapEndsTheWalk(c: set<Day>, s: set<Day>, c2: set<Day>, s2: set<Day>, d: Day, n: nat, g: Day)
    requires g <= d && !Marked(c, s, g)
    requires forall x :: g <= x <= d ==> (x in c <==> x in c2) && (x in s <==> x in s2)
    ensures Walk(c, s, d, n) == Walk(c2, s2, d, n)
    decreases n
  {
    if n > 0 && d > g {
      GapEndsTheWalk(c, s, c2, s2, d - 1, n - 1, g);
    }
  }

  /** Completed on day 1, skipped day 2, completed day 3: a streak of 2 on
      day 3. */
  lemma SkipExample()
    ensures CurrentStreak({1, 3}, {2}, 3) == 2
  {
    assert Max({1, 3}) == 3 by {
      assert IsMax(Max({1, 3}), {1, 3});
    }
    assert Walk({1, 3}, {2}, 0, 97) == 0;
    assert Walk({1, 3}, {2}, 1, 98) == 1;
  }

  /** Completed on days 1 and 3 with nothing on day 2: a streak of 1 on
      day 3. */
  lemma GapExample()
    ensures CurrentStreak({1, 3}, {}, 3) == 1
  {
    assert Max({1, 3}) == 3 by {
      assert IsMax(Max({1, 3}), {1, 3});
    }
    assert Walk({1, 3}, {}, 2, 99) == 0;
  }
}

=== FILE: streakring.dfy ===
/** The streak ring on the client: the next milestone, the ring's fill,
    its colour and message, and when the two captions under it show. */
module StreakRing {
  import opened Wrappers

  const Milestones: seq<int> := [7, 14, 30, 60, 100]

  predicate Ascending(ms: seq<int>)
  {
    forall i, j :: 0 <= i < j < |ms| ==> ms[i] < ms[j]
  }

  /** `ms.find(m => m > streak)`: the first element above the streak. In an
      ascending list, that is the smallest one above it. */
  function FindAbove(ms: seq<int>, streak: int): (r: Option<int>)
    ensures r.None? <==> forall i :: 0 <= i < |ms| ==> ms[i] <= streak
    ensures r.Some? ==> r.value in ms && r.value > streak
    ensures r.Some? && Ascending(ms) ==> forall i :: 0 <= i < |ms| && ms[i] > streak ==> r.value <= ms[i]
  {
    if |ms| == 0 then None
    else if ms[0] > streak then Some(ms[0])
    else
      var r := FindAbove(ms[1..], streak);
      assert forall i :: 1 <= i < |ms| ==> ms[i] == ms[1..][i - 1];
      r
  }

  /** The first milestone above the streak, or the last milestone when
      none is above (the milestones are all truthy, so `|| last` only
      applies when the search finds nothing). */
  function NextMilestone(streak: int): (m: int)
    ensures m in Milestones
    ensures streak < 100 ==> streak < m && forall x :: x in Milestones && x > streak ==> m <= x
    ensures streak >= 100 ==> m == 100
  {
    match FindAbove(Milestones, streak)
    case Some(m) => m
    case None => Milestones[|Milestones| - 1]
  }

  function MinReal(a: real, b: real): real { if a <= b then a else b }

  /** The ring's fill in percent. */
  function Progress(streak: int): (p: real)
    ensures streak >= 0 ==> 0.0 <= p <= 100.0
    ensures 0 <= streak < 100 ==> p < 100.0
    ensures streak >= 100 ==> p == 100.0
  {
    var m := NextMilestone(streak);
    RatioBounds(streak as real, m as real);
    MinReal(100.0, (streak as real / m as real) * 100.0)
  }

  lemma RatioBounds(a: real, b: real)
    requires b > 0.0
    ensures a >= 0.0 ==> a / b >= 0.0
    ensures a < b ==> a / b < 1.0
  {
    var q := a / b;
    assert q * b == a;
    assert (1.0 - q) * b == b - a;
  }

  datatype Colour = Green | Blue | Purple | Neutral

  function StreakColour(streak: int): (c: Colour)
    ensures c == Green <==> streak >= 30
    ensures c == Blue <==> 14 <= streak < 30
    ensures c == Purple <==> 7 <= streak < 14
    ensures c == Neutral <==> streak < 7
  {
    if streak >= 30 then Green
    else if streak >= 14 then Blue
    else if streak >= 7 then Purple
    else Neutral
  }

  function Rank(c: Colour): int
  {
    match c
    case Neutral => 0
    case Purple => 1
    case Blue => 2
    case Green => 3
  }

  /** A longer streak never shows a lesser colour. */
  lemma ColourMonotone(a: int, b: int)
    requires a <= b
    ensures Rank(StreakColour(a)) <= Rank(StreakColour(b))
  {
  }

  datatype Message = StartYourStreak | GreatStart | KeepGoing | OnFire | Incredible | Amazing

  function StreakMessage(streak: int): (msg: Message)
    ensures msg == StartYourStreak <==> streak == 0
    ensures msg == GreatStart <==> streak == 1
    ensures msg == KeepGoing <==> streak < 7 && streak != 0 && streak != 1
    ensures msg == OnFire <==> 7 <= streak < 14
    ensures msg == Incredible <==> 14 <= streak < 30
    ensures msg == Amazing <==> streak >= 30
  {
    if streak == 0 then StartYourStreak
    else if streak == 1 then GreatStart
    else if streak < 7 then KeepGoing
    else if streak < 14 then OnFire
    else if streak < 30 then Incredible
    else Amazing
  }

  /** The message bands refine the colour bands: two streaks with the same
      message have the same colour. */
  lemma MessageRefinesColour(a: int, b: int)
    requires StreakMessage(a) == StreakMessage(b)
    ensures StreakColour(a) == StreakColour(b)
  {
  }

  /** The "N more to M days" caption: shown for a positive streak below the
      next milestone, with N the days still missing. */
  function MoreCaption(streak: int): (r: Option<(int, int)>)
    ensures r.Some? <==> 0 < streak < 100
    ensures r.Some? ==> r.value.1 == NextMilestone(streak) && r.value.0 == r.value.1 - streak && r.value.0 > 0
  {
    var next := NextMilestone(streak);
    if streak > 0 && streak < next then Some((next - streak, next)) else None
  }

  /** Between two consecutive milestones, the caption counts down by one
      per day and reaches the milestone exactly. */
  lemma MoreCaptionCountsDown(streak: int)
    requires 0 < streak < 99 && NextMilestone(streak) == NextMilestone(streak + 1)
    ensures MoreCaption(streak + 1).value.0 == MoreCaption(streak).value.0 - 1
  {
  }

  /** The "Best" caption: shown when the longest streak beats the current
      one. */
  function BestCaption(current: int, longest: int): (r: Option<int>)
    ensures r.Some? <==> longest > current
    ensures r.Some? ==> r.value == longest
  {
    if longest > current then Some(longest) else None
  }
}

=== FILE: text.dfy ===
/** String helpers with JavaScript's meaning: `length`,
    `String.prototype.trim`, the regular-expression class `\s`,
    `startsWith` and `includes`. */
module Text {

  /** ECMAScript white space and line terminators: what `trim` removes and
      what the regular-expression class `\s` matches. */
  predicate IsSpace(c: char)
  {
    || c == ' ' || c == '\t' || c == '\n' || c == '\r'
    || c == '\U{000B}' || c == '\U{000C}' || c == '\U{00A0}' || c == '\U{1680}'
    || ('\U{2000}' <= c <= '\U{200A}')
    || c == '\U{2028}' || c == '\U{2029}' || c == '\U{202F}' || c == '\U{205F}'
    || c == '\U{3000}' || c == '\U{FEFF}'
  }

  /** A character outside the Basic Multilingual Plane: JavaScript stores
      it as a surrogate pair of two UTF-16 code units. */
  predicate Astral(c: char)
  {
    c > '\U{FFFF}'
  }

  /** `s.length`: the number of UTF-16 code units, two for each astral
      character and one for every other. */
  function Utf16Length(s: string): (n: nat)
    ensures |s| <= n <= 2 * |s|
  {
    if |s| == 0 then 0
    else (if Astral(s[0]) then 2 else 1) + Utf16Length(s[1..])
  }

  /** The code-unit count equals the character count exactly when no
      character is astral. */
  lemma {:induction false} Utf16LengthIsCount(s: string)
    ensures Utf16Length(s) == |s| <==> forall i :: 0 <= i < |s| ==> !Astral(s[i])
    decreases |s|
  {
    if |s| > 0 {
      Utf16LengthIsCount(s[1..]);
      assert forall i :: 1 <= i < |s| ==> s[1..][i - 1] == s[i];
    }
  }

  /** The code units of a concatenation are those of its parts. */
  lemma {:induction false} Utf16LengthAppend(s: string, t: string)
    ensures Utf16Length(s + t) == Utf16Length(s) + Utf16Length(t)
    decreases |s|
  {
    if |s| > 0 {
      assert (s + t)[0] == s[0] && (s + t)[1..] == s[1..] + t;
      Utf16LengthAppend(s[1..], t);
    } else {
      assert s + t == t;
    }
  }

  /** An emoji is two code units: four of them make a string of length 8. */
  lemma Utf16Examples()
    ensures Utf16Length("\U{1F600}\U{1F600}\U{1F600}\U{1F600}") == 8
    ensures Utf16Length("abcd") == 4
  {
    var e := "\U{1F600}\U{1F600}\U{1F600}\U{1F600}";
    assert e[1..][1..][1..][1..] == [];
  }

  predicate AllSpace(s: string)
  {
    forall i :: 0 <= i < |s| ==> IsSpace(s[i])
  }

  function TrimStart(s: string): (r: string)
    ensures |r| <= |s| && r == s[|s| - |r|..]
    ensures forall i :: 0 <= i < |s| - |r| ==> IsSpace(s[i])
    ensures |r| > 0 ==> !IsSpace(r[0])
  {
    if |s| > 0 && IsSpace(s[0]) then TrimStart(s[1..]) else s
  }

  function TrimEnd(s: string): (r: string)
    ensures |r| <= |s| && r == s[..|r|]
    ensures forall i :: |r| <= i < |s| ==> IsSpace(s[i])
    ensures |r| > 0 ==> !IsSpace(r[|r| - 1])
  {
    if |s| > 0 && IsSpace(s[|s| - 1]) then TrimEnd(s[..|s| - 1]) else s
  }

  lemma TrimEmptyOnlyIfAllSpace(s: string)
    requires |TrimStart(TrimEnd(s))| == 0
    ensures AllSpace(s)
  {
  }

  /** A range of white space is an all-white-space slice. */
  lemma AllSpaceSlice(s: string, lo: int, hi: int)
    requires 0 <= lo <= hi <= |s|
    requires forall j :: lo <= j < hi ==> IsSpace(s[j])
    ensures AllSpace(s[lo..hi])
  {
    var t := s[lo..hi];
    forall j | 0 <= j < |t|
      ensures IsSpace(t[j])
    {
      assert t[j] == s[lo + j];
    }
  }

  /** Trimming the end and then the start leaves a slice of `s` with only
      white space before and after it. */
  lemma TrimFrame(s: string)
    ensures var e := TrimEnd(s); var r := TrimStart(e); var i := |e| - |r|;
            && SliceAt(s, i, r) && AllSpace(s[..i]) && AllSpace(s[i + |r|..])
  {
    var e := TrimEnd(s);
    var r := TrimStart(e);
    var i := |e| - |r|;
    forall j | 0 <= j < i
      ensures IsSpace(s[j])
    {
      assert s[j] == e[j];
    }
    AllSpaceSlice(s, 0, i);
    assert s[0..i] == s[..i];
    AllSpaceSlice(s, |e|, |s|);
    assert s[|e|..|s|] == s[|e|..];
    assert s[i..|e|] == e[i..];
  }

  /** The trimmed text is empty exactly when `s` is all white space, and
      otherwise starts and ends with other characters. */
  lemma TrimEnds(s: string)
    ensures var r := TrimStart(TrimEnd(s));
            && (|r| == 0 <==> AllSpace(s))
            && (|r| > 0 ==> !IsSpace(r[0]) && !IsSpace(r[|r| - 1]))
  {
    var e := TrimEnd(s);
    var r := TrimStart(e);
    if |r| == 0 {
      TrimEmptyOnlyIfAllSpace(s);
    } else {
      assert r == e[|e| - |r|..];
      assert r[|r| - 1] == e[|e| - 1];
      assert e == s[..|e|];
      assert s[|e| - 1] == e[|e| - 1];
    }
  }

  /** `s.trim()`: `s` without its leading and trailing white space. */
  function Trim(s: string): (r: string)
    ensures |r| <= |s|
    ensures exists i :: SliceAt(s, i, r)
    ensures exists i :: SliceAt(s, i, r) && AllSpace(s[..i]) && AllSpace(s[i + |r|..])
    ensures |r| == 0 <==> AllSpace(s)
    ensures |r| > 0 ==> !IsSpace(r[0]) && !IsSpace(r[|r| - 1])
  {
    var e := TrimEnd(s);
    var r := TrimStart(e);
    TrimFrame(s);
    TrimEnds(s);
    var i := |e| - |r|;
    assert SliceAt(s, i, r) && AllSpace(s[..i]) && AllSpace(s[i + |r|..]);
    r
  }

  /** `t` sits in `s` at `i` with only white space around it, and starts
      and ends with a character that is not white space. */
  predicate SpaceFramed(s: string, i: int, t: string)
  {
    && SliceAt(s, i, t) && AllSpace(s[..i]) && AllSpace(s[i + |t|..])
    && |t| > 0 && !IsSpace(t[0]) && !IsSpace(t[|t| - 1])
  }

  /** At most one slice of `s` is framed by white space. */
  lemma SpaceFramedUnique(s: string, i: int, t: string, i2: int, t2: string)
    requires SpaceFramed(s, i, t) && SpaceFramed(s, i2, t2)
    ensures i == i2 && t == t2
  {
    var j, j2 := i + |t|, i2 + |t2|;
    assert s[i] == t[0] && s[i2] == t2[0] by {
      assert s[i..j][0] == s[i] && s[i2..j2][0] == s[i2];
    }
    assert s[j - 1] == t[|t| - 1] && s[j2 - 1] == t2[|t2| - 1] by {
      assert s[i..j][|t| - 1] == s[j - 1] && s[i2..j2][|t2| - 1] == s[j2 - 1];
    }
    if i < i2 {
      assert false;
    } else if i2 < i {
      assert false;
    }
    if j < j2 {
      assert false;
    } else if j2 < j {
      assert false;
    }
  }

  /** Whatever slice of `s` is framed by white space is `s.trim()`: the
      trim removes all the white space at either end and nothing more. */
  lemma TrimUnique(s: string, i: int, t: string)
    requires SpaceFramed(s, i, t)
    ensures Trim(s) == t
  {
    FramedIsTrimmed(s, i, t);
  }

  /** The same, for the two trimming passes. */
  lemma FramedIsTrimmed(s: string, i: int, t: string)
    requires SpaceFramed(s, i, t)
    ensures TrimStart(TrimEnd(s)) == t
  {
    var e := TrimEnd(s);
    var r := TrimStart(e);
    TrimFrame(s);
    TrimEnds(s);
    assert s[i] == t[0] by {
      assert s[i..i + |t|][0] == s[i];
    }
    assert !AllSpace(s);
    assert SpaceFramed(s, |e| - |r|, r);
    SpaceFramedUnique(s, i, t, |e| - |r|, r);
  }





  /** `s.startsWith(p)`. */
  predicate StartsWith(s: string, p: string)
  {
    |p| <= |s| && s[..|p|] == p
  }

  /** `t` occurs in `s` starting at index `i`. */
  predicate SliceAt(s: string, i: int, t: string)
  {
    0 <= i <= |s| - |t| && s[i..i + |t|] == t
  }

  /** `s.includes(t)`. */
  predicate Contains(s: string, t: string)
  {
    exists i | 0 <= i <= |s| - |t| :: SliceAt(s, i, t)
  }
}

=== FILE: wins.dfy ===
/** The wins wall: anonymous-or-not posts of small wins and likes on them,
    each limited per hashed user by a one-minute sliding window, and the
    route that validates the text and maps service errors to statuses. */
module Wins {
  import opened Wrappers
  import opened Models
  import opened Http
  import opened Text
  import opened Sorting

  /** The wins table and the event log, in insertion order. */
  datatype WinsState = WinsState(wins: seq<Win>, events: seq<WinEvent>)

  const RateWindowMs: int := 60_000

  /** How many events of a kind one user may have in the window. */
  function Limit(kind: WinEventType): (n: nat)
    ensures n == 1 <==> kind == WinPosted
    ensures n == 10 <==> kind == Like
  {
    match kind
    case WinPosted => 1
    case Like => 10
  }

  /** The events the rate check counts: this user, this kind, created at
      or after one minute before `now`. */
  predicate InWindow(e: WinEvent, userHash: string, kind: WinEventType, now: Instant)
  {
    e.userHash == userHash && e.kind == kind && e.createdAt >= now - RateWindowMs
  }

  function RecentCount(events: seq<WinEvent>, userHash: string, kind: WinEventType, now: Instant): (n: nat)
    ensures n <= |events|
  {
    if |events| == 0 then 0
    else
      RecentCount(events[..|events| - 1], userHash, kind, now)
      + (if InWindow(events[|events| - 1], userHash, kind, now) then 1 else 0)
  }

  /** `checkRateLimit`: fewer events in the window than the limit. */
  predicate MayAct(events: seq<WinEvent>, userHash: string, kind: WinEventType, now: Instant)
  {
    RecentCount(events, userHash, kind, now) < Limit(kind)
  }

  /** No event in the log means nothing to count. */
  lemma {:induction false} NoneInWindow(events: seq<WinEvent>, userHash: string, kind: WinEventType, now: Instant)
    requires forall i :: 0 <= i < |events| ==> !InWindow(events[i], userHash, kind, now)
    ensures RecentCount(events, userHash, kind, now) == 0
    ensures MayAct(events, userHash, kind, now)
    decreases |events|
  {
    if |events| > 0 {
      NoneInWindow(events[..|events| - 1], userHash, kind, now);
    }
  }

  /** The hash the events are keyed by: the user's hash, or the shared
      `anonymous` for a request without a user id. */
  function UserHash(userId: Option<UserId>, hash: UserId -> string): (h: string)
    ensures userId.None? ==> h == "anonymous"
    ensures userId == Some("") ==> h == "anonymous"
    ensures userId.Some? && |userId.value| > 0 ==> h == hash(userId.value)
  {
    if userId.Some? && |userId.value| > 0 then hash(userId.value) else "anonymous"
  }

  datatype WinsError = RateLimited | WinNotFound

  function Message(e: WinsError): string
  {
    match e
    case RateLimited => "Rate limit exceeded. Please wait a minute."
    case WinNotFound => "Win not found"
  }

  /** `createWin`: refused within a minute of the user's last post; otherwise
      a win with no likes, holding the filtered text, and one post event. */
  function CreateWin(st: WinsState, userId: Option<UserId>, text: string, newId: string, now: Instant,
                     hash: UserId -> string, filter: string -> string): (r: Result<(WinsState, Win), WinsError>)
    ensures r.Err? <==> !MayAct(st.events, UserHash(userId, hash), WinPosted, now)
    ensures r.Err? ==> r.error == RateLimited
    ensures r.Ok? ==>
      var w := r.value.1;
      && w.likes == 0 && w.id == newId && w.userId == userId && w.text == filter(text) && w.createdAt == now
      && r.value.0.wins == st.wins + [w]
      && r.value.0.events == st.events + [WinEvent(UserHash(userId, hash), WinPosted, now)]
  {
    var h := UserHash(userId, hash);
    if !MayAct(st.events, h, WinPosted, now) then Err(RateLimited)
    else
      var w := Win(newId, userId, filter(text), 0, now);
      Ok((WinsState(st.wins + [w], st.events + [WinEvent(h, WinPosted, now)]), w))
  }

  /** The position of the win with this id, if any. */
  function FindWin(wins: seq<Win>, id: string): (r: Option<nat>)
    ensures r.Some? ==> r.value < |wins| && wins[r.value].id == id
    ensures r.None? ==> forall i :: 0 <= i < |wins| ==> wins[i].id != id
  {
    if |wins| == 0 then None
    else if wins[0].id == id then Some(0)
    else
      match FindWin(wins[1..], id)
      case Some(i) => Some(i + 1)
      case None => None
  }

  /** `likeWin`: an unknown id is refused before the rate check; a liked win
      gains exactly one like, and one like event is logged. */
  function LikeWin(st: WinsState, winId: string, userId: Option<UserId>, now: Instant,
                   hash: UserId -> string): (r: Result<WinsState, WinsError>)
    ensures r == Err(WinNotFound) <==> FindWin(st.wins, winId).None?
    ensures r == Err(RateLimited) <==>
      FindWin(st.wins, winId).Some? && !MayAct(st.events, UserHash(userId, hash), Like, now)
    ensures r.Ok? ==>
      var i := FindWin(st.wins, winId).value;
      && |r.value.wins| == |st.wins|
      && r.value.wins[i] == st.wins[i].(likes := st.wins[i].likes + 1)
      && (forall j :: 0 <= j < |st.wins| && j != i ==> r.value.wins[j] == st.wins[j])
      && r.value.events == st.events + [WinEvent(UserHash(userId, hash), Like, now)]
  {
    match FindWin(st.wins, winId)
    case None => Err(WinNotFound)
    case Some(i) =>
      var h := UserHash(userId, hash);
      if !MayAct(st.events, h, Like, now) then Err(RateLimited)
      else
        var w := st.wins[i];
        Ok(WinsState(st.wins[i := w.(likes := w.likes + 1)], st.events + [WinEvent(h, Like, now)]))
  }

  // ------------------------------------------------------------ the window

  lemma RecentCountAppend(events: seq<WinEvent>, e: WinEvent, userHash: string, kind: WinEventType, now: Instant)
    ensures RecentCount(events + [e], userHash, kind, now)
         == RecentCount(events, userHash, kind, now) + (if InWindow(e, userHash, kind, now) then 1 else 0)
  {
    assert (events + [e])[..|events|] == events;
  }

  /** One post per minute: after a post, the same user's next post within
      the minute is refused. */
  lemma SecondPostRefused(st: WinsState, userId: Option<UserId>, text: string, text2: string, id: string, id2: string,
                          now: Instant, later: Instant, hash: UserId -> string, filter: string -> string)
    requires now <= later < now + RateWindowMs
    requires CreateWin(st, userId, text, id, now, hash, filter).Ok?
    ensures var st1 := CreateWin(st, userId, text, id, now, hash, filter).value.0;
            CreateWin(st1, userId, text2, id2, later, hash, filter) == Err(RateLimited)
  {
    var h := UserHash(userId, hash);
    RecentCountAppend(st.events, WinEvent(h, WinPosted, now), h, WinPosted, later);
  }

  /** The count of a window is at least the count of any later window over
      the same log. */
  lemma {:induction false} RecentCountShrinks(events: seq<WinEvent>, userHash: string, kind: WinEventType, now: Instant, later: Instant)
    requires now <= later
    ensures RecentCount(events, userHash, kind, later) <= RecentCount(events, userHash, kind, now)
    decreases |events|
  {
    if |events| > 0 {
      RecentCountShrinks(events[..|events| - 1], userHash, kind, now, later);
    }
  }

  /** Once the minute has passed, a post is accepted again if no other post
      of the user falls in the new window. */
  lemma PostAgainAfterMinute(st: WinsState, userId: Option<UserId>, text: string, id: string, now: Instant,
                             hash: UserId -> string, filter: string -> string)
    requires forall i :: 0 <= i < |st.events| ==>
               !InWindow(st.events[i], UserHash(userId, hash), WinPosted, now)
    ensures CreateWin(st, userId, text, id, now, hash, filter).Ok?
  {
    NoneInWindow(st.events, UserHash(userId, hash), WinPosted, now);
  }

  // ------------------------------------------------------ the likes ledger

  function TotalLikes(wins: seq<Win>): int
  {
    if |wins| == 0 then 0 else TotalLikes(wins[..|wins| - 1]) + wins[|wins| - 1].likes
  }

  function CountKind(events: seq<WinEvent>, kind: WinEventType): (n: nat)
    ensures n <= |events|
  {
    if |events| == 0 then 0
    else CountKind(events[..|events| - 1], kind) + (if events[|events| - 1].kind == kind then 1 else 0)
  }

  /** The ledger the two operations keep: one post event per win, and one
      like event per like. */
  predicate Ledger(st: WinsState)
  {
    && CountKind(st.events, WinPosted) == |st.wins|
    && CountKind(st.events, Like) == TotalLikes(st.wins)
  }

  lemma CountKindAppend(events: seq<WinEvent>, e: WinEvent, kind: WinEventType)
    ensures CountKind(events + [e], kind) == CountKind(events, kind) + (if e.kind == kind then 1 else 0)
  {
    assert (events + [e])[..|events|] == events;
  }

  /** Raising one win's likes by one raises the total by one. */
  lemma {:induction false} TotalLikesBump(wins: seq<Win>, i: nat)
    requires i < |wins|
    ensures TotalLikes(wins[i := wins[i].(likes := wins[i].likes + 1)]) == TotalLikes(wins) + 1
    decreases |wins|
  {
    var w := wins[i := wins[i].(likes := wins[i].likes + 1)];
    var n := |wins| - 1;
    if i == n {
      assert w[..n] == wins[..n];
    } else {
      assert w[..n] == wins[..n][i := wins[..n][i].(likes := wins[..n][i].likes + 1)];
      TotalLikesBump(wins[..n], i);
    }
  }

  lemma CreateKeepsLedger(st: WinsState, userId: Option<UserId>, text: string, newId: string, now: Instant,
                          hash: UserId -> string, filter: string -> string)
    requires Ledger(st)
    ensures var r := CreateWin(st, userId, text, newId, now, hash, filter);
            r.Ok? ==> Ledger(r.value.0)
  {
    var r := CreateWin(st, userId, text, newId, now, hash, filter);
    if r.Ok? {
      var e := WinEvent(UserHash(userId, hash), WinPosted, now);
      CountKindAppend(st.events, e, WinPosted);
      CountKindAppend(st.events, e, Like);
      assert (st.wins + [r.value.1])[..|st.wins|] == st.wins;
    }
  }

  lemma LikeKeepsLedger(st: WinsState, winId: string, userId: Option<UserId>, now: Instant, hash: UserId -> string)
    requires Ledger(st)
    ensures var r := LikeWin(st, winId, userId, now, hash);
            r.Ok? ==> Ledger(r.value)
  {
    var r := LikeWin(st, winId, userId, now, hash);
    if r.Ok? {
      var i := FindWin(st.wins, winId).value;
      var e := WinEvent(UserHash(userId, hash), Like, now);
      CountKindAppend(st.events, e, WinPosted);
      CountKindAppend(st.events, e, Like);
      TotalLikesBump(st.wins, i);
      assert r.value.wins == st.wins[i := st.wins[i].(likes := st.wins[i].likes + 1)];
    }
  }

  // ------------------------------------------------------------ the reads

  function CreatedAt(w: Win): int { w.createdAt }

  /** `getRecentWins(limit)`: newest first, at most `limit`; all wins while
      there are no more than `limit`, and exactly `limit` otherwise. */
  function RecentWins(wins: seq<Win>, limit: nat): (r: seq<Win>)
    ensures |r| <= limit
    ensures forall w :: w in r ==> w in wins
    ensures Descending(r, CreatedAt)
    ensures multiset(r) <= multiset(wins)
    ensures |wins| <= limit ==> multiset(r) == multiset(wins)
    ensures limit <= |wins| ==> |r| == limit
  {
    var sorted := SortDesc(wins, CreatedAt);
    TakeDescending(sorted, limit, CreatedAt);
    TakeKeepsNewest(sorted, limit, CreatedAt);
    var r := Take(sorted, limit);
    assert forall w :: w in r ==> w in sorted;
    assert forall w :: w in sorted ==> w in multiset(wins);
    r
  }

  /** The recent wins are the newest: a win left out was created no later
      than any win returned. */
  lemma RecentWinsKeepNewest(wins: seq<Win>, limit: nat, x: Win, y: Win)
    requires x in wins && x !in RecentWins(wins, limit) && y in RecentWins(wins, limit)
    ensures CreatedAt(x) <= CreatedAt(y)
  {
    var sorted := SortDesc(wins, CreatedAt);
    TakeKeepsNewest(sorted, limit, CreatedAt);
    assert x in multiset(sorted) - multiset(RecentWins(wins, limit));
  }

  /** How many wins `GET /` asks for. */
  const FeedSize: nat := 50

  /** GET `/`: the 50 most recent wins, newest first. */
  function Feed(st: WinsState): (r: seq<Win>)
    ensures |r| <= FeedSize
    ensures multiset(r) <= multiset(st.wins)
    ensures Descending(r, CreatedAt)
    ensures FeedSize <= |st.wins| ==> |r| == FeedSize
    ensures |st.wins| <= FeedSize ==> multiset(r) == multiset(st.wins)
  {
    RecentWins(st.wins, FeedSize)
  }

  /** A win left out of the feed is no newer than any win in it. */
  lemma FeedKeepsNewest(st: WinsState, x: Win, y: Win)
    requires x in st.wins && x !in Feed(st) && y in Feed(st)
    ensures CreatedAt(x) <= CreatedAt(y)
  {
    RecentWinsKeepNewest(st.wins, FeedSize, x, y);
  }

  // ------------------------------------------------------------ the routes

  const MaxWinLength: int := 280

  /** What a socket broadcast carries. */
  datatype Broadcast = NewWin(win: Win) | Liked(id: string)

  /** A route's answer: the status, the state after it, and the broadcast
      it sends, if any. */
  datatype Response = Response(status: int, state: WinsState, broadcast: Option<Broadcast>)

  /** The POST `/` error handler: a rate-limit message is 403, anything else
      500. */
  function PostErrorStatus(message: string): (status: int)
    ensures status == 403 <==> Contains(message, "Rate limit")
    ensures status == 500 <==> !Contains(message, "Rate limit")
  {
    if Contains(message, "Rate limit") then 403 else 500
  }

  /** The POST `/:id/like` error handler: rate limit 403, unknown win 404,
      anything else 500. */
  function LikeErrorStatus(message: string): (status: int)
    ensures status == 403 <==> Contains(message, "Rate limit")
    ensures status == 404 <==> !Contains(message, "Rate limit") && message == "Win not found"
    ensures status == 500 <==> !Contains(message, "Rate limit") && message != "Win not found"
  {
    if Contains(message, "Rate limit") then 403
    else if message == "Win not found" then 404
    else 500
  }

  /** The service's two messages reach the statuses meant for them. */
  lemma MessagesMapToStatus()
    ensures PostErrorStatus(Message(RateLimited)) == 403
    ensures LikeErrorStatus(Message(RateLimited)) == 403
    ensures LikeErrorStatus(Message(WinNotFound)) == 404
  {
    assert SliceAt(Message(RateLimited), 0, "Rate limit");
    var m := Message(WinNotFound);
    forall i | 0 <= i <= |m| - 10
      ensures !SliceAt(m, i, "Rate limit")
    {
      assert m[i..i + 10][0] == m[i] != 'R';
    }
  }

  /** The text check of POST `/`: present, a string, not only white space,
      and at most 280 UTF-16 code units. */
  predicate WinTextOk(text: JsonValue)
  {
    Truthy(text) && text.Str? && !AllSpace(text.s) && Utf16Length(text.s) <= MaxWinLength
  }

  /** POST `/`: a refused text is 400 and changes nothing; otherwise the
      service decides, and only a created win is broadcast. */
  function PostWin(st: WinsState, userId: Option<UserId>, text: JsonValue, newId: string, now: Instant,
                   hash: UserId -> string, filter: string -> string, hasSocket: bool): (r: Response)
    ensures r.status == 400 <==> !WinTextOk(text)
    ensures r.status == 403 <==> WinTextOk(text) && !MayAct(st.events, UserHash(userId, hash), WinPosted, now)
    ensures r.status == 200 <==> WinTextOk(text) && MayAct(st.events, UserHash(userId, hash), WinPosted, now)
    ensures r.status != 200 ==> r.state == st && r.broadcast.None?
    ensures r.status == 200 ==>
      && r.state == CreateWin(st, userId, text.s, newId, now, hash, filter).value.0
      && (r.broadcast.Some? <==> hasSocket)
      && r.broadcast == (if hasSocket then Some(NewWin(CreateWin(st, userId, text.s, newId, now, hash, filter).value.1)) else None)
  {
    if !Truthy(text) || !text.Str? || |Trim(text.s)| == 0 then Response(400, st, None)
    else if Utf16Length(text.s) > MaxWinLength then Response(400, st, None)
    else
      match CreateWin(st, userId, text.s, newId, now, hash, filter)
      case Err(e) =>
        MessagesMapToStatus();
        Response(PostErrorStatus(Message(e)), st, None)
      case Ok((st1, w)) => Response(200, st1, if hasSocket then Some(NewWin(w)) else None)
  }

  /** POST `/:id/like`: the like is broadcast only when it happened. */
  function PostLike(st: WinsState, winId: string, userId: Option<UserId>, now: Instant,
                    hash: UserId -> string, hasSocket: bool): (r: Response)
    ensures r.status == 404 <==> FindWin(st.wins, winId).None?
    ensures r.status == 403 <==> FindWin(st.wins, winId).Some? && !MayAct(st.events, UserHash(userId, hash), Like, now)
    ensures r.status == 200 <==> LikeWin(st, winId, userId, now, hash).Ok?
    ensures r.status != 200 ==> r.state == st && r.broadcast.None?
    ensures r.status == 200 ==> r.broadcast == (if hasSocket then Some(Liked(winId)) else None)
  {
    match LikeWin(st, winId, userId, now, hash)
    case Err(e) =>
      MessagesMapToStatus();
      Response(LikeErrorStatus(Message(e)), st, None)
    case Ok(st1) => Response(200, st1, if hasSocket then Some(Liked(winId)) else None)
  }
}

=== FILE: wrappers.dfy ===
/** Option and Result datatypes that carry JavaScript's `null`/`undefined`
    and thrown errors as plain values. */
module Wrappers {

  /** A nullable value: `None` stands for JavaScript's `null`/`undefined`. */
  datatype Option<+T> = None | Some(value: T) {

    /** Returns the carried value, or `default` when there is none. */
    function GetOr(default: T): (r: T)
      ensures Some? ==> r == value
      ensures None? ==> r == default
    {
      match this
      case Some(v) => v
      case None => default
    }
  }

  /** The outcome of an operation that either returns a value or throws. */
  datatype Result<+R, +E> = Ok(value: R) | Err(error: E) {

    predicate IsFailure() {
      Err?
    }

    function PropagateFailure<U>(): Result<U, E>
      requires Err?
    {
      Err(error)
    }

    function Extract(): R
      requires Ok?
    {
      value
    }
  }
}
